=== FILE: README.md ===
# alx-backend-python, modelled in Dafny

This project models the pieces of logic in the alx-backend-python exercises
that can be stated exactly, and proves properties about them. Database,
HTTP and printing are replaced by values and parameters. The pieces are:

- **GitHub client** (`0x03-Unittests_and_integration_tests`).
  `access_nested_map`, the compute-once `memoize` property, and
  `GithubOrgClient`'s `org`, `_public_repos_url`, `has_license` and
  `public_repos`. There are two copies of the client: `client.py` has a
  total `has_license`; in `Client.py` it is guarded by `assert`s.
- **Generators** (`python-generators-0x00`).
  - `paginate_users` and the `lazy_paginate` offset loop, over a table held
    as a row sequence.
  - `stream_users_in_batches` and `batch_processing`.
  - `stream_user_ages` and `calculate_average_age`.
  - The insert-if-absent loop of `insert_data`.
- **Decorators** (`python-decorators-0x01`, `python-decorators-0x010`).
  - `with_db_connection`, `transactional` and `retry_on_failure` as runs:
    a result plus a trace of connection events and sleeps.
  - `cache_query` over the module-level cache dictionary.
  - The two `log_queries` variants, which pick the query with opposite
    precedence.
- **Chat application** (`messaging_app/chats`).
  - The permission classes as decision tables over (method, requester,
    object).
  - The viewset actions as transitions of a store of users, conversations
    and messages.
  - The serializers' validation and `create` rules.
  - The `__str__` methods of the models.
- **Settings** (`messaging_app/messaging_app/settings.py`).
  `get_env_variable` over an environment map, and the parsing of `DEBUG`,
  `EMAIL_USE_TLS` and `ALLOWED_HOSTS`.
- **Signals and manager** (`Django-signals_orm-0x04/messaging`).
  - Saving a message, with its `pre_save` (edit history) and `post_save`
    (notification) handlers.
  - Deleting a user, with the foreign-key cascades and `cleanup_user_data`.
  - The `UnreadMessagesManager` queries and `mark_as_read`. `messaging/models.py`
    defines a second, smaller copy of the class (without `count_unread` and
    `get_unread_by_sender`); the model follows the full one in
    `messaging/managers.py`, whose shared methods are the same.

Python values that the code inspects dynamically (request data, JSON
payloads, decorator arguments) are a `Json` datatype (`py_values.dfy`). On
it, truthiness, `in` and subscripting behave as in Python, including the
`TypeError`, `KeyError` and `AttributeError` they raise. Every exception is
a `PyError` inside a `Result`.

Modelling decisions:

- **Users and keys.** The chat application identifies users by one integer
  key. The source is inconsistent here:
  - `views.py` and `permissions.py` filter on `id`, although the custom
    `User`'s primary key is `user_id` and a conversation's is
    `conversation_id`.
  - `views.py` imports Django's built-in `User`, not the app's model.
  - `views.py` imports `ConversationListSerializer` and
    `MessageCreateSerializer`, which `serializers.py` does not define.
  - The model reads all of these as the intended single model with a single
    key.
- **Keys in request data** go through the primary key's conversion
  before a lookup, as Django's `get_prep_value` does (`ChatPermissions.PkValue`).
  `None` matches no row. An integer is itself, a boolean is `0` or `1`, and a
  numeral with an optional sign is its value. Any other string raises
  `ValueError`, and a list or dict raises `TypeError`. Neither is the
  `DoesNotExist` the views catch, so the request fails with the exception.
  `create` has already saved the conversation by then, with the requester as
  its only participant.
- **Ages.** The ages are integers (the column is `DECIMAL` with no
  scale). The average is their exact rational mean. A row's age may be SQL
  `NULL` although the schema declares the column `NOT NULL`: the generators
  do not rely on the schema, so the model keeps the case and the
  `TypeError` it leads to.
- **String case.** `str.lower` and `icontains` fold ASCII letters only.

## Model

| member | source | states |
|---|---|---|
| Utils.AccessNestedMap | 0x03-Unittests_and_integration_tests/utils.py:31-33 | For a path of string keys: an empty path gives the map itself; a key missing at the first step raises `KeyError` of that key; subscripting something that is not a dict raises `TypeError`. |
| Utils.AccessAppend | 0x03-Unittests_and_integration_tests/utils.py:31-33 | Walking `p + q` is walking `p` and then `q` from where `p` ended; an error on `p` is the error of the whole walk. |
| Utils.AccessSnoc | 0x03-Unittests_and_integration_tests/utils.py:31-33 | Path `p` then key `k` is subscripting the value found at `p` with `k`; a key missing at the last step raises `KeyError(k)`. |
| Utils.AccessExamples | 0x03-Unittests_and_integration_tests/utils.py:27-29 | The docstring example gives `2`; a missing key raises `KeyError("a")`; walking into a number raises `TypeError`, not the `KeyError` the docstring announces. |
| Utils.Memoize | 0x03-Unittests_and_integration_tests/utils.py:76-79 | With the attribute `"_" + name` present, `fn` is not called and the stored value is returned. Without it, `fn` is called once and its value is stored and returned. A raising `fn` stores nothing. No other attribute changes. |
| Utils.MemoizeStable | 0x03-Unittests_and_integration_tests/utils.py:77-79 | After a first successful read, any number of later reads call `fn` zero times and return the first value, whatever `fn` would now return. |
| Utils.StoredReadsAreConstant | 0x03-Unittests_and_integration_tests/utils.py:77-79 | When the attribute is already set, `fn` is never called and every read returns the stored value. |
| GithubClient.OrgUrlRoundTrip | 0x03-Unittests_and_integration_tests/client.py:19-41 | The organisation name can be read back from `ORG_URL` formatted with it, so distinct names give distinct URLs; `"google"` gives `https://api.github.com/orgs/google`. |
| GithubClient.Org | 0x03-Unittests_and_integration_tests/client.py:30-41 | The first read of `org` requests the organisation URL once and returns `get_json`'s answer; once stored, a read requests nothing and returns the stored payload. |
| GithubClient.OrgFetchedOnce | 0x03-Unittests_and_integration_tests/client.py:30-41 | Two reads of `org` issue exactly one request and return the same payload, even if `get_json` would answer differently the second time. |
| GithubClient.PublicReposUrl | 0x03-Unittests_and_integration_tests/client.py:43-51 | `_public_repos_url` is `org["repos_url"]` and issues exactly the requests of reading `org`; an `org` error propagates. |
| GithubClient.HasLicense | 0x03-Unittests_and_integration_tests/client.py:88-97 | False without a licence key, without a `"license"` entry, or with a `None` licence; otherwise true exactly when the licence is a dict whose `"key"` equals the key. |
| GithubClient.HasLicenseIff | 0x03-Unittests_and_integration_tests/client.py:88-97 | On repositories shaped like the API's, `has_license` never raises and is exactly key equality. |
| GithubClient.SelectNamesIsFilter | 0x03-Unittests_and_integration_tests/client.py:68-74 | A comprehension whose condition decides a predicate without raising yields the names of the repositories satisfying it, in their original order. |
| GithubClient.PublicReposWith | 0x03-Unittests_and_integration_tests/client.py:66-74 | `public_repos` requests the repositories URL after the requests of `_public_repos_url`; an error from either request is raised unchanged, a URL that is not a string or a payload that is not a list fails with an error. |
| GithubClient.PublicReposResult | 0x03-Unittests_and_integration_tests/client.py:66-74 | When the URL is a string and the payload a list of well-formed repositories, the result is all their names in order without a licence, and the names of the repositories carrying that key, in order, with one. |
| GithubClient.PublicReposNames | 0x03-Unittests_and_integration_tests/client.py:68-74 | Without a licence every name is returned in order; with one, exactly the names of the repositories carrying that key, in order. |
| GithubClient.FixtureRequests | 0x03-Unittests_and_integration_tests/client.py:41-66 | Against the integration fixture, a fresh client requests the organisation URL and then the repositories URL, nothing else. |
| GithubClient.FixturePublicReposAll | 0x03-Unittests_and_integration_tests/fixtures.py:77 | The fixture without a licence gives `episodes.dart`, `kratu`, `build-debian-cloud`. |
| GithubClient.FixturePublicReposApache | 0x03-Unittests_and_integration_tests/fixtures.py:79 | The fixture filtered by `apache-2.0` gives only `build-debian-cloud`. |
| GithubClientStrict.HasLicense | 0x03-Unittests_and_integration_tests/Client.py:69-73 | Each failed assertion raises `AssertionError` with its message: no key, no `"license"` entry, licence without `"key"`. A `None` licence raises `TypeError`. A result, when there is one, is key equality. |
| GithubClientStrict.HasLicenseAgreement | 0x03-Unittests_and_integration_tests/Client.py:69-73 | Where the assertions hold, the strict and the total `has_license` agree; for a repository without a licence entry the strict one raises and the total one is false. |
| GithubClientStrict.PublicRepos | 0x03-Unittests_and_integration_tests/Client.py:48-56 | Issues the same requests as the total client, and gives the same result without a licence argument. |
| GithubClientStrict.UnlicensedRepoFails | 0x03-Unittests_and_integration_tests/Client.py:50-54 | Licence filtering raises `AssertionError("repo must have a license key")` when the first repository has no licence entry, whatever follows. |
| GithubClientStrict.UnlicensedRepoAnywhereFails | 0x03-Unittests_and_integration_tests/Client.py:50-54 | A repository without a licence entry at any position makes licence filtering fail; when every repository before it has a name and a licence with a key, the exception is that repository's `AssertionError("repo must have a license key")`. |
| GithubClientStrict.FixtureStrict | 0x03-Unittests_and_integration_tests/Client.py:50-56 | On the fixture the strict client lists all three names without a licence but raises on `episodes.dart` when filtering by `apache-2.0`. |
| LazyPagination.PaginateUsers | python-generators-0x00/2-lazy_paginate.py:20-25 | A negative `LIMIT` or `OFFSET` is an error. Otherwise the page is the rows from `offset` on, at most `page_size` of them, full when the table reaches that far, and empty exactly when the size is 0 or the offset is past the end. |
| LazyPagination.LazyPaginateFrom | python-generators-0x00/2-lazy_paginate.py:38-53 | A run makes one fetch more than it yields pages, starting at its offset; it raises exactly for a negative page size and yields nothing for size 0 or an offset past the end. |
| LazyPagination.OffsetsAdvance | python-generators-0x00/2-lazy_paginate.py:38-53 | Each fetch offset is the previous one plus `page_size`. |
| LazyPagination.PagesFetched | python-generators-0x00/2-lazy_paginate.py:43-50 | Each yielded page is the non-empty result of the fetch at its offset. |
| LazyPagination.LastFetchEmpty | python-generators-0x00/2-lazy_paginate.py:41-47 | The fetch that ends an error-free run returns no rows. |
| LazyPagination.PagesAreWindows | python-generators-0x00/2-lazy_paginate.py:22-53 | Every page is the window at its offset, non-empty and at most `page_size` long; offsets advance by `page_size`; the last fetch is empty. |
| LazyPagination.WindowIsSlice | python-generators-0x00/2-lazy_paginate.py:22 | A fetch at a valid offset is the table slice from the offset to offset plus page size, clipped to the table. |
| LazyPagination.PagesCoverTable | python-generators-0x00/2-lazy_paginate.py:38-53 | For page size at least 1 the pages concatenate to the table from the starting offset, in order, without gaps or duplicates. |
| LazyPagination.OnlyLastPageShort | python-generators-0x00/2-lazy_paginate.py:22-53 | Every page but the last holds exactly `page_size` rows. |
| LazyPagination.LazyPaginate | python-generators-0x00/2-lazy_paginate.py:38-53 | The fetch loop produces the same pages, offsets and error as the recursive definition; for page size at least 1 the pages concatenate to the whole table and no error is raised. |
| LazyPagination.TenRowsInPagesOfThree | python-generators-0x00/2-lazy_paginate.py:22-53 | Ten rows in pages of three give pages of 3, 3, 3 and 1 rows after fetches at 0, 3, 6, 9 and 12. |
| LazyPagination.OnePageWhenLarge | python-generators-0x00/2-lazy_paginate.py:38-53 | A page size at least the table size gives the whole table as one page, then one empty fetch. |
| BatchProcessing.BatchesCover | python-generators-0x00/1-batch_processing.py:23-29 | The batches concatenate to the users: each user exactly once, in order. |
| BatchProcessing.BatchBounds | python-generators-0x00/1-batch_processing.py:23-25 | Every batch is non-empty and holds at most `batch_size` users. |
| BatchProcessing.OnlyLastBatchShort | python-generators-0x00/1-batch_processing.py:23-25 | Every batch but the last is full. |
| BatchProcessing.BatchCount | python-generators-0x00/1-batch_processing.py:23 | There is one batch per value of the `range`: none for no users, otherwise `n` with `(n - 1) * batch_size < len(users) <= n * batch_size`. |
| BatchProcessing.StreamUsersInBatches | python-generators-0x00/1-batch_processing.py:23-29 | A batch size of 0 raises (`range` step zero); a negative one yields nothing; a positive one yields every user once, in order. |
| BatchProcessing.BatchProcessingEmitsOlderUsers | python-generators-0x00/1-batch_processing.py:43-46 | For a positive batch size, `batch_processing` prints, in table order, the users over 25 that come before the first `NULL` age, and raises there; it finishes iff no age is `NULL`, and then it has printed exactly the users over 25. |
| BatchProcessing.PrintOlder | python-generators-0x00/1-batch_processing.py:43-46 | The loop raises iff some age is `NULL`, and then raises `TypeError` (`None > 25`); what it prints is the users over 25 before the first `NULL` age, in order. |
| BatchProcessing.AsWrittenNeverStreams | python-generators-0x00/1-batch_processing.py:20-23 | As written, the generator raises `TypeError` for every connection and batch size, while the corrected generator streams all the connection's rows. |
| StreamAges.StreamUserAges | python-generators-0x00/4-stream_ages.py:18-28 | One value per row, in cursor order, each the row's age or `None` for `NULL`; the generator never raises, and it yields no `None` exactly when no age is `NULL`. |
| StreamAges.CalculateAverageAge | python-generators-0x00/4-stream_ages.py:41-53 | It succeeds iff no age is `NULL`; otherwise `total_age += age` raises `TypeError` once the rows before the first `NULL` are counted. On success the count is the number of rows and the total the sum of their ages; the result is the exact mean, 0 for no rows, and mean times count equals total. |
| StreamAges.SumBounds | python-generators-0x00/4-stream_ages.py:45-46 | Ages within `[lo, hi]` total between `n * lo` and `n * hi`. |
| StreamAges.MeanBetweenBounds | python-generators-0x00/4-stream_ages.py:50-51 | A non-empty stream's average lies between its youngest and oldest age. |
| StreamAges.ThreeUsersAverageThirty | python-generators-0x00/4-stream_ages.py:50-51 | Ages 20, 30 and 40 average to 30. |
| Seed.InsertRowFacts | python-generators-0x00/seed.py:63-69 | One CSV row keeps the table as a prefix, makes its id present, adds no other id, and adds a row exactly when its id was absent. |
| Seed.InsertKeepsTable | python-generators-0x00/seed.py:63-69 | Existing rows are never modified or moved: the old table is a prefix of the new one. |
| Seed.InsertIds | python-generators-0x00/seed.py:61-69 | Afterwards an id is present exactly when it was in the table or in some CSV row. |
| Seed.InsertKeepsIdsUnique | python-generators-0x00/seed.py:63-64 | Ids unique before the load stay unique. |
| Seed.InsertKnownIds | python-generators-0x00/seed.py:63-64 | A CSV whose ids are all present changes nothing. |
| Seed.InsertIdempotent | python-generators-0x00/seed.py:63-64 | Loading the same CSV twice gives the same table as loading it once. |
| Seed.FirstRowWins | python-generators-0x00/seed.py:63-69 | Of several CSV rows with a new id, the first one is inserted. |
| DbDecorators.WithDbConnection | python-decorators-0x010/2-transactional.py:4-19 | A failing `connect` raises with nothing run. Otherwise the trace is the opening of the connection, `func`'s trace with that connection, then its closing, on every path; the result is `func`'s result or exception, unless `close` raises, which replaces it. |
| DbDecorators.ClosedOnce | python-decorators-0x010/2-transactional.py:9-17 | When `func` opens and closes nothing itself, a connection that opens is opened only first and closed only last, exactly once, even when `close` raises. |
| DbDecorators.Transactional | python-decorators-0x010/2-transactional.py:21-41 | `BEGIN` comes first. The call succeeds iff `BEGIN`, `func` and `commit` all succeed, and then returns `func`'s result with `commit` last. A failure ends with `rollback`. `func` runs iff `BEGIN` succeeded. Nothing is committed after a failed call. |
| DbDecorators.FailedCallRollsBack | python-decorators-0x010/2-transactional.py:36-39 | When `func` raises, the trace is `BEGIN`, call, `rollback`; nothing is committed and the same exception is re-raised. |
| DbDecorators.NormalReturnCommits | python-decorators-0x010/2-transactional.py:30-34 | A normal return is committed and its result returned, with no rollback. |
| DbDecorators.UpdateUserEmailOneConnection | python-decorators-0x010/2-transactional.py:43-47 | A failed connection runs nothing. Otherwise `update_user_email` begins the transaction on its one connection, commits on success or rolls back on failure, and closes the connection last; the result is the transaction's unless `close` raises. |
| DbDecorators.RetryReturnsFirstSuccess | python-decorators-0x010/3-retry_on_failure.py:29-44 | When attempt `k` is the first to succeed, its result is returned after `k + 1` calls with a sleep between each two, and no further attempt; with a negative delay and `k > 0`, the first sleep raises `ValueError` after one call. |
| DbDecorators.RetryAllFail | python-decorators-0x010/3-retry_on_failure.py:29-47 | When all attempts fail, there are `retries` calls and `retries - 1` sleeps, and the last attempt's exception is raised; with a negative delay and two or more retries, the first sleep raises `ValueError` after one call. |
| DbDecorators.NegativeDelayStopsRetrying | python-decorators-0x010/3-retry_on_failure.py:35-42 | With a negative delay and at least two retries, a failed first call ends the run with `time.sleep`'s `ValueError`: one call, no sleep, no retry; a successful first call returns its result. |
| DbDecorators.RetryNonPositive | python-decorators-0x010/3-retry_on_failure.py:27-47 | With `retries <= 0` the function is never called and `raise None` raises `TypeError`. |
| DbDecorators.RetryBounded | python-decorators-0x010/3-retry_on_failure.py:29-44 | Never more than `retries` calls; sleeps only between two calls, each of `delay` seconds; every call on the same connection. |
| DbDecorators.FetchUsersSharesConnection | python-decorators-0x010/3-retry_on_failure.py:52-57 | A failed connection is never retried. Otherwise `fetch_users_with_retry` opens one connection, shares it among at most three attempts with one-second sleeps, and closes it once, at the end. |
| QueryCache.CacheQuery | python-decorators-0x01/4-cache_query.py:27-48 | At most one call. Existing entries are never changed or evicted. The only entry ever added is the call's own key, and only a truthy, hashable one. |
| QueryCache.HitSkipsCall | python-decorators-0x01/4-cache_query.py:36-38 | A hit returns the cached value without calling the function and leaves the cache unchanged. |
| QueryCache.MissCallsAndStores | python-decorators-0x01/4-cache_query.py:41-48 | A miss with a key calls the function once, returns its result, and stores it under the key unless it raised. |
| QueryCache.NoKeyNoCaching | python-decorators-0x01/4-cache_query.py:36-48 | Without a key, or with a falsy one such as `''`, the function is called and the cache is unchanged. |
| QueryCache.SecondCallReturnsFirstResult | python-decorators-0x01/4-cache_query.py:36-46 | After a call caches its result, the next call with the same key returns that result without calling the function. |
| QueryCache.CacheKeyAfterConnection | python-decorators-0x01/4-cache_query.py:29-33 | The key is never `args[0]`; the `query` keyword is the key when no string follows the connection; a string `args[1]` is preferred to the keyword. |
| QueryCache.CachedKeyIsStable | python-decorators-0x01/4-cache_query.py:22-46 | Over any sequence of calls, a cached entry never changes and every call with its key returns it. |
| QueryCache.FetchUsersTwice | python-decorators-0x01/4-cache_query.py:59-63 | The two `fetch_users_with_cache` calls hit the database once and both return the first result. |
| LogQueries.KeywordFirstQuery | python-decorators-0x01/0-log_queries.py:8-11 | A truthy `query` keyword is the query. |
| LogQueries.LogQueries | python-decorators-0x010/0-log_queries.py:8-21 | The wrapped function's result is returned unchanged for the same arguments; a query is logged iff it is truthy, and it is the extracted one. |
| LogQueries.KeywordFirstCases | python-decorators-0x01/0-log_queries.py:8-14 | The query is truthy iff the keyword is truthy or a non-empty string is the first positional argument; without a truthy keyword a string first argument is used. |
| LogQueries.PositionalFirstCases | python-decorators-0x010/0-log_queries.py:10-18 | A string first positional argument is the query, even an empty one. Otherwise the keyword is consulted: the query is truthy iff a non-empty string comes first or, when no string comes first, the keyword is truthy. |
| LogQueries.PrecedenceDiffers | python-decorators-0x01/0-log_queries.py:8-11 | Positional `"A"` with keyword `"B"`: one decorator logs `"A"`, the other `"B"`. |
| LogQueries.LoggedQueriesDiffer | python-decorators-0x01/0-log_queries.py:8-11 | The two decorators log different queries exactly when a string comes first among the positional arguments and the `query` keyword holds a different truthy value. |
| LogQueries.SingleSourceAgrees | python-decorators-0x01/0-log_queries.py:8-11 | When the query comes from one place only, both decorators pick the same query. |
| LogQueries.FetchAllUsersLogged | python-decorators-0x010/0-log_queries.py:25-35 | `fetch_all_users(query="SELECT * FROM users")` logs that query under both decorators. |
| ChatModels.UserStrParts | messaging_app/chats/models.py:41-42 | `"first last (email)"`: starts with the names, ends with `)`, and the e-mail address can be read back from it. |
| ChatModels.ConversationStrShape | messaging_app/chats/models.py:60-64 | Always starts with `"Conversation: "`, contains the first participant's string, and ends with `"..."` exactly when there are more than three participants. |
| ChatModels.MessageStrShape | messaging_app/chats/models.py:97-98 | Starts with `"Message from "` and the sender's first name, shows the first 50 characters of the body, and always ends with `"..."`. |
| ChatPermissions.ConversationQueryset | messaging_app/chats/permissions.py:135-141 | Exactly the conversations the requester takes part in. |
| ChatPermissions.MessageQueryset | messaging_app/chats/permissions.py:148-154 | Exactly the messages of conversations the requester takes part in. |
| ChatPermissions.MessagePermissionsTable | messaging_app/chats/permissions.py:158-174 | Safe methods are allowed iff the requester takes part in the message's conversation. `PUT`, `PATCH` and `DELETE` are allowed iff the requester sent the message. Any other method is denied. |
| ChatPermissions.ConversationPermissionsTable | messaging_app/chats/permissions.py:177-186 | Object access iff the requester takes part in the conversation, for every method. |
| ChatPermissions.AnonymousDenied | messaging_app/chats/permissions.py:7-128 | An anonymous requester fails every view-level and ownership check. Only safe methods under `IsOwnerOrReadOnly` and non-`DELETE` methods under `CanDeleteOwnMessage` pass. |
| ChatPermissions.OwnerOrReadOnlyIsOwnerForWrites | messaging_app/chats/permissions.py:7-27 | Safe methods are always allowed; otherwise the decision is `IsOwner`'s. |
| ChatPermissions.AdminOrOwnerTable | messaging_app/chats/permissions.py:105-116 | Staff and superusers always pass. Anyone else passes iff they are the `owner`, or, for an object without `owner`, its `user`. |
| ChatPermissions.DeleteRulesAgree | messaging_app/chats/permissions.py:119-128 | On a message, `CanDeleteOwnMessage` and `MessagePermissions` decide `DELETE` the same way. |
| ChatPermissions.OwnerOrParticipantTable | messaging_app/chats/permissions.py:35-44 | A message is accessible to its sender and to the participants of its conversation, and to nobody else. |
| ChatPermissions.CanCreateMessageTable | messaging_app/chats/permissions.py:64-79 | An authenticated `POST` naming a conversation, as an integer or as its numeral, is allowed iff it exists and has the requester as participant. A truthy value that is no key raises. A `POST` naming none is allowed. |
| ChatPermissions.PkValue | messaging_app/chats/views.py:96 | The lookup value's conversion: `None` iff the value is `None`; an integer is itself, a boolean `0`/`1`, a signed numeral its value; other strings raise `ValueError`, lists and dicts `TypeError`. |
| ChatPermissions.NumeralKeyIsKey | messaging_app/chats/views.py:96 | A key sent as its decimal numeral converts to the same key as the integer. |
| ChatPermissions.DigitsValue | messaging_app/chats/views.py:96 | The decimal digits of `n` form a numeral whose value is `n`. |
| ChatPermissions.ParseStr | messaging_app/chats/views.py:96 | `int(str(n)) == n` for every integer `n`. |
| ChatPermissions.QuerysetsMatchReadPermission | messaging_app/chats/permissions.py:131-186 | A conversation is in the mixin's queryset iff `ConversationPermissions` allows it; a message iff `MessagePermissions` allows reading it. |
| ChatViews.CreateConversationRules | messaging_app/chats/views.py:52-71 | 400 exactly when the list is empty or names only the requester, and then the store is unchanged. Otherwise an entry that is no key raises the first such entry's error, after the save: the new conversation stays, holding only the requester. Otherwise 201: the new conversation holds exactly the stored users the list names plus the requester, and nothing else changes. |
| ChatViews.PkValuesMeaning | messaging_app/chats/views.py:67 | `filter(id__in=...)`'s conversion fails with the first failing entry's error; otherwise the keys are exactly those the entries convert to. |
| ChatViews.ParticipantKeys | messaging_app/chats/views.py:56-58 | The appended requester key never fails to convert. The list fails where the request's own list fails, and otherwise converts to the request's keys plus the requester's. |
| ChatViews.ResolveMembers | messaging_app/chats/views.py:67 | The users a key list resolves to are exactly the stored users among the keys. |
| ChatViews.CreateAcceptsLoneParticipant | messaging_app/chats/views.py:60-68 | A list naming the requester twice passes the length check and creates a conversation whose only participant is the requester. |
| ChatViews.CreateConversationChecked | messaging_app/chats/views.py:60-68 | Fails exactly when the participant list cannot be built or converted, and then leaves the store unchanged. A refusal leaves the store unchanged. A created conversation has the resolved users, at least two distinct existing ones. |
| ChatViews.AddParticipant | messaging_app/chats/views.py:88-101 | Raises the conversion error iff the conversation is visible and `user_id` is truthy but no key. 200 iff the conversation is visible and `user_id` is truthy and names an existing user; then exactly that user is added. Otherwise the store is unchanged. |
| ChatViews.RemoveParticipant | messaging_app/chats/views.py:103-122 | Raises the conversion error iff the conversation is visible, `user_id` is truthy, more than two take part, and `user_id` is no key. 200 iff the same holds with an existing user instead; then exactly that user is removed. Otherwise the store is unchanged. |
| ChatViews.ParticipantCountKept | messaging_app/chats/views.py:103-122 | Adding, removing, and the checked `create` keep every conversation at two or more participants, including when the checked `create` raises. |
| ChatViews.CreateMessageRules | messaging_app/chats/views.py:161-180 | Raises the conversion error iff `conversation_id` is no key. 404 iff it converts but names no conversation; 403 iff the requester does not take part. Otherwise 201 with one new message, sent by the requester in that conversation, holding the body (`''` when absent), and readable by the requester. Nothing else changes. |
| ChatViews.NumeralKeysAct | messaging_app/chats/views.py:88-180 | A key sent as its numeral acts as the integer key in message `create`, `add_participant` and `remove_participant`. The exception is `0`, since `"0"` is truthy where `0` is not. |
| ChatViews.WritableMessage | messaging_app/chats/views.py:204-214 | A write reaches only a message in the requester's queryset that the requester sent. 404 iff no message with that key is in the queryset; 403 iff the one found was sent by someone else; otherwise the message is writable. |
| ChatViews.WritableMessageCases | messaging_app/chats/views.py:204-214 | Over the store, with unique keys: writable iff the message exists in a conversation the requester takes part in and the requester sent it; 403 iff it exists there but someone else sent it; 404 iff the requester cannot see it. |
| ChatViews.UpdateMessage | messaging_app/chats/views.py:204-208 | Succeeds iff the requester sent the message and any `conversation` submitted exists (400 otherwise). Only messages with that key change, and exactly as submitted: the body, the conversation, or both, whichever conversation that is. On refusal nothing changes. |
| ChatViews.UpdateMovesMessageAway | messaging_app/chats/serializers.py:190-193 | The sender of a message can move it into a conversation of two other users: the update succeeds, the sender no longer takes part in the conversation holding it, and the message leaves the sender's queryset. |
| ChatViews.UpdateMessageChecked | messaging_app/chats/views.py:204-208 | As `update`, but 403 when the submitted conversation exists and the requester does not take part in it; a success is exactly the as-written update. |
| ChatViews.DestroyMessage | messaging_app/chats/views.py:210-214 | 204 iff the message is writable by the requester, and then exactly the messages with that key are gone and every other message stays; otherwise the refusal is the 404 or 403 of `get_object` and nothing changes. |
| ChatViews.OnlySenderWrites | messaging_app/chats/views.py:204-214 | Someone who did not send a message can neither change (with either `update`) nor delete it. |
| ChatViews.WritesActOnOneMessage | messaging_app/chats/views.py:204-214 | With unique message keys, a successful update rewrites exactly one message and keeps keys unique; a successful deletion removes exactly one message and keeps keys unique. |
| ChatViews.CreateKeepsInvariants | messaging_app/chats/views.py:161-180 | Creating a message with a fresh key, when it does not raise, keeps keys unique and keeps every message in a conversation its sender takes part in. |
| ChatViews.UpdateCheckedKeepsParticipation | messaging_app/chats/views.py:204-208 | With unique keys, the checked update keeps every message in a conversation its sender takes part in. |
| ChatViews.DestroyKeepsParticipation | messaging_app/chats/views.py:210-214 | Deleting keeps every remaining message in a conversation its sender takes part in. |
| ChatViews.FilterDropsOne | messaging_app/chats/views.py:210-214 | With unique keys, removing the messages with one message's key removes exactly one message. |
| ChatViews.RecentMessages | messaging_app/chats/views.py:216-220 | The first 20 messages of the requester's queryset, in order: exactly 20 when there are that many, all of them when there are fewer. |
| ChatViews.RecentMessagesReadable | messaging_app/chats/views.py:216-220 | Every recent message is one the requester may read under `MessagePermissions`. |
| ChatViews.SearchUsers | messaging_app/chats/views.py:242-256 | 400 iff the query is shorter than two characters; otherwise the first ten users, in store order, that match the query and are not the requester (all of them when there are fewer). |
| ChatViews.SearchFindsAllMatches | messaging_app/chats/views.py:248-253 | With at most ten matches, every matching user other than the requester is found. |
| ChatSerializers.ValidateEmail | messaging_app/chats/serializers.py:35-41 | Accepted iff no user has the address, and then returned unchanged; otherwise the "already exists" message. |
| ChatSerializers.ValidateUsername | messaging_app/chats/serializers.py:43-49 | Accepted iff no user has the username, and then returned unchanged; otherwise the "already exists" message. |
| ChatSerializers.MatchAndValidate | messaging_app/chats/serializers.py:51-71 | Accepted iff the password equals its confirmation and the validators report nothing. A mismatch is reported alone under the confirmation field. Otherwise the validators' messages are reported under the password field. |
| ChatSerializers.MismatchSkipsStrength | messaging_app/chats/serializers.py:58-61 | On a registration mismatch the result is the `password_confirm` error, whatever the strength validators would say. |
| ChatSerializers.ChangeMismatchSkipsStrength | messaging_app/chats/serializers.py:134-137 | On a password-change mismatch the result is the `new_password_confirm` error, whatever the validators would say. |
| ChatSerializers.CreateUserFields | messaging_app/chats/serializers.py:73-89 | `create` succeeds iff username, e-mail and password are present. It appends one non-staff user with those fields, the hashed password, and `''` for missing names. The confirmation field has no influence. |
| ChatSerializers.FieldErrors | messaging_app/chats/serializers.py:35-49 | No field errors iff neither the e-mail nor the username is taken; a taken one is reported under its own field. |
| ChatSerializers.RegisterKeepsAccountsUnique | messaging_app/chats/serializers.py:35-89 | A successful registration appends exactly one user and keeps e-mail addresses and usernames unique. |
| ChatSerializers.RegisterRefusesTakenEmail | messaging_app/chats/serializers.py:35-41 | A taken e-mail address is refused under `email`, whatever else the request holds. |
| ChatSerializers.ValidateProfileEmail | messaging_app/chats/serializers.py:109-116 | Accepted iff every user with that address is the user being updated. |
| ChatSerializers.ProfileEmailIgnoresSelf | messaging_app/chats/serializers.py:109-116 | Never stricter than the registration check, keeping one's own address is accepted, and the two agree for a user not in the table. |
| ChatSerializers.ConversationParticipants | messaging_app/chats/serializers.py:166-181 | The creator always takes part, together with exactly the listed ids that name existing users. |
| ChatSerializers.CreatorListedOrNot | messaging_app/chats/serializers.py:174-179 | Listing the creator's own id changes nothing. |
| ChatSerializers.SaveMessage | messaging_app/chats/serializers.py:195-200 | The saved message's sender is the requester; its other fields are as submitted. |
| ChatSerializers.SubmittedSenderIgnored | messaging_app/chats/serializers.py:199 | A forged sender has no effect on the saved message. |
| Settings.GetEnvVariable | messaging_app/messaging_app/settings.py:9-15 | A set variable's value wins over any default. An unset one gives the default when it is not `None`. With neither, it raises `ValueError` naming the variable. |
| Settings.DefaultNeverRaises | messaging_app/messaging_app/settings.py:83-86 | A read with a default never raises, and `''` is a default like any other. |
| Settings.ParseBoolFacts | messaging_app/messaging_app/settings.py:19 | The flag parse ignores case, accepts only values of length 1, 3 or 4, accepts `True`, `1` and `Yes`, and refuses `False`, `0`, `on` and `''`. |
| Settings.Flag | messaging_app/messaging_app/settings.py:19 | A boolean setting is true when its variable is unset, and otherwise iff the value parses as true; `DEBUG` is read this way. |
| Settings.FlagsAgree | messaging_app/messaging_app/settings.py:243 | `EMAIL_USE_TLS` is read like `DEBUG`: true when unset, otherwise the parse of its value, so equal values, or both unset, give equal flags. |
| Settings.AllowedHosts | messaging_app/messaging_app/settings.py:20 | At least one host, none containing a comma. |
| Settings.AllowedHostsJoin | messaging_app/messaging_app/settings.py:20 | Joining the hosts with commas gives back the variable. |
| Settings.AllowedHostsSplit | messaging_app/messaging_app/settings.py:20 | Comma-free host names written with commas are read back as themselves. |
| Settings.AllowedHostsDefault | messaging_app/messaging_app/settings.py:20 | Unset, the hosts are `localhost` and `127.0.0.1`. |
| MessagingSignals.CreateMessageNotification | Django-signals_orm-0x04/messaging/signals.py:6-14 | On creation, exactly one notification is appended, for the receiver, naming the message and the sender's username. An update adds nothing. |
| MessagingSignals.LogMessageEdit | Django-signals_orm-0x04/messaging/signals.py:16-30 | For a stored message with a truthy key whose content changes, the old content is appended to the history and the instance is marked edited. Otherwise nothing changes. |
| MessagingSignals.SaveMessageEffects | Django-signals_orm-0x04/messaging/signals.py:6-30 | A new message adds one notification for its receiver and no history. A stored message adds no notification and one history entry exactly when its content changes under a truthy key. Other messages are unchanged and the store stays consistent. |
| MessagingSignals.NewMessageNotifiesReceiverOnly | Django-signals_orm-0x04/messaging/signals.py:9-14 | A new message gives its receiver exactly one more notification and nobody else any. |
| MessagingSignals.DeleteUserCleansUp | Django-signals_orm-0x04/messaging/signals.py:32-42 | Nothing refers to the deleted user afterwards and the store stays consistent. Messages, notifications and history not tied to the user or its messages are kept. |
| MessagingSignals.DeleteUserIdempotent | Django-signals_orm-0x04/messaging/signals.py:32-42 | Deleting a user twice is deleting once. |
| UnreadManager.MarkAsRead | Django-signals_orm-0x04/messaging/managers.py:14-16 | Marks exactly those messages read and changes nothing else; the count it reports is their number. |
| UnreadManager.MarkAsReadEmptiesUnread | Django-signals_orm-0x04/messaging/managers.py:14-20 | Afterwards nothing is unread for the user and the count is 0. The reported count equals the count before. A second call reports 0 and changes nothing. |
| UnreadManager.MarkAsReadIsolated | Django-signals_orm-0x04/messaging/managers.py:14-16 | Other users' unread messages, and every message received by someone else, are untouched. |
| UnreadManager.UnreadBySenderPartition | Django-signals_orm-0x04/messaging/managers.py:18-24 | The messages unread by sender are unread messages of the user sent by that sender; every unread message is among those of its own sender; distinct senders give disjoint sets whose sizes add up to at most the unread count. |

## Left out

- HTTP and databases are not modelled:
  - `get_json` and `requests` become the parameter `getJson`.
  - MySQL and SQLite connections, cursors and SQL text become sequences, maps and traces.
  - `seed.py`'s connection and table-creation functions are not modelled.
- `print`, `time.sleep` and logging are output only. A sleep appears as a trace event.
- `python-generators-0x00/0-stream_users.py`, the context managers and the asyncio demo of `python-context-async-perations-0x02`, the middleware, the URL and admin configuration, the filters and the template views are outside the modelled core.
- Django REST framework and ORM machinery is not modelled:
  - `is_valid`, field-level validators (`required`, `min_length`, model uniqueness constraints), pagination and throttling.
  - `get_serializer_class`.
  - The serializers' `Meta` with `model = None`.
- Some views are left out:
  - The conversation and message `list` with their query filters, and `retrieve`.
  - `get_messages`.
  - The `mark_as_read` view, which only echoes a message.
  - These change no state, except that the message list's filters narrow an already modelled queryset.
- Settings other than `DEBUG`, `ALLOWED_HOSTS`, `EMAIL_USE_TLS` and the database defaults are plain constants. `EMAIL_PORT`'s `int(...)` conversion is not modelled.
- `MessagingSignals.DeleteUser`: the `parent_message` reply cascade is not modelled; a reply to a deleted message is not deleted with it.
- `MessagingSignals.CreateMessageNotification`: the 255-character limit on a notification's `content` is not enforced.
- `Settings.ParseBool`: lower-cases ASCII letters only. Python's full Unicode `str.lower` is not modelled. No other character lower-cases into the accepted spellings, but a value that only a Unicode case mapping would change is compared as it is.
- `Seed.InsertData`: ids are compared exactly. MySQL's default collation compares `VARCHAR` values case-insensitively and ignores trailing spaces, so an id differing from a present one only in letter case or trailing spaces would be skipped by the database but is inserted by the model.
- `ChatViews.UpdateMessage`: field validators of the serializer (`allow_blank`, length limits) are not modelled; a submitted body is stored as given.
- `ChatViews.SearchUsers`: `icontains` is case-insensitive for ASCII letters only.
- `StreamAges.CalculateAverageAge`: the quotient is exact. The `Decimal` or floating-point division and its rounding are not modelled.
- `ChatViews.CreateConversation`: Python's `True == 1` in `request.user.id not in participant_ids` is not reproduced. A list holding `true` for the requester whose key is `1` gets the key appended once more.
- `ChatPermissions.PkValue`: numerals with surrounding whitespace, underscores or non-ASCII digits raise in the model, where `int` would accept them. The app's primary keys are `UUIDField`s, which the model reads as integer keys. For those, a value that is no key raises Django's `ValidationError` rather than `ValueError` or `TypeError`; either way the request fails with the exception.
- `ChatViews.CreateConversation`: the serializer's own `participants_ids` field, which the view does not read, is not modelled. The save is modelled as storing the conversation with the requester alone.
- `ChatSerializers.FieldErrors`: the model uniqueness validators run first. `email` is `unique=True` in models.py:23, and a username is unique. A taken value is refused by those with Django's messages: "user with this email already exists." and "A user with that username already exists.". So the messages of serializers.py:40 and 48 are never sent for a taken value. The model keeps the field each refusal goes under, not the text.
- `Utils.AccessNestedMap`: path keys are strings, which is all the client's `("license", "key")` path needs. An integer key indexing a list or string (a value, or `IndexError`) is not modelled; `Subscript` raises `TypeError` on lists and strings.
- `ChatViews.CreateMessage`: a `message_body` that is not a string is not modelled; the body is a string or absent.
- `ChatSerializers.CreateUser`: the e-mail is stored as submitted. `create_user`'s normalisation of the address's domain is not modelled, and the hash is the parameter `makePassword`.
- `GithubClient.PublicReposWith`: a repositories payload that is not a list is reported as `TypeError`. Python would iterate a dict's keys or a string's characters and fail, or not, later.
- `DbDecorators.RetryOnFailure` and `DbDecorators.Transactional`: every error counts as an `Exception`. Exceptions outside that class, such as `KeyboardInterrupt`, would escape both `except` clauses; that is not modelled.
- `BatchProcessing.PrintOlder`: the default `0` of `user.get('age', 0)` is not modelled. A row read through the dictionary cursor always has the `age` key, so the default never applies; a row without the key cannot be represented.
- `UnreadManager.ForUser`: `.only(...)` defers columns and does not change which rows are selected, so it is not modelled.

## Findings

| source | as written | input that shows it | evidently intended | confidence | as-written member | corrected member |
|---|---|---|---|---|---|---|
| python-generators-0x00/1-batch_processing.py:20 | `all_users` is bound to the connection returned by `seed.connect_to_prodev()`, and line 23 takes its `len` | any connection and any `batch_size >= 1`: `len(connection)` raises `TypeError` before a row is yielded | read the rows of `user_data` through the connection and slice those | not executed | BatchProcessing.StreamUsersInBatchesAsWritten, shown by BatchProcessing.AsWrittenNeverStreams | BatchProcessing.StreamUsersInBatches |
| messaging_app/chats/views.py:60-68 | the check counts entries of `participant_ids`, so duplicates and ids of missing users count toward the two participants | `participant_ids = [me, me]` from a requester who is the only user: 201 and a conversation with one participant | refuse unless at least two distinct existing users take part, as the error message says | not executed | ChatViews.CreateConversation, shown by ChatViews.CreateAcceptsLoneParticipant | ChatViews.CreateConversationChecked, with ChatViews.ParticipantCountKept |
| messaging_app/chats/views.py:204-208 | `update` checks that the requester sent the message, and `MessageSerializer` (serializers.py:190-193) leaves `conversation` writable, so any existing conversation is accepted | a sender in conversation 1 = {me, u} moves their message to conversation 2 = {u, v}: 200, the message now lies in a conversation its sender is not in and drops out of the sender's own queryset | refuse, as message `create` does, a conversation the requester does not take part in | not executed | ChatViews.UpdateMessage, shown by ChatViews.UpdateMovesMessageAway | ChatViews.UpdateMessageChecked, with ChatViews.UpdateCheckedKeepsParticipation |

=== FILE: batch_processing.dfy ===
/** `1-batch_processing.py`: `stream_users_in_batches` slices the user rows
    into batches of `batch_size` with `range(0, len(all_users), batch_size)`
    and yields the users of each batch; `batch_processing` prints the users
    whose `age` exceeds 25, and raises `TypeError` at a user whose age is
    `NULL`. */
module BatchProcessing {
  import opened Wrappers
  import opened PyValues
  import opened UserTable
  import Seqs

  /** The slices `users[i:i + batchSize]` for `i` in
      `range(0, len(users), batchSize)`. */
  function Batches<T>(users: seq<T>, batchSize: int): seq<seq<T>>
    requires batchSize >= 1
    decreases |users|
  {
    if |users| == 0 then []
    else if |users| <= batchSize then [users]
    else [users[..batchSize]] + Batches(users[batchSize..], batchSize)
  }

  /** The batches concatenate to the users: each user exactly once, in
      order. */
  lemma {:induction false} BatchesCover<T>(users: seq<T>, batchSize: int)
    requires batchSize >= 1
    ensures Seqs.Flatten(Batches(users, batchSize)) == users
    decreases |users|
  {
    if |users| > batchSize {
      var rest := Batches(users[batchSize..], batchSize);
      BatchesCover(users[batchSize..], batchSize);
      assert ([users[..batchSize]] + rest)[1..] == rest;
      assert users == users[..batchSize] + users[batchSize..];
    } else if |users| > 0 {
      assert Seqs.Flatten([users]) == users + Seqs.Flatten([]);
    }
  }

  /** Every batch is non-empty and holds at most `batchSize` users. */
  lemma {:induction false} BatchBounds<T>(users: seq<T>, batchSize: int)
    requires batchSize >= 1
    ensures forall i :: 0 <= i < |Batches(users, batchSize)| ==>
      0 < |Batches(users, batchSize)[i]| <= batchSize
    decreases |users|
  {
    if |users| > batchSize {
      var rest := Batches(users[batchSize..], batchSize);
      BatchBounds(users[batchSize..], batchSize);
      var b := [users[..batchSize]] + rest;
      assert Batches(users, batchSize) == b;
      forall i | 1 <= i < |b|
        ensures 0 < |b[i]| <= batchSize
      {
        assert b[i] == rest[i - 1];
        assert 0 < |rest[i - 1]| <= batchSize;
      }
    }
  }

  /** Every batch but the last is full. */
  lemma {:induction false} OnlyLastBatchShort<T>(users: seq<T>, batchSize: int)
    requires batchSize >= 1
    ensures forall i :: 0 <= i < |Batches(users, batchSize)| - 1 ==>
      |Batches(users, batchSize)[i]| == batchSize
    decreases |users|
  {
    if |users| > batchSize {
      var rest := Batches(users[batchSize..], batchSize);
      OnlyLastBatchShort(users[batchSize..], batchSize);
      var b := [users[..batchSize]] + rest;
      assert Batches(users, batchSize) == b;
      forall i | 1 <= i < |b| - 1
        ensures |b[i]| == batchSize
      {
        assert b[i] == rest[i - 1];
        assert |rest[i - 1]| == batchSize;
      }
    }
  }

  /** There is one batch per value of the `range`: none for no users, and
      otherwise `n` batches with `(n - 1) * batchSize < len(users) <=
      n * batchSize`. */
  lemma {:induction false} BatchCount<T>(users: seq<T>, batchSize: int)
    requires batchSize >= 1
    ensures |Batches(users, batchSize)| == 0 <==> |users| == 0
    ensures |users| > 0 ==>
      (|Batches(users, batchSize)| - 1) * batchSize < |users| <= |Batches(users, batchSize)| * batchSize
    decreases |users|
  {
    if |users| > batchSize {
      var rest := Batches(users[batchSize..], batchSize);
      BatchCount(users[batchSize..], batchSize);
      var n := |rest|;
      assert |Batches(users, batchSize)| == n + 1;
      assert (n - 1) * batchSize < |users| - batchSize <= n * batchSize;
      assert (n + 1) * batchSize == n * batchSize + batchSize;
      assert n * batchSize == (n - 1) * batchSize + batchSize;
    }
  }

  /** `stream_users_in_batches(batch_size)` over the user rows: the batches
      whose users it yields. `range` rejects a step of zero and is empty for
      a negative step. */
  function StreamUsersInBatches<T>(allUsers: seq<T>, batchSize: int): (r: Result<seq<seq<T>>, PyError>)
    ensures batchSize == 0 <==> r.Err?
    ensures batchSize < 0 ==> r == Ok([])
    ensures batchSize >= 1 ==> r.Ok? && Seqs.Flatten(r.value) == allUsers
  {
    if batchSize == 0 then Err(ValueError("range() arg 3 must not be zero"))
    else if batchSize < 0 then Ok([])
    else
      BatchesCover(allUsers, batchSize);
      Ok(Batches(allUsers, batchSize))
  }

  /** A user `batch_processing` prints: one with an age over 25. */
  predicate OverTwentyFive(user: UserRow)
  {
    user.age.Some? && user.age.value > 25
  }

  /** What `batch_processing` does: the users it prints, in order, and the
      exception that ends it, if any. */
  datatype Printed = Printed(users: seq<UserRow>, raised: Option<PyError>)

  /** The loop of `batch_processing` over the users the generator yields.
      A row always has the `age` key, so `user.get('age', 0)` is the age;
      for a `NULL` age, `None > 25` raises `TypeError` after the users
      before it were printed. */
  function PrintOlder(users: seq<UserRow>): (r: Printed)
    ensures r.raised.None? <==> AllAged(users)
    ensures r.raised.Some? ==> r.raised.value.TypeError?
    ensures r.users == Seqs.Filter(users[..FirstNull(users)], OverTwentyFive)
    decreases |users|
  {
    if |users| == 0 then Printed([], None)
    else
      match users[0].age
      case None => Printed([], Some(TypeError("'>' not supported between instances of 'NoneType' and 'int'")))
      case Some(a) =>
        var rest := PrintOlder(users[1..]);
        assert users[..FirstNull(users)][1..] == users[1..][..FirstNull(users[1..])];
        assert AllAged(users[1..]) ==> AllAged(users) by {
          if AllAged(users[1..]) {
            assert forall i :: 1 <= i < |users| ==> users[i] == users[1..][i - 1];
          }
        }
        Printed((if a > 25 then [users[0]] else []) + rest.users, rest.raised)
  }

  /** `batch_processing(batch_size)`: the users it prints and the exception
      it raises, if any. */
  function BatchProcessing(allUsers: seq<UserRow>, batchSize: int): (r: Printed)
    ensures batchSize == 0 ==> r.users == [] && r.raised.Some? && r.raised.value.ValueError?
  {
    match StreamUsersInBatches(allUsers, batchSize)
    case Err(e) => Printed([], Some(e))
    case Ok(batches) => PrintOlder(Seqs.Flatten(batches))
  }

  /** For a positive batch size, `batch_processing` prints the users older
      than 25 that come before the first `NULL` age, in table order, and
      raises there; without a `NULL` age it prints exactly the users older
      than 25 and finishes. */
  lemma BatchProcessingEmitsOlderUsers(allUsers: seq<UserRow>, batchSize: int)
    requires batchSize >= 1
    ensures BatchProcessing(allUsers, batchSize).raised.None? <==> AllAged(allUsers)
    ensures BatchProcessing(allUsers, batchSize).users
      == Seqs.Filter(allUsers[..FirstNull(allUsers)], OverTwentyFive)
    ensures AllAged(allUsers) ==> BatchProcessing(allUsers, batchSize) == Printed(Seqs.Filter(allUsers, OverTwentyFive), None)
    ensures forall i :: 0 <= i < FirstNull(allUsers) ==>
      (allUsers[i].age.value > 25 <==> allUsers[i] in BatchProcessing(allUsers, batchSize).users)
  {
    var k := FirstNull(allUsers);
    assert allUsers[..|allUsers|] == allUsers;
    forall i | 0 <= i < k
      ensures allUsers[i].age.value > 25 <==> allUsers[i] in BatchProcessing(allUsers, batchSize).users
    {
      assert allUsers[..k][i] == allUsers[i];
    }
  }

  /** The object `seed.connect_to_prodev()` returns: a connection to the
      database holding the `user_data` rows, or `None` when connecting
      failed. */
  datatype Connection = Connection(rows: seq<UserRow>)

  /** The generator as written: `all_users` is bound to the connection (or
      `None`), so `len(all_users)` raises `TypeError` before any batch is
      produced. */
  function StreamUsersInBatchesAsWritten(conn: Option<Connection>, batchSize: int): Result<seq<seq<UserRow>>, PyError>
  {
    match conn
    case None => Err(TypeError("object of type 'NoneType' has no len()"))
    case Some(_) => Err(TypeError("object of type 'MySQLConnection' has no len()"))
  }

  /** The generator as written yields nothing and raises for every
      connection and batch size, although the table it is meant to stream
      is non-empty; the corrected generator, reading the rows through the
      connection, streams them all. */
  lemma AsWrittenNeverStreams(conn: Connection, batchSize: int)
    requires batchSize >= 1
    ensures StreamUsersInBatchesAsWritten(Some(conn), batchSize).Err?
    ensures StreamUsersInBatchesAsWritten(Some(conn), batchSize).error.TypeError?
    ensures Seqs.Flatten(StreamUsersInBatches(conn.rows, batchSize).value) == conn.rows
  {
  }
}

=== FILE: chat_models.dfy ===
/** The entities of `messaging_app/chats/models.py` — users, conversations
    with their participants, and messages — and their `__str__` methods.

    Every entity is identified by one integer, its primary key; the views
    and permissions look users and conversations up by that key. */
module ChatModels {
  import Strings
  import Seqs

  type UserId = int
  type ConvId = int
  type MsgId = int

  datatype User = User(
    id: UserId,
    username: string,
    email: string,
    firstName: string,
    lastName: string,
    isStaff: bool,
    isSuperuser: bool,
    password: string)

  datatype Conversation = Conversation(id: ConvId, participants: set<UserId>)

  datatype Message = Message(id: MsgId, sender: UserId, conversation: ConvId, body: string)

  predicate EndsWith(s: string, suffix: string)
  {
    |suffix| <= |s| && s[|s| - |suffix|..] == suffix
  }

  predicate StartsWith(s: string, prefix: string)
  {
    |prefix| <= |s| && s[..|prefix|] == prefix
  }

  /** `User.__str__`: `"first last (email)"`. */
  function UserStr(u: User): (r: string)
  {
    u.firstName + " " + u.lastName + " (" + u.email + ")"
  }

  /** The user's string starts with the first name and ends with the
      e-mail address in parentheses, from which the address can be read
      back. */
  lemma UserStrParts(u: User)
    ensures var r := UserStr(u);
      && StartsWith(r, u.firstName + " " + u.lastName + " (")
      && EndsWith(r, ")") && r[|r| - 1] == ')'
      && r[|u.firstName| + |u.lastName| + 3..|r| - 1] == u.email
      && |r| == |u.firstName| + |u.lastName| + |u.email| + 4
  {
  }

  /** `sep.join(parts)` ends with the last part. */
  lemma {:induction false} JoinEndsWithLast(parts: seq<string>, sep: string)
    requires |parts| >= 1
    ensures EndsWith(Strings.Join(parts, sep), parts[|parts| - 1])
  {
    if |parts| > 1 {
      JoinEndsWithLast(parts[1..], sep);
      var rest := Strings.Join(parts[1..], sep);
      var whole := parts[0] + sep + rest;
      assert whole[|whole| - |rest|..] == rest;
      assert parts[1..][|parts[1..]| - 1] == parts[|parts| - 1];
    }
  }

  const ConversationPrefix: string := "Conversation: "

  /** `Conversation.__str__`, with `listing` the participants in the order
      `participants.all()` returns them. */
  function ConversationStr(listing: seq<User>): (r: string)
  {
    ConversationPrefix + ShownNames(listing) + (if |listing| > 3 then "..." else "")
  }

  /** The participants' strings joined with `", "`. */
  function ShownNames(listing: seq<User>): (names: string)
  {
    var shown := Seqs.Take(listing, 3);
    Strings.Join(seq(|shown|, i requires 0 <= i < |shown| => UserStr(shown[i])), ", ")
  }

  /** Without the ellipsis, the string ends with a space (no participants)
      or with the `)` closing the last shown e-mail address. */
  lemma NamesEnding(listing: seq<User>)
    ensures var r := ConversationPrefix + ShownNames(listing);
      |r| > 0 && (r[|r| - 1] == ' ' || r[|r| - 1] == ')')
  {
    var shown := Seqs.Take(listing, 3);
    var parts := seq(|shown|, i requires 0 <= i < |shown| => UserStr(shown[i]));
    var names := ShownNames(listing);
    var r := ConversationPrefix + names;
    if |listing| == 0 {
      assert names == "";
      assert r[|r| - 1] == ' ';
    } else {
      JoinEndsWithLast(parts, ", ");
      UserStrParts(shown[|shown| - 1]);
      assert names[|names| - 1] == ')';
      assert r[|r| - 1] == names[|names| - 1];
    }
  }

  /** The first participant's string is where the names start. */
  lemma NamesStartWithFirst(listing: seq<User>)
    requires |listing| >= 1
    ensures StartsWith(ShownNames(listing), UserStr(listing[0]))
  {
    var shown := Seqs.Take(listing, 3);
    var parts := seq(|shown|, i requires 0 <= i < |shown| => UserStr(shown[i]));
    if |parts| > 1 {
      assert ShownNames(listing) == parts[0] + ", " + Strings.Join(parts[1..], ", ");
    }
  }

  /** The string always starts with `"Conversation: "`, names the first
      (at most three) participants, and ends with `"..."` exactly when there
      are more than three: a user's string ends with `)`, so the names
      alone never end with a dot. */
  lemma ConversationStrShape(listing: seq<User>)
    ensures var r := ConversationStr(listing);
      && StartsWith(r, ConversationPrefix)
      && (EndsWith(r, "...") <==> |listing| > 3)
      && (|listing| >= 1 ==> Strings.IsInfix(UserStr(listing[0]), r))
  {
    var r := ConversationStr(listing);
    var names := ShownNames(listing);
    assert r == ConversationPrefix + names + (if |listing| > 3 then "..." else "");
    if |listing| >= 1 {
      NamesStartWithFirst(listing);
      var first := UserStr(listing[0]);
      assert r[|ConversationPrefix|..|ConversationPrefix| + |first|] == names[..|first|];
      assert Strings.InfixAt(first, r, |ConversationPrefix|);
    }
    if |listing| > 3 {
      assert r[|r| - 3..] == "...";
    } else {
      NamesEnding(listing);
      assert r == ConversationPrefix + names;
    }
  }

  const MessagePrefix: string := "Message from "

  /** `Message.__str__`, with `senderFirstName` the sender's first name. */
  function MessageStr(senderFirstName: string, body: string): (r: string)
  {
    MessagePrefix + senderFirstName + ": " + Seqs.Take(body, 50) + "..."
  }

  /** The message string names the sender, shows the first 50 characters
      of the body (all of a shorter body), which can be read back from it,
      and always ends with `"..."`. */
  lemma MessageStrShape(senderFirstName: string, body: string)
    ensures var r := MessageStr(senderFirstName, body);
      var start := |MessagePrefix| + |senderFirstName| + 2;
      && StartsWith(r, MessagePrefix + senderFirstName + ": ")
      && EndsWith(r, "...")
      && start <= |r| - 3
      && r[start..|r| - 3] == (if |body| <= 50 then body else body[..50])
      && |r| <= start + 53
  {
  }
}

=== FILE: chat_permissions.dfy ===
/** `messaging_app/chats/permissions.py`: the permission classes' decisions
    over (method, requester, object), the helper predicates, and the
    querysets of the two permission mixins.

    A requester is anonymous or an authenticated user. An object is
    described by the attributes the permission classes inspect; an
    attribute the object lacks is `None` here, and reading it where the
    source does not guard with `hasattr` raises `AttributeError`. */
module ChatPermissions {
  import opened Wrappers
  import opened PyValues
  import opened ChatModels
  import Seqs

  datatype Requester = Anonymous | Authed(user: User)

  /** The inspected attributes of an object: `owner`, `user`, `sender`, the
      participants of `conversation`, its own `participants`, and, for a
      user object, its key. */
  datatype Obj = Obj(
    owner: Option<UserId>,
    user: Option<UserId>,
    sender: Option<UserId>,
    conversation: Option<set<UserId>>,
    participants: Option<set<UserId>>,
    asUser: Option<UserId>)

  function MessageObj(m: Message, conversationParticipants: set<UserId>): Obj
  {
    Obj(None, None, Some(m.sender), Some(conversationParticipants), None, None)
  }

  function ConversationObj(c: Conversation): Obj
  {
    Obj(None, None, None, None, Some(c.participants), None)
  }

  function UserObj(u: User): Obj
  {
    Obj(None, None, None, None, None, Some(u.id))
  }

  const SafeMethods: seq<string> := ["GET", "HEAD", "OPTIONS"]

  /** `request.user and request.user.is_authenticated`. */
  predicate IsAuthenticated(req: Requester)
  {
    req.Authed?
  }

  /** `<user key> == request.user`: never true of the anonymous user. */
  predicate IsRequester(req: Requester, id: UserId)
  {
    req.Authed? && req.user.id == id
  }

  /** `participants.filter(id=request.user.id).exists()`: the anonymous
      user's key is `None`, which matches nobody. */
  predicate IsParticipant(req: Requester, participants: set<UserId>)
  {
    req.Authed? && req.user.id in participants
  }

  /** One or more ASCII digits. */
  predicate IsNumeral(s: string)
  {
    |s| > 0 && forall i :: 0 <= i < |s| ==> '0' <= s[i] <= '9'
  }

  /** The value of a string of ASCII digits, most significant first. */
  function NumeralValue(s: string): nat
    requires forall i :: 0 <= i < |s| ==> '0' <= s[i] <= '9'
  {
    if |s| == 0 then 0 else 10 * NumeralValue(s[..|s| - 1]) + (s[|s| - 1] as int - '0' as int)
  }

  /** `int(s)` for a numeral with an optional sign; `None` where `int`
      raises `ValueError`. */
  function ParseInt(s: string): Option<int>
  {
    if IsNumeral(s) then Some(NumeralValue(s))
    else if |s| > 1 && (s[0] == '-' || s[0] == '+') && IsNumeral(s[1..]) then
      var n: int := NumeralValue(s[1..]);
      Some(if s[0] == '-' then -n else n)
    else None
  }

  function DigitChar(d: int): char
    requires 0 <= d < 10
  {
    ('0' as int + d) as char
  }

  /** The decimal digits of `n`. */
  function Digits(n: nat): string
  {
    if n < 10 then [DigitChar(n)] else Digits(n / 10) + [DigitChar(n % 10)]
  }

  /** `str(n)`: the decimal numeral of an integer. */
  function Str(n: int): string
  {
    if n < 0 then "-" + Digits(-n) else Digits(n)
  }

  /** The digits of `n` are a numeral whose value is `n`. */
  lemma {:induction false} DigitsValue(n: nat)
    ensures IsNumeral(Digits(n)) && NumeralValue(Digits(n)) == n
  {
    var s := Digits(n);
    if n >= 10 {
      DigitsValue(n / 10);
      assert s[..|s| - 1] == Digits(n / 10);
      assert s[|s| - 1] == DigitChar(n % 10);
    }
  }

  /** `int(str(n)) == n`. */
  lemma ParseStr(n: int)
    ensures ParseInt(Str(n)) == Some(n)
  {
    if n < 0 {
      DigitsValue(-n);
      assert Str(n)[1..] == Digits(-n);
    } else {
      DigitsValue(n);
    }
  }

  /** A lookup value as the integer primary key converts it before the
      query (`get_prep_value`): `None` stays `None` and matches no row; an
      integer is itself, a boolean `0` or `1`, a signed numeral its value;
      any other string raises `ValueError`, a list or a dict `TypeError`.
      Neither is the `DoesNotExist` the views catch. */
  function PkValue(v: Json): (r: Result<Option<int>, PyError>)
    ensures r == Ok(None) <==> v.JNull?
    ensures v.JInt? ==> r == Ok(Some(v.i))
    ensures v.JBool? ==> r == Ok(Some(if v.b then 1 else 0))
    ensures v.JStr? ==> (r.Ok? <==> ParseInt(v.s).Some?) && (r.Ok? ==> r.value == ParseInt(v.s))
    ensures r.Err? ==> (v.JStr? && r.error.ValueError?) || ((v.JList? || v.JMap?) && r.error.TypeError?)
  {
    match v
    case JNull => Ok(None)
    case JBool(b) => Ok(Some(if b then 1 else 0))
    case JInt(i) => Ok(Some(i))
    case JStr(s) =>
      if ParseInt(s).Some? then Ok(ParseInt(s)) else Err(ValueError("Field 'id' expected a number but got a string."))
    case _ => Err(TypeError("Field 'id' expected a number but got a container."))
  }

  /** A key sent as its decimal numeral converts to the same key as the
      integer, so both name the same row. */
  lemma NumeralKeyIsKey(n: int)
    ensures PkValue(JStr(Str(n))) == PkValue(JInt(n)) == Ok(Some(n))
  {
    ParseStr(n);
  }

  /** `IsOwnerOrReadOnly.has_object_permission`. */
  function IsOwnerOrReadOnly(req: Requester, verb: string, obj: Obj): Result<bool, PyError>
  {
    if verb in SafeMethods then Ok(true)
    else if obj.owner.None? then Err(AttributeError("owner"))
    else Ok(IsRequester(req, obj.owner.value))
  }

  /** `IsOwner.has_object_permission`. */
  function IsOwner(req: Requester, obj: Obj): Result<bool, PyError>
  {
    if obj.owner.None? then Err(AttributeError("owner"))
    else Ok(IsRequester(req, obj.owner.value))
  }

  /** `IsMessageOwnerOrConversationParticipant.has_object_permission`. */
  predicate IsMessageOwnerOrConversationParticipant(req: Requester, obj: Obj)
  {
    if obj.sender.Some? && IsRequester(req, obj.sender.value) then true
    else if obj.conversation.Some? then IsParticipant(req, obj.conversation.value)
    else false
  }

  /** `IsConversationParticipant.has_object_permission`, also
      `ConversationPermissions.has_object_permission`. */
  function IsConversationParticipant(req: Requester, obj: Obj): Result<bool, PyError>
  {
    if obj.participants.None? then Err(AttributeError("participants"))
    else Ok(IsParticipant(req, obj.participants.value))
  }

  /** `CanCreateMessage.has_permission`. `conversations` maps each
      conversation's key to its participants. The conversation key is the
      request data's `conversation_id` when truthy, otherwise the URL's; a
      key the primary key cannot convert raises. */
  function CanCreateMessage(req: Requester, verb: string, data: map<string, Json>,
                            viewKwargs: map<string, Json>, conversations: map<ConvId, set<UserId>>): Result<bool, PyError>
  {
    if !IsAuthenticated(req) then Ok(false)
    else if verb != "POST" then Ok(true)
    else
      var fromData := if "conversation_id" in data then data["conversation_id"] else JNull;
      var fromUrl := if "conversation_id" in viewKwargs then viewKwargs["conversation_id"] else JNull;
      var id := if Truthy(fromData) then fromData else fromUrl;
      if !Truthy(id) then Ok(true)
      else
        match PkValue(id)
        case Err(e) => Err(e)
        case Ok(key) => Ok(key.Some? && key.value in conversations && IsParticipant(req, conversations[key.value]))
  }

  /** `IsUserProfile.has_object_permission`: `obj == request.user`. */
  predicate IsUserProfile(req: Requester, obj: Obj)
  {
    obj.asUser.Some? && IsRequester(req, obj.asUser.value)
  }

  /** `IsAdminOrOwner.has_object_permission`: staff and superusers always;
      otherwise the `owner`, or failing that the `user`, attribute decides. */
  predicate IsAdminOrOwner(req: Requester, obj: Obj)
  {
    if req.Authed? && (req.user.isStaff || req.user.isSuperuser) then true
    else if obj.owner.Some? then IsRequester(req, obj.owner.value)
    else if obj.user.Some? then IsRequester(req, obj.user.value)
    else false
  }

  /** `CanDeleteOwnMessage.has_object_permission`. */
  predicate CanDeleteOwnMessage(req: Requester, verb: string, obj: Obj)
  {
    if verb == "DELETE" then obj.sender.Some? && IsRequester(req, obj.sender.value)
    else true
  }

  /** `MessagePermissions.has_object_permission`. */
  function MessagePermissions(req: Requester, verb: string, obj: Obj): Result<bool, PyError>
  {
    if verb in SafeMethods then
      if obj.conversation.None? then Err(AttributeError("conversation"))
      else Ok(IsParticipant(req, obj.conversation.value))
    else if verb in ["PUT", "PATCH", "DELETE"] then
      if obj.sender.None? then Err(AttributeError("sender"))
      else Ok(IsRequester(req, obj.sender.value))
    else Ok(false)
  }

  /** `user_can_access_conversation`. */
  predicate UserCanAccessConversation(user: User, conversation: Conversation)
  {
    user.id in conversation.participants
  }

  /** `user_can_access_message`, given the participants of the message's
      conversation. */
  predicate UserCanAccessMessage(user: User, message: Message, conversationParticipants: set<UserId>)
  {
    user.id in conversationParticipants
  }

  /** `user_owns_message`. */
  predicate UserOwnsMessage(user: User, message: Message)
  {
    message.sender == user.id
  }

  predicate InConversationOf(me: User, conversations: map<ConvId, set<UserId>>, m: Message)
  {
    m.conversation in conversations && me.id in conversations[m.conversation]
  }

  predicate HasParticipant(me: User, c: Conversation)
  {
    me.id in c.participants
  }

  /** `ConversationPermissionMixin.get_queryset`. */
  function ConversationQueryset(conversations: seq<Conversation>, me: User): (r: seq<Conversation>)
    ensures forall i :: 0 <= i < |r| ==> me.id in r[i].participants && r[i] in conversations
    ensures forall i :: 0 <= i < |conversations| && me.id in conversations[i].participants ==>
      conversations[i] in r
  {
    Seqs.Filter(conversations, c => HasParticipant(me, c))
  }

  /** `MessagePermissionMixin.get_queryset`, with `conversations` mapping
      each conversation's key to its participants. */
  function MessageQueryset(messages: seq<Message>, conversations: map<ConvId, set<UserId>>, me: User): (r: seq<Message>)
    ensures forall i :: 0 <= i < |r| ==> r[i] in messages && InConversationOf(me, conversations, r[i])
    ensures forall i :: 0 <= i < |messages| && InConversationOf(me, conversations, messages[i]) ==>
      messages[i] in r
  {
    Seqs.Filter(messages, m => InConversationOf(me, conversations, m))
  }

  // ---------------------------------------------------------------------
  // Decision tables

  /** `MessagePermissions` on a message: reading iff the requester takes
      part in the message's conversation, changing or deleting iff the
      requester sent it, and nothing else. These are `user_can_access_message`
      and `user_owns_message`. */
  lemma MessagePermissionsTable(req: Requester, verb: string, m: Message, participants: set<UserId>)
    ensures var d := MessagePermissions(req, verb, MessageObj(m, participants));
      && d.Ok?
      && (verb in SafeMethods ==> (d.value <==> req.Authed? && UserCanAccessMessage(req.user, m, participants)))
      && (verb in ["PUT", "PATCH", "DELETE"] ==> (d.value <==> req.Authed? && UserOwnsMessage(req.user, m)))
      && (d.value ==> verb in SafeMethods + ["PUT", "PATCH", "DELETE"])
  {
  }

  /** `ConversationPermissions` on a conversation is
      `user_can_access_conversation`, for every method. */
  lemma ConversationPermissionsTable(req: Requester, c: Conversation)
    ensures IsConversationParticipant(req, ConversationObj(c))
      == Ok(req.Authed? && UserCanAccessConversation(req.user, c))
  {
  }

  /** Anonymous requesters pass no view-level check and no ownership or
      participation check; only reading through `IsOwnerOrReadOnly` and
      non-`DELETE` requests through `CanDeleteOwnMessage` let them by. */
  lemma AnonymousDenied(verb: string, obj: Obj, data: map<string, Json>,
                        viewKwargs: map<string, Json>, conversations: map<ConvId, set<UserId>>)
    ensures !IsAuthenticated(Anonymous)
    ensures CanCreateMessage(Anonymous, verb, data, viewKwargs, conversations) == Ok(false)
    ensures IsOwner(Anonymous, obj) != Ok(true)
    ensures IsConversationParticipant(Anonymous, obj) != Ok(true)
    ensures MessagePermissions(Anonymous, verb, obj) != Ok(true)
    ensures !IsAdminOrOwner(Anonymous, obj) && !IsUserProfile(Anonymous, obj)
    ensures !IsMessageOwnerOrConversationParticipant(Anonymous, obj)
    ensures IsOwnerOrReadOnly(Anonymous, verb, obj) == Ok(true) <==> verb in SafeMethods
    ensures CanDeleteOwnMessage(Anonymous, verb, obj) <==> verb != "DELETE"
  {
  }

  /** On unsafe methods `IsOwnerOrReadOnly` is `IsOwner`; on safe ones it
      always allows. */
  lemma OwnerOrReadOnlyIsOwnerForWrites(req: Requester, verb: string, obj: Obj)
    ensures verb !in SafeMethods ==> IsOwnerOrReadOnly(req, verb, obj) == IsOwner(req, obj)
    ensures verb in SafeMethods ==> IsOwnerOrReadOnly(req, verb, obj) == Ok(true)
  {
  }

  /** Staff and superusers pass `IsAdminOrOwner` on every object; anyone
      else passes exactly as the owner would, or, for an object without
      `owner`, as its `user`. */
  lemma AdminOrOwnerTable(req: Requester, obj: Obj)
    ensures req.Authed? && (req.user.isStaff || req.user.isSuperuser) ==> IsAdminOrOwner(req, obj)
    ensures !(req.Authed? && (req.user.isStaff || req.user.isSuperuser)) ==>
      (IsAdminOrOwner(req, obj) <==>
        (obj.owner.Some? && IsOwner(req, obj) == Ok(true))
        || (obj.owner.None? && obj.user.Some? && IsRequester(req, obj.user.value)))
  {
  }

  /** On a message, `CanDeleteOwnMessage` and `MessagePermissions` agree on
      `DELETE`. */
  lemma DeleteRulesAgree(req: Requester, m: Message, participants: set<UserId>)
    ensures MessagePermissions(req, "DELETE", MessageObj(m, participants))
      == Ok(CanDeleteOwnMessage(req, "DELETE", MessageObj(m, participants)))
  {
  }

  /** `IsMessageOwnerOrConversationParticipant` on a message allows its
      sender and the participants of its conversation. */
  lemma OwnerOrParticipantTable(req: Requester, m: Message, participants: set<UserId>)
    ensures IsMessageOwnerOrConversationParticipant(req, MessageObj(m, participants))
      <==> req.Authed? && (UserOwnsMessage(req.user, m) || UserCanAccessMessage(req.user, m, participants))
  {
  }

  /** `CanCreateMessage` for an authenticated `POST` naming a conversation
      in its data: allowed iff the conversation exists and the requester
      takes part in it, whether the key is sent as an integer or as its
      numeral; a value that is no key raises; a `POST` naming none is
      allowed. */
  lemma CanCreateMessageTable(me: User, id: int, data: map<string, Json>,
                              viewKwargs: map<string, Json>, conversations: map<ConvId, set<UserId>>)
    ensures id != 0 && (data == map["conversation_id" := JInt(id)] || data == map["conversation_id" := JStr(Str(id))]) ==>
      CanCreateMessage(Authed(me), "POST", data, viewKwargs, conversations)
        == Ok(id in conversations && me.id in conversations[id])
    ensures "conversation_id" in data && Truthy(data["conversation_id"]) && PkValue(data["conversation_id"]).Err? ==>
      CanCreateMessage(Authed(me), "POST", data, viewKwargs, conversations).Err?
    ensures "conversation_id" !in data && "conversation_id" !in viewKwargs ==>
      CanCreateMessage(Authed(me), "POST", data, viewKwargs, conversations) == Ok(true)
  {
    NumeralKeyIsKey(id);
  }

  /** The mixins' querysets hold exactly the objects the object-level
      permissions let the requester read: a conversation is listed iff
      `ConversationPermissions` allows it, a message iff
      `MessagePermissions` allows `GET` on it. */
  lemma QuerysetsMatchReadPermission(me: User, conversations: seq<Conversation>,
                                     messages: seq<Message>, participants: map<ConvId, set<UserId>>)
    ensures forall i :: 0 <= i < |conversations| ==>
      (conversations[i] in ConversationQueryset(conversations, me) <==>
        IsConversationParticipant(Authed(me), ConversationObj(conversations[i])) == Ok(true))
    ensures forall i :: 0 <= i < |messages| && messages[i].conversation in participants ==>
      (messages[i] in MessageQueryset(messages, participants, me) <==>
        MessagePermissions(Authed(me), "GET", MessageObj(messages[i], participants[messages[i].conversation])) == Ok(true))
  {
  }
}

=== FILE: chat_serializers.dfy ===
/** The validation and creation rules of `messaging_app/chats/serializers.py`:
    registration (unique e-mail and username, matching passwords, password
    strength, user creation), profile update (unique e-mail apart from the
    user being updated), password change, and the `create` methods of the
    conversation and message serializers.

    A `ValidationError` is a map from field name to messages. Django's
    `validate_password` and `make_password` are parameters: the first gives
    the strength validators' messages (none when the password is accepted),
    the second the stored hash. */
module ChatSerializers {
  import opened Wrappers
  import opened PyValues
  import opened ChatModels

  type Errors = map<string, seq<string>>

  /** `attrs.get(key)` on validated data holding strings. */
  function Lookup(attrs: map<string, string>, key: string): Option<string>
  {
    if key in attrs then Some(attrs[key]) else None
  }

  predicate EmailTaken(users: seq<User>, email: string)
  {
    exists i :: 0 <= i < |users| && users[i].email == email
  }

  predicate UsernameTaken(users: seq<User>, username: string)
  {
    exists i :: 0 <= i < |users| && users[i].username == username
  }

  const EmailExists := "A user with this email already exists."
  const UsernameExists := "A user with this username already exists."

  /** `UserRegistrationSerializer.validate_email`. */
  function ValidateEmail(users: seq<User>, value: string): (r: Result<string, string>)
    ensures r.Ok? <==> !EmailTaken(users, value)
    ensures r.Ok? ==> r.value == value
    ensures r.Err? ==> r.error == EmailExists
  {
    if EmailTaken(users, value) then Err(EmailExists) else Ok(value)
  }

  /** `UserRegistrationSerializer.validate_username`. */
  function ValidateUsername(users: seq<User>, value: string): (r: Result<string, string>)
    ensures r.Ok? <==> !UsernameTaken(users, value)
    ensures r.Ok? ==> r.value == value
    ensures r.Err? ==> r.error == UsernameExists
  {
    if UsernameTaken(users, value) then Err(UsernameExists) else Ok(value)
  }

  /** The shared shape of both `validate` methods: a mismatch between the
      password and its confirmation is reported under `confirmKey` without
      checking strength; otherwise the validators' messages are reported
      under `key`. */
  function MatchAndValidate(attrs: map<string, string>, key: string, confirmKey: string, mismatch: string,
                            validatePassword: Option<string> -> seq<string>): (r: Result<map<string, string>, Errors>)
    ensures r.Ok? <==> Lookup(attrs, key) == Lookup(attrs, confirmKey) && validatePassword(Lookup(attrs, key)) == []
    ensures r.Ok? ==> r.value == attrs
    ensures r.Err? && Lookup(attrs, key) != Lookup(attrs, confirmKey) ==> r.error == map[confirmKey := [mismatch]]
    ensures r.Err? && Lookup(attrs, key) == Lookup(attrs, confirmKey) ==>
      r.error == map[key := validatePassword(Lookup(attrs, key))]
  {
    var password := Lookup(attrs, key);
    if password != Lookup(attrs, confirmKey) then Err(map[confirmKey := [mismatch]])
    else
      var messages := validatePassword(password);
      if messages != [] then Err(map[key := messages]) else Ok(attrs)
  }

  /** `UserRegistrationSerializer.validate`. */
  function ValidateRegistration(attrs: map<string, string>, validatePassword: Option<string> -> seq<string>): (r: Result<map<string, string>, Errors>)
  {
    MatchAndValidate(attrs, "password", "password_confirm", "Passwords do not match.", validatePassword)
  }

  /** `ChangePasswordSerializer.validate`. */
  function ValidatePasswordChange(attrs: map<string, string>, validatePassword: Option<string> -> seq<string>): (r: Result<map<string, string>, Errors>)
  {
    MatchAndValidate(attrs, "new_password", "new_password_confirm", "New passwords do not match.", validatePassword)
  }

  /** A mismatch is reported alone, under the confirmation field, and the
      strength validators are not consulted: the result is the same for any
      validator. Registration and password change differ only in field
      names and message. */
  lemma MismatchSkipsStrength(attrs: map<string, string>, v1: Option<string> -> seq<string>, v2: Option<string> -> seq<string>)
    requires Lookup(attrs, "password") != Lookup(attrs, "password_confirm")
    ensures ValidateRegistration(attrs, v1) == ValidateRegistration(attrs, v2)
      == Err(map["password_confirm" := ["Passwords do not match."]])
  {
  }

  lemma ChangeMismatchSkipsStrength(attrs: map<string, string>, v1: Option<string> -> seq<string>, v2: Option<string> -> seq<string>)
    requires Lookup(attrs, "new_password") != Lookup(attrs, "new_password_confirm")
    ensures ValidatePasswordChange(attrs, v1) == ValidatePasswordChange(attrs, v2)
      == Err(map["new_password_confirm" := ["New passwords do not match."]])
  {
  }

  /** `UserRegistrationSerializer.create` for a new user with key `newId`:
      `password_confirm` is ignored, a missing first or last name is `''`,
      and a missing username, e-mail or password raises `KeyError`. The
      user is a plain user, not staff. */
  function CreateUser(users: seq<User>, validated: map<string, string>, newId: UserId,
                      makePassword: string -> string): (r: Result<seq<User>, PyError>)
  {
    if "username" !in validated then Err(KeyError("username"))
    else if "email" !in validated then Err(KeyError("email"))
    else if "password" !in validated then Err(KeyError("password"))
    else
      var user := User(newId, validated["username"], validated["email"],
                       Lookup(validated, "first_name").GetOr(""), Lookup(validated, "last_name").GetOr(""),
                       false, false, makePassword(validated["password"]));
      Ok(users + [user])
  }

  /** The created user carries the submitted fields, with `''` for missing
      names; the confirmation never influences it; the existing users are
      kept. */
  lemma CreateUserFields(users: seq<User>, validated: map<string, string>, newId: UserId, makePassword: string -> string)
    ensures var r := CreateUser(users, validated, newId, makePassword);
      && (r.Ok? <==> "username" in validated && "email" in validated && "password" in validated)
      && (r.Ok? ==>
            && |r.value| == |users| + 1 && r.value[..|users|] == users
            && var u := r.value[|users|];
            && u.id == newId && u.username == validated["username"] && u.email == validated["email"]
            && u.password == makePassword(validated["password"])
            && u.firstName == (if "first_name" in validated then validated["first_name"] else "")
            && u.lastName == (if "last_name" in validated then validated["last_name"] else "")
            && !u.isStaff && !u.isSuperuser)
      && r == CreateUser(users, validated - {"password_confirm"}, newId, makePassword)
  {
    var v2 := validated - {"password_confirm"};
    assert Lookup(v2, "first_name") == Lookup(validated, "first_name");
    assert Lookup(v2, "last_name") == Lookup(validated, "last_name");
  }

  /** A registration request is accepted, refused with field errors, or
      fails with an exception. */
  datatype Registration = Registered(users: seq<User>) | Invalid(errors: Errors) | Raised(error: PyError)

  /** The errors of the two field-level checks, reported together. */
  function FieldErrors(users: seq<User>, attrs: map<string, string>): (r: Errors)
    ensures r == map[] <==>
      !("email" in attrs && EmailTaken(users, attrs["email"])) && !("username" in attrs && UsernameTaken(users, attrs["username"]))
    ensures "email" in attrs && EmailTaken(users, attrs["email"]) ==> "email" in r && r["email"] == [EmailExists]
    ensures "username" in attrs && UsernameTaken(users, attrs["username"]) ==> "username" in r && r["username"] == [UsernameExists]
  {
    var emailErrors: Errors :=
      if "email" in attrs && ValidateEmail(users, attrs["email"]).Err? then map["email" := [EmailExists]] else map[];
    var usernameErrors: Errors :=
      if "username" in attrs && ValidateUsername(users, attrs["username"]).Err? then map["username" := [UsernameExists]] else map[];
    var r := emailErrors + usernameErrors;
    assert "email" in emailErrors ==> "email" in r;
    assert "username" in usernameErrors ==> "username" in r;
    r
  }

  /** Registration end to end: the e-mail and username checks, then
      `validate`, then `create`. Field errors stop `validate` from running. */
  function Register(users: seq<User>, attrs: map<string, string>, newId: UserId,
                    validatePassword: Option<string> -> seq<string>, makePassword: string -> string): (r: Registration)
  {
    var fieldErrors := FieldErrors(users, attrs);
    if fieldErrors != map[] then Invalid(fieldErrors)
    else
      match ValidateRegistration(attrs, validatePassword)
      case Err(e) => Invalid(e)
      case Ok(validated) =>
        match CreateUser(users, validated, newId, makePassword)
        case Err(e) => Raised(e)
        case Ok(users') => Registered(users')
  }

  /** No two users share an e-mail address or a username. */
  predicate UniqueAccounts(users: seq<User>)
  {
    forall i, j :: 0 <= i < j < |users| ==>
      users[i].email != users[j].email && users[i].username != users[j].username
  }

  /** A successful registration adds exactly one user, so registration keeps
      e-mail addresses and usernames unique. */
  lemma RegisterKeepsAccountsUnique(users: seq<User>, attrs: map<string, string>, newId: UserId,
                                    validatePassword: Option<string> -> seq<string>, makePassword: string -> string)
    requires UniqueAccounts(users)
    ensures var r := Register(users, attrs, newId, validatePassword, makePassword);
      r.Registered? ==> UniqueAccounts(r.users) && |r.users| == |users| + 1 && r.users[..|users|] == users
  {
    var r := Register(users, attrs, newId, validatePassword, makePassword);
    if r.Registered? {
      CreateUserFields(users, attrs, newId, makePassword);
      var u := r.users[|users|];
      assert !EmailTaken(users, u.email);
      assert !UsernameTaken(users, u.username);
      forall i, j | 0 <= i < j < |r.users|
        ensures r.users[i].email != r.users[j].email && r.users[i].username != r.users[j].username
      {
        if j < |users| {
          assert r.users[i] == users[i] && r.users[j] == users[j];
        } else {
          assert r.users[i] == users[i];
        }
      }
    }
  }

  /** A taken e-mail address is refused, whatever else the request holds. */
  lemma RegisterRefusesTakenEmail(users: seq<User>, attrs: map<string, string>, newId: UserId,
                                  validatePassword: Option<string> -> seq<string>, makePassword: string -> string)
    requires "email" in attrs && EmailTaken(users, attrs["email"])
    ensures var r := Register(users, attrs, newId, validatePassword, makePassword);
      r.Invalid? && "email" in r.errors && r.errors["email"] == [EmailExists]
  {
  }

  /** `UserProfileUpdateSerializer.validate_email` for the user `instance`. */
  function ValidateProfileEmail(users: seq<User>, instance: User, value: string): (r: Result<string, string>)
    ensures r.Ok? <==> forall i :: 0 <= i < |users| && users[i].email == value ==> users[i].id == instance.id
    ensures r.Ok? ==> r.value == value
    ensures r.Err? ==> r.error == EmailExists
  {
    if exists i :: 0 <= i < |users| && users[i].email == value && users[i].id != instance.id then Err(EmailExists)
    else Ok(value)
  }

  /** The profile check differs from the registration check only in
      ignoring the user being updated: it is never stricter, keeping one's
      own address is accepted when nobody else has it, and the two agree
      for a user not in the table. */
  lemma ProfileEmailIgnoresSelf(users: seq<User>, instance: User, value: string)
    ensures ValidateEmail(users, value).Ok? ==> ValidateProfileEmail(users, instance, value).Ok?
    ensures (forall i :: 0 <= i < |users| ==> users[i].id != instance.id) ==>
      ValidateProfileEmail(users, instance, value) == ValidateEmail(users, value)
    ensures (forall i :: 0 <= i < |users| && users[i].id != instance.id ==> users[i].email != instance.email) ==>
      ValidateProfileEmail(users, instance, instance.email).Ok?
  {
  }

  /** `ConversationSerializer.create`: the listed ids that name existing
      users, then the creator. */
  function ConversationParticipants(users: seq<User>, me: User, participantsIds: seq<int>): (r: set<UserId>)
    ensures me.id in r
    ensures forall u :: u in r ==> u == me.id || (u in participantsIds && exists i :: 0 <= i < |users| && users[i].id == u)
    ensures forall i :: 0 <= i < |users| && users[i].id in participantsIds ==> users[i].id in r
  {
    var listed := if participantsIds != [] then set i | 0 <= i < |users| && users[i].id in participantsIds :: users[i].id else {};
    listed + {me.id}
  }

  /** Naming oneself changes nothing: the creator takes part either way. */
  lemma CreatorListedOrNot(users: seq<User>, me: User, participantsIds: seq<int>)
    requires exists i :: 0 <= i < |users| && users[i].id == me.id
    ensures ConversationParticipants(users, me, participantsIds + [me.id]) == ConversationParticipants(users, me, participantsIds)
  {
    var a := ConversationParticipants(users, me, participantsIds + [me.id]);
    var b := ConversationParticipants(users, me, participantsIds);
    forall u | u in a ensures u in b {
      if u != me.id {
        var i :| 0 <= i < |users| && users[i].id == u;
        assert u in participantsIds;
      }
    }
  }

  /** `MessageSerializer.create`: the message as submitted, with the
      requester as sender. */
  function SaveMessage(submitted: Message, me: User): (r: Message)
    ensures r.sender == me.id
    ensures r.id == submitted.id && r.conversation == submitted.conversation && r.body == submitted.body
  {
    submitted.(sender := me.id)
  }

  /** A submitted sender has no effect on the stored message. */
  lemma SubmittedSenderIgnored(submitted: Message, forged: UserId, me: User)
    ensures SaveMessage(submitted.(sender := forged), me) == SaveMessage(submitted, me)
  {
  }
}

=== FILE: chat_views.dfy ===
/** The viewset actions of `messaging_app/chats/views.py` as transitions of
    a store: conversation `create`, `add_participant` and
    `remove_participant`; message `create`, `update`, `destroy` and
    `recent_messages`; user `search_users`; and the querysets that scope
    `get_object`. Every action runs for an authenticated requester `me`
    (the view-level permission check refuses anyone else first).

    A reply is the HTTP status with the store afterwards; a Python
    exception escaping the view is an `Err`. Request data is a dictionary
    of decoded JSON values; a user or conversation key in it is converted
    by the primary key (`PkValue`) before a lookup, and a value it cannot
    convert raises. */
module ChatViews {
  import opened Wrappers
  import opened PyValues
  import opened ChatModels
  import opened ChatPermissions
  import Seqs
  import Strings

  /** The users in database order, the participants of every conversation
      by key, and the messages newest first (`ordering = ['-sent_at']`). */
  datatype ChatStore = ChatStore(users: seq<User>, conversations: map<ConvId, set<UserId>>, messages: seq<Message>)

  datatype Outcome = Outcome(status: int, store: ChatStore)

  /** An exception escaping a view together with the store as the view
      left it: no transaction spans a request, so what the view saved
      before raising stays saved. */
  datatype Raised = Raised(error: PyError, store: ChatStore)

  const Ok200 := 200
  const Created201 := 201
  const NoContent204 := 204
  const BadRequest400 := 400
  const Forbidden403 := 403
  const NotFound404 := 404

  predicate UserExists(store: ChatStore, id: UserId)
  {
    exists i :: 0 <= i < |store.users| && store.users[i].id == id
  }

  /** `User.objects.get(id=value)` finds a user: the value converts to the
      key of a stored user (`None` matches no row). */
  predicate NamesUser(store: ChatStore, value: Json)
  {
    var k := PkValue(value);
    k.Ok? && k.value.Some? && UserExists(store, k.value.value)
  }

  function Get(data: map<string, Json>, key: string): Json
  {
    if key in data then data[key] else JNull
  }

  // ---------------------------------------------------------------------
  // ConversationViewSet

  /** The keys of the conversations `get_queryset` shows `me`. */
  predicate ConversationVisible(store: ChatStore, me: User, id: ConvId)
  {
    id in store.conversations && me.id in store.conversations[id]
  }

  /** `participant_ids` after the requester's key is appended when absent;
      a value other than a list cannot take part in `in` and `append`. */
  function ParticipantIds(data: map<string, Json>, me: User): Result<seq<Json>, PyError>
  {
    var ids := if "participant_ids" in data then data["participant_ids"] else JList([]);
    match ids
    case JList(items) => Ok(if JInt(me.id) in items then items else items + [JInt(me.id)])
    case JMap(_) => Err(AttributeError("append"))
    case _ => Err(TypeError("argument is not iterable"))
  }

  /** Entry `i` is the first entry of `ids` the primary key cannot
      convert. */
  predicate FirstFailure(ids: seq<Json>, i: int)
  {
    0 <= i < |ids| && PkValue(ids[i]).Err? && forall j :: 0 <= j < i ==> PkValue(ids[j]).Ok?
  }

  /** Some entry of `ids` converts to the key `k`. */
  predicate Listed(ids: seq<Json>, k: int)
  {
    exists i :: 0 <= i < |ids| && PkValue(ids[i]) == Ok(Some(k))
  }

  /** The keys `filter(id__in=ids)` queries for, in list order: `None`
      entries are dropped, and the first entry the primary key cannot
      convert raises. */
  function PkValues(ids: seq<Json>): (r: Result<seq<int>, PyError>)
    ensures r.Ok? <==> forall i :: 0 <= i < |ids| ==> PkValue(ids[i]).Ok?
  {
    if |ids| == 0 then Ok([])
    else
      match PkValue(ids[0])
      case Err(e) => Err(e)
      case Ok(k) =>
        match PkValues(ids[1..])
        case Err(e) => Err(e)
        case Ok(rest) => Ok((if k.Some? then [k.value] else []) + rest)
  }

  /** A conversion error is the first failing entry's; otherwise the keys
      are exactly those the entries convert to. */
  lemma {:induction false} PkValuesMeaning(ids: seq<Json>)
    ensures var r := PkValues(ids);
      && (r.Err? ==> exists i :: FirstFailure(ids, i) && PkValue(ids[i]) == Err(r.error))
      && (r.Ok? ==> forall k :: k in r.value <==> Listed(ids, k))
  {
    if |ids| > 0 {
      PkValuesMeaning(ids[1..]);
      var r := PkValues(ids);
      var tail := PkValues(ids[1..]);
      if PkValue(ids[0]).Err? {
        assert FirstFailure(ids, 0);
      } else if tail.Err? {
        var i :| FirstFailure(ids[1..], i) && PkValue(ids[1..][i]) == Err(tail.error);
        assert FirstFailure(ids, i + 1);
      } else {
        forall k | Listed(ids[1..], k)
          ensures Listed(ids, k)
        {
          var i :| 0 <= i < |ids[1..]| && PkValue(ids[1..][i]) == Ok(Some(k));
          assert PkValue(ids[i + 1]) == Ok(Some(k));
        }
        forall k | Listed(ids, k)
          ensures k in r.value
        {
          var i :| 0 <= i < |ids| && PkValue(ids[i]) == Ok(Some(k));
          if i > 0 {
            assert PkValue(ids[1..][i - 1]) == Ok(Some(k));
          }
        }
      }
    }
  }

  /** `User.objects.filter(id__in=keys)`: the stored users the keys
      name. */
  function Resolve(store: ChatStore, keys: seq<int>): set<UserId>
  {
    set i | 0 <= i < |store.users| && store.users[i].id in keys :: store.users[i].id
  }

  /** `create` as written: the length check counts list entries, so
      duplicates and keys of missing users count toward the two
      participants. `serializer.save()` stores the conversation with the
      requester as its participant before the list is converted, so a
      malformed entry raises after the save. `newId` is the key the
      database gives the new conversation. */
  function CreateConversation(store: ChatStore, me: User, data: map<string, Json>, newId: ConvId): (r: Result<Outcome, Raised>)
    requires newId !in store.conversations
  {
    match ParticipantIds(data, me)
    case Err(e) => Err(Raised(e, store))
    case Ok(ids) =>
      if |ids| < 2 then Ok(Outcome(BadRequest400, store))
      else
        var saved := store.(conversations := store.conversations[newId := {me.id}]);
        match PkValues(ids)
        case Err(e) => Err(Raised(e, saved))
        case Ok(keys) => Ok(Outcome(Created201, saved.(conversations := store.conversations[newId := Resolve(store, keys)])))
  }

  /** The stored users among `keys`. */
  lemma ResolveMembers(store: ChatStore, keys: seq<int>)
    ensures forall u :: u in Resolve(store, keys) <==> UserExists(store, u) && u in keys
  {
    forall u | UserExists(store, u) && u in keys
      ensures u in Resolve(store, keys)
    {
      var i :| 0 <= i < |store.users| && store.users[i].id == u;
      assert store.users[i].id in keys;
    }
  }

  /** The appended requester key always converts, so the list with it
      fails exactly where the request's own list fails, at the same first
      entry; and it converts to the request's keys plus the requester's. */
  lemma ParticipantKeys(me: User, items: seq<Json>)
    ensures var ids := ParticipantIds(map["participant_ids" := JList(items)], me).value;
      var keys := PkValues(ids);
      && (keys.Err? <==> exists i :: 0 <= i < |items| && PkValue(items[i]).Err?)
      && (keys.Err? ==> exists i :: FirstFailure(items, i) && PkValue(items[i]) == Err(keys.error))
      && (keys.Ok? ==> forall u :: u in keys.value <==> u == me.id || Listed(items, u))
  {
    var ids := ParticipantIds(map["participant_ids" := JList(items)], me).value;
    var keys := PkValues(ids);
    assert ids[..|items|] == items;
    PkValuesMeaning(ids);
    if keys.Err? {
      var i :| FirstFailure(ids, i) && PkValue(ids[i]) == Err(keys.error);
      assert i < |items|;
      assert FirstFailure(items, i);
    } else {
      assert Listed(ids, me.id) by {
        var j :| 0 <= j < |ids| && ids[j] == JInt(me.id);
        assert PkValue(ids[j]) == Ok(Some(me.id));
      }
      forall u
        ensures Listed(ids, u) <==> u == me.id || Listed(items, u)
      {
        if Listed(ids, u) && u != me.id {
          var j :| 0 <= j < |ids| && PkValue(ids[j]) == Ok(Some(u));
          assert j < |items|;
          assert PkValue(items[j]) == Ok(Some(u));
        }
        if Listed(items, u) {
          var j :| 0 <= j < |items| && PkValue(items[j]) == Ok(Some(u));
          assert PkValue(ids[j]) == Ok(Some(u));
        }
      }
    }
  }

  /** The request is refused with 400 exactly when the list is empty or
      names only the requester. Otherwise an entry the primary key cannot
      convert raises its conversion error, leaving the new conversation
      saved with the requester alone; and without one, the new
      conversation holds exactly the stored users the list names plus the
      requester (when stored), and nothing else in the store changes. */
  lemma CreateConversationRules(store: ChatStore, me: User, items: seq<Json>, newId: ConvId)
    requires newId !in store.conversations
    ensures var r := CreateConversation(store, me, map["participant_ids" := JList(items)], newId);
      var refused := items == [] || items == [JInt(me.id)];
      && (r.Ok? && r.value.status == BadRequest400 <==> refused)
      && (r.Ok? && r.value.status == BadRequest400 ==> r.value.store == store)
      && (r.Err? <==> !refused && exists i :: 0 <= i < |items| && PkValue(items[i]).Err?)
      && (r.Err? ==> exists i :: FirstFailure(items, i) && PkValue(items[i]) == Err(r.error.error))
      && (r.Err? ==> r.error.store == store.(conversations := store.conversations[newId := {me.id}]))
      && (r.Ok? && r.value.status != BadRequest400 ==>
            && r.value.status == Created201
            && r.value.store.users == store.users && r.value.store.messages == store.messages
            && r.value.store.conversations.Keys == store.conversations.Keys + {newId}
            && (forall k :: k in store.conversations ==> r.value.store.conversations[k] == store.conversations[k])
            && (forall u :: u in r.value.store.conversations[newId] <==>
                  UserExists(store, u) && (u == me.id || Listed(items, u))))
  {
    var ids := ParticipantIds(map["participant_ids" := JList(items)], me).value;
    if JInt(me.id) in items && |items| < 2 {
      assert |items| == 1 && items[0] == JInt(me.id);
    }
    ParticipantKeys(me, items);
    if |ids| >= 2 && PkValues(ids).Ok? {
      ResolveMembers(store, PkValues(ids).value);
    }
  }

  /** The length check is weaker than its message: a list naming the
      requester twice creates a conversation whose only participant is the
      requester. */
  lemma CreateAcceptsLoneParticipant(store: ChatStore, me: User, newId: ConvId)
    requires newId !in store.conversations
    requires |store.users| == 1 && store.users[0] == me
    ensures var r := CreateConversation(store, me, map["participant_ids" := JList([JInt(me.id), JInt(me.id)])], newId);
      r.Ok? && r.value.status == Created201 && r.value.store.conversations[newId] == {me.id}
  {
    var ids := [JInt(me.id), JInt(me.id)];
    var one := [JInt(me.id)];
    assert one[1..] == [] && ids[1..] == one;
    assert PkValues(one) == Ok([me.id] + []);
    var keys := PkValues(ids).value;
    assert keys == [me.id, me.id];
    var s := Resolve(store, keys);
    assert me.id in s by {
      assert store.users[0].id in keys;
    }
  }

  /** `create` checking what the error message states: at least two
      distinct existing users take part in the new conversation. It
      converts the list before saving anything, so a malformed entry
      leaves the store as it was. */
  function CreateConversationChecked(store: ChatStore, me: User, data: map<string, Json>, newId: ConvId): (r: Result<Outcome, Raised>)
    requires newId !in store.conversations
    ensures r.Ok? <==> ParticipantIds(data, me).Ok? && PkValues(ParticipantIds(data, me).value).Ok?
    ensures r.Err? ==> r.error.store == store
    ensures r.Ok? && r.value.status != Created201 ==> r.value.store == store
    ensures r.Ok? && r.value.status == Created201 ==>
      && r.value.store.conversations == store.conversations[newId := Resolve(store, PkValues(ParticipantIds(data, me).value).value)]
      && |r.value.store.conversations[newId]| >= 2
  {
    match ParticipantIds(data, me)
    case Err(e) => Err(Raised(e, store))
    case Ok(ids) =>
      match PkValues(ids)
      case Err(e) => Err(Raised(e, store))
      case Ok(keys) =>
        var participants := Resolve(store, keys);
        if |participants| < 2 then Ok(Outcome(BadRequest400, store))
        else Ok(Outcome(Created201, store.(conversations := store.conversations[newId := participants])))
  }

  /** Every conversation has at least two participants. */
  predicate AtLeastTwoParticipants(store: ChatStore)
  {
    forall k :: k in store.conversations ==> |store.conversations[k]| >= 2
  }

  /** `add_participant`: 404 unless `me` can see the conversation, 400
      without a truthy `user_id`, the conversion error for a value that is
      no key, 404 for a missing user. */
  function AddParticipant(store: ChatStore, me: User, convId: ConvId, data: map<string, Json>): (r: Result<Outcome, PyError>)
    ensures var u := Get(data, "user_id");
      && (r.Err? <==> ConversationVisible(store, me, convId) && Truthy(u) && PkValue(u).Err?)
      && (r.Err? ==> r.error == PkValue(u).error)
      && (r.Ok? && r.value.status == Ok200 <==> ConversationVisible(store, me, convId) && Truthy(u) && NamesUser(store, u))
      && (r.Ok? && r.value.status == Ok200 ==>
            r.value.store == store.(conversations := store.conversations[convId := store.conversations[convId] + {PkValue(u).value.value}]))
      && (r.Ok? && r.value.status != Ok200 ==> r.value.store == store)
  {
    if !ConversationVisible(store, me, convId) then Ok(Outcome(NotFound404, store))
    else
      var userId := Get(data, "user_id");
      if !Truthy(userId) then Ok(Outcome(BadRequest400, store))
      else
        match PkValue(userId)
        case Err(e) => Err(e)
        case Ok(key) =>
          if !(key.Some? && UserExists(store, key.value)) then Ok(Outcome(NotFound404, store))
          else
            var ps := store.conversations[convId];
            Ok(Outcome(Ok200, store.(conversations := store.conversations[convId := ps + {key.value}])))
  }

  /** `remove_participant`: 404 unless `me` can see the conversation, 400
      without a truthy `user_id`, 400 when two or fewer take part, the
      conversion error for a value that is no key, 404 for a missing
      user. */
  function RemoveParticipant(store: ChatStore, me: User, convId: ConvId, data: map<string, Json>): (r: Result<Outcome, PyError>)
    ensures var u := Get(data, "user_id");
      && (r.Err? <==>
            ConversationVisible(store, me, convId) && Truthy(u) && |store.conversations[convId]| > 2 && PkValue(u).Err?)
      && (r.Err? ==> r.error == PkValue(u).error)
      && (r.Ok? && r.value.status == Ok200 <==>
            && ConversationVisible(store, me, convId) && Truthy(u)
            && |store.conversations[convId]| > 2 && NamesUser(store, u))
      && (r.Ok? && r.value.status == Ok200 ==>
            r.value.store == store.(conversations := store.conversations[convId := store.conversations[convId] - {PkValue(u).value.value}]))
      && (r.Ok? && r.value.status != Ok200 ==> r.value.store == store)
  {
    if !ConversationVisible(store, me, convId) then Ok(Outcome(NotFound404, store))
    else
      var userId := Get(data, "user_id");
      if !Truthy(userId) then Ok(Outcome(BadRequest400, store))
      else if |store.conversations[convId]| <= 2 then Ok(Outcome(BadRequest400, store))
      else
        match PkValue(userId)
        case Err(e) => Err(e)
        case Ok(key) =>
          if !(key.Some? && UserExists(store, key.value)) then Ok(Outcome(NotFound404, store))
          else
            var ps := store.conversations[convId];
            Ok(Outcome(Ok200, store.(conversations := store.conversations[convId := ps - {key.value}])))
  }

  /** Removing a participant never leaves fewer than two, so with the
      checked `create`, adding and removing keep every conversation at two
      or more participants (a request that raises changes nothing). */
  lemma ParticipantCountKept(store: ChatStore, me: User, convId: ConvId, data: map<string, Json>, newId: ConvId)
    requires AtLeastTwoParticipants(store)
    requires newId !in store.conversations
    ensures var a := AddParticipant(store, me, convId, data);
      a.Ok? ==> AtLeastTwoParticipants(a.value.store)
    ensures var d := RemoveParticipant(store, me, convId, data);
      d.Ok? ==> AtLeastTwoParticipants(d.value.store)
    ensures var c := CreateConversationChecked(store, me, data, newId);
      && (c.Ok? ==> AtLeastTwoParticipants(c.value.store))
      && (c.Err? ==> AtLeastTwoParticipants(c.error.store))
  {
    var a := AddParticipant(store, me, convId, data);
    if a.Ok? && a.value.status == Ok200 {
      var ps := store.conversations[convId];
      var u := PkValue(Get(data, "user_id")).value.value;
      assert ps <= ps + {u};
    }
    var d := RemoveParticipant(store, me, convId, data);
    if d.Ok? && d.value.status == Ok200 {
      var ps := store.conversations[convId];
      var u := PkValue(Get(data, "user_id")).value.value;
      assert |ps - {u}| >= |ps| - 1 by {
        if u in ps {
          assert ps == (ps - {u}) + {u};
        } else {
          assert ps - {u} == ps;
        }
      }
    }
  }

  // ---------------------------------------------------------------------
  // MessageViewSet

  /** `get_queryset`: the messages of the conversations `me` takes part in. */
  function Messages(store: ChatStore, me: User): seq<Message>
  {
    MessageQueryset(store.messages, store.conversations, me)
  }

  /** The first message with key `id`. */
  function FindMessage(ms: seq<Message>, id: MsgId): (r: Option<Message>)
    ensures r.Some? ==> r.value in ms && r.value.id == id
    ensures r.None? ==> forall i :: 0 <= i < |ms| ==> ms[i].id != id
  {
    if |ms| == 0 then None
    else if ms[0].id == id then Some(ms[0])
    else FindMessage(ms[1..], id)
  }

  /** `Conversation.objects.get(id=value)` finds a conversation. */
  predicate NamesConversation(store: ChatStore, value: Json)
  {
    var k := PkValue(value);
    k.Ok? && k.value.Some? && k.value.value in store.conversations
  }

  /** Message `create`: the conversion error when `conversation_id` is no
      key, 404 when it names no conversation, 403 when `me` does not take
      part in it; otherwise the new message, sent by `me`, comes first.
      `body` is the `message_body` field, `''` when the request has none. */
  function CreateMessage(store: ChatStore, me: User, data: map<string, Json>, body: Option<string>, newId: MsgId): (r: Result<Outcome, PyError>)
  {
    match PkValue(Get(data, "conversation_id"))
    case Err(e) => Err(e)
    case Ok(key) =>
      if !(key.Some? && key.value in store.conversations) then Ok(Outcome(NotFound404, store))
      else if me.id !in store.conversations[key.value] then Ok(Outcome(Forbidden403, store))
      else Ok(Outcome(Created201, store.(messages := [Message(newId, me.id, key.value, body.GetOr(""))] + store.messages)))
  }

  /** A message is created only in a conversation the requester takes part
      in, and its sender is the requester whatever the request says; a
      `conversation_id` the primary key cannot convert raises. */
  lemma CreateMessageRules(store: ChatStore, me: User, data: map<string, Json>, body: Option<string>, newId: MsgId)
    ensures var r := CreateMessage(store, me, data, body, newId);
      var v := Get(data, "conversation_id");
      && (r.Err? <==> PkValue(v).Err?)
      && (r.Err? ==> r.error == PkValue(v).error)
      && (r.Ok? && r.value.status == NotFound404 <==> PkValue(v).Ok? && !NamesConversation(store, v))
      && (r.Ok? && r.value.status == Forbidden403 <==>
            NamesConversation(store, v) && me.id !in store.conversations[PkValue(v).value.value])
      && (r.Ok? && r.value.status != Created201 ==> r.value.store == store)
      && (r.Ok? && r.value.status == Created201 ==>
            && r.value.store.users == store.users && r.value.store.conversations == store.conversations
            && |r.value.store.messages| == |store.messages| + 1
            && r.value.store.messages[1..] == store.messages
            && r.value.store.messages[0].sender == me.id
            && r.value.store.messages[0].conversation == PkValue(v).value.value
            && r.value.store.messages[0].body == (if body.Some? then body.value else "")
            && r.value.store.messages[0] in Messages(r.value.store, me))
  {
    var r := CreateMessage(store, me, data, body, newId);
    if r.Ok? && r.value.status == Created201 {
      assert r.value.store.messages[0] in r.value.store.messages;
    }
  }

  /** A key sent as its decimal numeral acts as the integer key in every
      lookup of the views; only the key `0` differs, as `"0"` is truthy
      where `0` is not. */
  lemma NumeralKeysAct(store: ChatStore, me: User, convId: ConvId, n: int, body: Option<string>, newId: MsgId)
    ensures var asText := map["conversation_id" := JStr(Str(n))];
      CreateMessage(store, me, asText, body, newId) == CreateMessage(store, me, map["conversation_id" := JInt(n)], body, newId)
    ensures var asText := map["user_id" := JStr(Str(n))];
      var asInt := map["user_id" := JInt(n)];
      n != 0 ==>
      && AddParticipant(store, me, convId, asText) == AddParticipant(store, me, convId, asInt)
      && RemoveParticipant(store, me, convId, asText) == RemoveParticipant(store, me, convId, asInt)
  {
    NumeralKeyIsKey(n);
    DigitsValue(if n < 0 then -n else n);
  }

  /** `get_object` for a write (`PUT`, `PATCH`, `DELETE`): 404 unless the
      message is in `me`'s queryset, 403 unless `me` sent it (the object
      permission and the view's own check agree). */
  function WritableMessage(store: ChatStore, me: User, id: MsgId): (r: Result<Message, int>)
    ensures r.Ok? ==> r.value.id == id && r.value.sender == me.id && r.value in store.messages
    ensures r.Err? ==> r.error == NotFound404 || r.error == Forbidden403
    ensures var f := FindMessage(Messages(store, me), id);
      && (r.Ok? <==> f.Some? && f.value.sender == me.id)
      && (r == Err(Forbidden403) <==> f.Some? && f.value.sender != me.id)
      && (r == Err(NotFound404) <==> f.None?)
  {
    match FindMessage(Messages(store, me), id)
    case None => Err(NotFound404)
    case Some(m) =>
      if m.sender != me.id then Err(Forbidden403) else Ok(m)
  }

  /** Message `i` of the store has key `id` and lies in a conversation
      `me` takes part in. */
  predicate VisibleAt(store: ChatStore, me: User, id: MsgId, i: int)
  {
    0 <= i < |store.messages| && store.messages[i].id == id
    && InConversationOf(me, store.conversations, store.messages[i])
  }

  /** Stated over the store itself, with unique keys: a message is
      writable iff it exists, the requester takes part in its conversation
      and sent it; 403 iff it exists where the requester takes part but
      someone else sent it; 404 iff the requester cannot see it. */
  lemma WritableMessageCases(store: ChatStore, me: User, id: MsgId)
    requires UniqueMessageIds(store)
    ensures var r := WritableMessage(store, me, id);
      && (r.Ok? <==> exists i :: VisibleAt(store, me, id, i) && store.messages[i].sender == me.id)
      && (r == Err(Forbidden403) <==> exists i :: VisibleAt(store, me, id, i) && store.messages[i].sender != me.id)
      && (r == Err(NotFound404) <==> forall i :: !VisibleAt(store, me, id, i))
  {
    var ms := Messages(store, me);
    var f := FindMessage(ms, id);
    if f.Some? {
      var k :| 0 <= k < |store.messages| && store.messages[k] == f.value;
      assert InConversationOf(me, store.conversations, f.value);
      forall i | 0 <= i < |store.messages| && store.messages[i].id == id
        ensures i == k
      {
      }
    }
  }

  /** The writable fields an `update` request submits, already parsed:
      `message_body` and the `conversation` key. `MessageSerializer`
      exposes every model field and makes only the sender and the timestamp
      read-only, so both can be changed; a missing one (a partial update)
      keeps its value. */
  datatype MessageChange = MessageChange(body: Option<string>, conversation: Option<ConvId>)

  /** The message with the submitted fields written into it. */
  function Apply(m: Message, change: MessageChange): Message
  {
    m.(body := change.body.GetOr(m.body), conversation := change.conversation.GetOr(m.conversation))
  }

  /** No two messages of `ms` share a key. */
  predicate DistinctKeys(ms: seq<Message>)
  {
    forall i, j :: 0 <= i < j < |ms| ==> ms[i].id != ms[j].id
  }

  /** The message key is the primary key: no two messages share it. */
  predicate UniqueMessageIds(store: ChatStore)
  {
    DistinctKeys(store.messages)
  }

  /** What the chat relies on: every message lies in an existing
      conversation that its sender takes part in. */
  predicate SendersParticipate(store: ChatStore)
  {
    forall i :: 0 <= i < |store.messages| ==>
      store.messages[i].conversation in store.conversations
      && store.messages[i].sender in store.conversations[store.messages[i].conversation]
  }

  /** Message `update` as written: after the 404 and 403 checks, the
      serializer refuses a `conversation` key naming no conversation (400)
      and otherwise writes the submitted fields into the requester's
      message, whichever conversation it names. */
  function UpdateMessage(store: ChatStore, me: User, id: MsgId, change: MessageChange): (r: Outcome)
    ensures r.status == Ok200 <==>
      WritableMessage(store, me, id).Ok? && (change.conversation.Some? ==> change.conversation.value in store.conversations)
    ensures r.status != Ok200 ==> r.store == store
    ensures r.store.users == store.users && r.store.conversations == store.conversations
    ensures |r.store.messages| == |store.messages|
    ensures forall i :: 0 <= i < |store.messages| ==>
      r.store.messages[i] == (if r.status == Ok200 && store.messages[i].id == id
                              then Apply(store.messages[i], change) else store.messages[i])
  {
    match WritableMessage(store, me, id)
    case Err(status) => Outcome(status, store)
    case Ok(_) =>
      if change.conversation.Some? && change.conversation.value !in store.conversations then
        Outcome(BadRequest400, store)
      else
        var ms := seq(|store.messages|, i requires 0 <= i < |store.messages| =>
          if store.messages[i].id == id then Apply(store.messages[i], change) else store.messages[i]);
        Outcome(Ok200, store.(messages := ms))
  }

  /** `update` checks who sends the message but not where it goes: the
      sender of a message in a conversation with one other user can move it
      into a conversation of two others. The update succeeds, the sender
      does not take part in the conversation that now holds the message,
      and the message drops out of the sender's own queryset. */
  lemma UpdateMovesMessageAway(me: User)
    ensures var store := ChatStore([], map[1 := {me.id, me.id + 1}, 2 := {me.id + 1, me.id + 2}],
                                   [Message(7, me.id, 1, "hi")]);
      var r := UpdateMessage(store, me, 7, MessageChange(None, Some(2)));
      && SendersParticipate(store)
      && r.status == Ok200
      && r.store.messages == [Message(7, me.id, 2, "hi")]
      && !SendersParticipate(r.store)
      && Messages(r.store, me) == []
  {
    var store := ChatStore([], map[1 := {me.id, me.id + 1}, 2 := {me.id + 1, me.id + 2}],
                           [Message(7, me.id, 1, "hi")]);
    assert Messages(store, me) == [Message(7, me.id, 1, "hi")];
    var r := UpdateMessage(store, me, 7, MessageChange(None, Some(2)));
    assert r.store.messages[0] == Message(7, me.id, 2, "hi");
    assert Seqs.Filter(r.store.messages[1..], m => InConversationOf(me, r.store.conversations, m)) == [];
  }

  /** Message `update` refusing, like message `create`, a conversation the
      requester does not take part in (403). */
  function UpdateMessageChecked(store: ChatStore, me: User, id: MsgId, change: MessageChange): (r: Outcome)
    ensures r.status == Ok200 ==> r == UpdateMessage(store, me, id, change)
    ensures r.status == Ok200 <==>
      && UpdateMessage(store, me, id, change).status == Ok200
      && (change.conversation.Some? ==> me.id in store.conversations[change.conversation.value])
    ensures r.status != Ok200 ==> r.store == store
  {
    match WritableMessage(store, me, id)
    case Err(status) => Outcome(status, store)
    case Ok(_) =>
      if change.conversation.Some? && change.conversation.value in store.conversations
         && me.id !in store.conversations[change.conversation.value]
      then Outcome(Forbidden403, store)
      else UpdateMessage(store, me, id, change)
  }

  /** The messages `destroy` keeps: those with another key. */
  function KeyIsNot(id: MsgId): Message -> bool
  {
    (m: Message) => m.id != id
  }

  /** Message `destroy`: the requester's own message is deleted; nothing
      else is. */
  function DestroyMessage(store: ChatStore, me: User, id: MsgId): (r: Outcome)
    ensures r.status == NoContent204 <==> WritableMessage(store, me, id).Ok?
    ensures r.status != NoContent204 ==> r.status == WritableMessage(store, me, id).error && r.store == store
    ensures r.store.users == store.users && r.store.conversations == store.conversations
    ensures forall i :: 0 <= i < |r.store.messages| ==> r.store.messages[i] in store.messages
    ensures r.status == NoContent204 ==> forall i :: 0 <= i < |r.store.messages| ==> r.store.messages[i].id != id
    ensures forall i :: 0 <= i < |store.messages| && store.messages[i].id != id ==>
      store.messages[i] in r.store.messages
  {
    match WritableMessage(store, me, id)
    case Err(status) => Outcome(status, store)
    case Ok(_) => Outcome(NoContent204, store.(messages := Seqs.Filter(store.messages, KeyIsNot(id))))
  }

  /** Only the sender can change or delete a message. */
  lemma OnlySenderWrites(store: ChatStore, me: User, id: MsgId, change: MessageChange)
    requires forall i :: 0 <= i < |store.messages| && store.messages[i].id == id ==> store.messages[i].sender != me.id
    ensures UpdateMessage(store, me, id, change).store == store
    ensures UpdateMessageChecked(store, me, id, change).store == store
    ensures DestroyMessage(store, me, id).store == store
  {
  }

  /** With unique keys an update rewrites exactly the one message with that
      key, and a deletion removes exactly that one message. */
  lemma WritesActOnOneMessage(store: ChatStore, me: User, id: MsgId, change: MessageChange)
    requires UniqueMessageIds(store)
    ensures var r := UpdateMessage(store, me, id, change);
      r.status == Ok200 ==>
        && UniqueMessageIds(r.store)
        && exists i :: 0 <= i < |store.messages| && store.messages[i].id == id
             && r.store.messages == store.messages[i := Apply(store.messages[i], change)]
    ensures var r := DestroyMessage(store, me, id);
      r.status == NoContent204 ==> UniqueMessageIds(r.store) && |r.store.messages| == |store.messages| - 1
  {
    var u := UpdateMessage(store, me, id, change);
    if u.status == Ok200 {
      var m := WritableMessage(store, me, id).value;
      var i :| 0 <= i < |store.messages| && store.messages[i] == m;
      assert u.store.messages == store.messages[i := Apply(store.messages[i], change)];
    }
    var d := DestroyMessage(store, me, id);
    if d.status == NoContent204 {
      var m := WritableMessage(store, me, id).value;
      var i :| 0 <= i < |store.messages| && store.messages[i] == m;
      FilterDropsOne(store.messages, i);
      FilterKeepsUnique(store.messages, id);
    }
  }

  /** Removing the messages with the key of message `i` removes only it
      when keys are distinct. */
  lemma {:induction false} FilterDropsOne(ms: seq<Message>, i: nat)
    requires i < |ms| && DistinctKeys(ms)
    ensures |Seqs.Filter(ms, KeyIsNot(ms[i].id))| == |ms| - 1
  {
    var p := KeyIsNot(ms[i].id);
    TailDistinct(ms);
    if i == 0 {
      assert Seqs.Filter(ms, p) == Seqs.Filter(ms[1..], p);
      Seqs.FilterAll(ms[1..], p);
    } else {
      assert ms[1..][i - 1] == ms[i];
      FilterDropsOne(ms[1..], i - 1);
      assert Seqs.Filter(ms, p) == [ms[0]] + Seqs.Filter(ms[1..], p);
    }
  }

  lemma TailDistinct(ms: seq<Message>)
    requires |ms| > 0 && DistinctKeys(ms)
    ensures DistinctKeys(ms[1..])
    ensures forall k :: 0 <= k < |ms[1..]| ==> ms[1..][k].id != ms[0].id
  {
    forall a, b | 0 <= a < b < |ms[1..]|
      ensures ms[1..][a].id != ms[1..][b].id
    {
      assert ms[1..][a] == ms[a + 1] && ms[1..][b] == ms[b + 1];
    }
  }

  /** Filtering keeps message keys distinct. */
  lemma {:induction false} FilterKeepsUnique(ms: seq<Message>, id: MsgId)
    requires DistinctKeys(ms)
    ensures DistinctKeys(Seqs.Filter(ms, KeyIsNot(id)))
  {
    var p := KeyIsNot(id);
    if |ms| > 0 {
      var tail := ms[1..];
      TailDistinct(ms);
      FilterKeepsUnique(tail, id);
      var rest := Seqs.Filter(tail, p);
      if p(ms[0]) {
        var f := [ms[0]] + rest;
        assert Seqs.Filter(ms, p) == f;
        forall a, b | 0 <= a < b < |f|
          ensures f[a].id != f[b].id
        {
          if a == 0 {
            assert f[b] == rest[b - 1] && rest[b - 1] in tail;
          } else {
            assert f[a] == rest[a - 1] && f[b] == rest[b - 1];
          }
        }
      } else {
        assert Seqs.Filter(ms, p) == rest;
      }
    }
  }

  /** Creating a message keeps every message in a conversation its sender
      takes part in, and keeps message keys unique when the new key is
      fresh. */
  lemma CreateKeepsInvariants(store: ChatStore, me: User, data: map<string, Json>, body: Option<string>, newId: MsgId)
    requires SendersParticipate(store) && UniqueMessageIds(store)
    requires forall i :: 0 <= i < |store.messages| ==> store.messages[i].id != newId
    ensures var r := CreateMessage(store, me, data, body, newId);
      r.Ok? ==> SendersParticipate(r.value.store) && UniqueMessageIds(r.value.store)
  {
    var c := CreateMessage(store, me, data, body, newId);
    if c.Ok? && c.value.status == Created201 {
      assert forall i :: 1 <= i < |c.value.store.messages| ==> c.value.store.messages[i] == store.messages[i - 1];
    }
  }

  /** The checked `update` keeps every message in a conversation its sender
      takes part in. */
  lemma UpdateCheckedKeepsParticipation(store: ChatStore, me: User, id: MsgId, change: MessageChange)
    requires SendersParticipate(store) && UniqueMessageIds(store)
    ensures SendersParticipate(UpdateMessageChecked(store, me, id, change).store)
  {
    var u := UpdateMessageChecked(store, me, id, change);
    if u.status == Ok200 {
      var w := WritableMessage(store, me, id).value;
      var k :| 0 <= k < |store.messages| && store.messages[k] == w;
      forall i | 0 <= i < |u.store.messages|
        ensures u.store.messages[i].conversation in u.store.conversations
        ensures u.store.messages[i].sender in u.store.conversations[u.store.messages[i].conversation]
      {
        if store.messages[i].id == id {
          assert i == k;
        }
      }
    }
  }

  /** Deleting a message keeps every other message where it was. */
  lemma DestroyKeepsParticipation(store: ChatStore, me: User, id: MsgId)
    requires SendersParticipate(store)
    ensures SendersParticipate(DestroyMessage(store, me, id).store)
  {
    var d := DestroyMessage(store, me, id);
    forall i | 0 <= i < |d.store.messages|
      ensures d.store.messages[i].conversation in d.store.conversations
      ensures d.store.messages[i].sender in d.store.conversations[d.store.messages[i].conversation]
    {
      var m := d.store.messages[i];
      var k :| 0 <= k < |store.messages| && store.messages[k] == m;
    }
  }

  /** `recent_messages`: the first 20 of `me`'s messages, newest first. */
  function RecentMessages(store: ChatStore, me: User): (r: seq<Message>)
    ensures |r| <= 20
    ensures r <= Messages(store, me)
    ensures |Messages(store, me)| >= 20 ==> |r| == 20
    ensures |Messages(store, me)| < 20 ==> r == Messages(store, me)
  {
    Seqs.Take(Messages(store, me), 20)
  }

  /** Every recent message is one `me` may read. */
  lemma RecentMessagesReadable(store: ChatStore, me: User)
    ensures forall i :: 0 <= i < |RecentMessages(store, me)| ==>
      var m := RecentMessages(store, me)[i];
      m.conversation in store.conversations
      && MessagePermissions(Authed(me), "GET", MessageObj(m, store.conversations[m.conversation])) == Ok(true)
  {
    var r := RecentMessages(store, me);
    forall i | 0 <= i < |r|
      ensures r[i] in Messages(store, me)
    {
      assert r[i] == Messages(store, me)[i];
    }
  }

  // ---------------------------------------------------------------------
  // UserViewSet

  /** The search condition: the query occurs, ignoring case, in the
      username, first name, last name or e-mail address. */
  predicate Matches(u: User, query: string)
  {
    Strings.IContains(u.username, query) || Strings.IContains(u.firstName, query)
    || Strings.IContains(u.lastName, query) || Strings.IContains(u.email, query)
  }

  /** The users `search_users` selects for query `q`: matching ones other
      than `me`. */
  function SearchHit(me: User, q: string): User -> bool
  {
    u => Matches(u, q) && u.id != me.id
  }

  /** `search_users`: 400 for a query `q` shorter than two characters;
      otherwise the first ten matching users other than `me`, in database
      order. */
  function SearchUsers(store: ChatStore, me: User, params: map<string, string>): (r: Result<seq<User>, int>)
    ensures r.Err? <==> |if "q" in params then params["q"] else ""| < 2
    ensures r.Err? ==> r.error == BadRequest400
    ensures r.Ok? ==> |r.value| <= 10
    ensures r.Ok? ==> forall i :: 0 <= i < |r.value| ==> r.value[i].id != me.id && Matches(r.value[i], params["q"])
    ensures r.Ok? ==>
      var found := Seqs.Filter(store.users, SearchHit(me, params["q"]));
      r.value <= found && |r.value| == (if |found| < 10 then |found| else 10)
  {
    var q := if "q" in params then params["q"] else "";
    if |q| < 2 then Err(BadRequest400)
    else Ok(Seqs.Take(Seqs.Filter(store.users, SearchHit(me, q)), 10))
  }

  /** When at most ten users match, the search finds every one of them
      but `me`. */
  lemma SearchFindsAllMatches(store: ChatStore, me: User, q: string)
    requires |q| >= 2
    requires |Seqs.Filter(store.users, SearchHit(me, q))| <= 10
    ensures var r := SearchUsers(store, me, map["q" := q]);
      forall i :: 0 <= i < |store.users| && store.users[i].id != me.id && Matches(store.users[i], q) ==>
        store.users[i] in r.value
  {
  }
}

=== FILE: db_decorators.dfy ===
/** The connection-handling decorators of `python-decorators-0x010`:
    `with_db_connection` opens a connection, passes it as the first
    argument and closes it on every exit path; `transactional` brackets the
    call with `BEGIN` and `commit`, rolling back and re-raising on any
    exception; `retry_on_failure(retries, delay)` calls the function up to
    `retries` times, sleeping `delay` seconds between failed attempts.

    A run is the result together with the trace of the operations issued on
    connections and the sleeps. Opening a connection yields the connection
    `conn` given as a parameter; the outcome of each call of the decorated
    function, and what `sqlite3.connect`, `close`, `BEGIN`, `commit` and
    `rollback` raise, if anything, are parameters too. */
module DbDecorators {
  import opened Wrappers
  import opened PyValues

  type Conn = nat

  datatype Event =
    | Opened(conn: Conn)
    | Closed(conn: Conn)
    | Began(conn: Conn)
    | Committed(conn: Conn)
    | RolledBack(conn: Conn)
    | Called(conn: Conn)
    | Slept(seconds: int)

  datatype Run<R> = Run(result: Result<R, PyError>, trace: seq<Event>)

  /** What `raise None` raises. */
  const RaiseNone: PyError := TypeError("exceptions must derive from BaseException")

  /** `with_db_connection(func)()`: `func(conn)` between the opening and the
      closing of `conn`, whatever it returns or raises. `connectError` is
      what `sqlite3.connect` raises, if anything: then nothing is opened and
      `func` is not called. `closeError` is what `conn.close()` raises: an
      exception from the `finally` clause replaces the call's result or
      exception. */
  function WithDbConnection<R>(conn: Conn, func: Conn -> Run<R>,
                               connectError: Option<PyError>, closeError: Option<PyError>): (r: Run<R>)
    ensures connectError.Some? ==> r == Run(Err(connectError.value), [])
    ensures connectError.None? ==>
      && r.result == (if closeError.Some? then Err(closeError.value) else func(conn).result)
      && |r.trace| >= 2 && r.trace[0] == Opened(conn) && r.trace[|r.trace| - 1] == Closed(conn)
      && r.trace[1..|r.trace| - 1] == func(conn).trace
  {
    if connectError.Some? then Run(Err(connectError.value), [])
    else
      var inner := func(conn);
      var t := [Opened(conn)] + inner.trace + [Closed(conn)];
      assert t[1..|t| - 1] == inner.trace;
      Run(if closeError.Some? then Err(closeError.value) else inner.result, t)
  }

  /** Operations on connections other than opening and closing. */
  predicate NoOpenClose(trace: seq<Event>)
  {
    forall i :: 0 <= i < |trace| ==> !trace[i].Opened? && !trace[i].Closed?
  }

  /** When the wrapped function opens and closes nothing itself, the
      connection is opened exactly at the start and closed exactly once, at
      the end. */
  lemma ClosedOnce<R>(conn: Conn, func: Conn -> Run<R>, connectError: Option<PyError>, closeError: Option<PyError>)
    requires NoOpenClose(func(conn).trace)
    ensures var t := WithDbConnection(conn, func, connectError, closeError).trace;
      forall i :: 0 <= i < |t| ==> (t[i].Closed? <==> i == |t| - 1) && (t[i].Opened? <==> i == 0)
  {
    var t := WithDbConnection(conn, func, connectError, closeError).trace;
    forall i | 0 < i < |t| - 1
      ensures !t[i].Closed? && !t[i].Opened?
    {
      assert t[i] == t[1..|t| - 1][i - 1];
    }
  }

  // ---------------------------------------------------------------------
  // transactional

  /** `transactional(func)(conn)`. `beginError`, `commitError` and
      `rollbackError` are what `conn.execute("BEGIN")`, `conn.commit()` and
      `conn.rollback()` raise, if anything; `outcome` is what `func(conn)`
      returns or raises. Any exception inside the `try` — from `BEGIN`,
      from `func` or from `commit` — leads to `rollback` and is re-raised; an
      exception from `rollback` replaces it. */
  function Transactional<R>(conn: Conn, outcome: Result<R, PyError>,
                            beginError: Option<PyError>, commitError: Option<PyError>,
                            rollbackError: Option<PyError>): (r: Run<R>)
    ensures |r.trace| >= 2 && r.trace[0] == Began(conn)
    ensures Committed(conn) in r.trace ==> beginError.None? && outcome.Ok?
    ensures r.result.Ok? <==> beginError.None? && outcome.Ok? && commitError.None?
    ensures r.result.Ok? ==> r.result == outcome && r.trace[|r.trace| - 1] == Committed(conn)
    ensures r.result.Err? <==> r.trace[|r.trace| - 1] == RolledBack(conn)
    ensures Called(conn) in r.trace <==> beginError.None?
  {
    var failed := (t: seq<Event>, e: PyError) =>
      Run(Err(rollbackError.GetOr(e)), t + [RolledBack(conn)]);
    if beginError.Some? then failed([Began(conn)], beginError.value)
    else
      var called := [Began(conn), Called(conn)];
      match outcome
      case Err(e) => failed(called, e)
      case Ok(v) =>
        if commitError.Some? then failed(called + [Committed(conn)], commitError.value)
        else Run(Ok(v), called + [Committed(conn)])
  }

  /** When `func` raises, the transaction is rolled back, never committed,
      and (unless `rollback` itself raises) the same exception propagates. */
  lemma FailedCallRollsBack<R>(conn: Conn, e: PyError, commitError: Option<PyError>)
    ensures var r := Transactional<R>(conn, Err(e), None, commitError, None);
      r.result == Err(e) && r.trace == [Began(conn), Called(conn), RolledBack(conn)]
      && Committed(conn) !in r.trace
  {
  }

  /** A normal return commits, returns `func`'s result, and rolls nothing
      back. */
  lemma NormalReturnCommits<R>(conn: Conn, v: R)
    ensures var r := Transactional(conn, Ok(v), None, None, None);
      r.result == Ok(v) && r.trace == [Began(conn), Called(conn), Committed(conn)]
      && RolledBack(conn) !in r.trace
  {
  }

  /** What the database operations raise, if anything: connecting,
      `BEGIN`, `commit`, `rollback` and closing. */
  datatype Faults = Faults(connect: Option<PyError>, begin: Option<PyError>, commit: Option<PyError>,
                           rollback: Option<PyError>, close: Option<PyError>)

  /** `update_user_email` as decorated: one connection, opened, used for the
      whole transaction and closed once, on success and on failure. */
  function UpdateUserEmail(conn: Conn, outcome: Result<(), PyError>, f: Faults): Run<()>
  {
    WithDbConnection(conn, (c: Conn) => Transactional(c, outcome, f.begin, f.commit, f.rollback), f.connect, f.close)
  }

  /** A failed connection runs nothing. Otherwise the transaction runs on
      the one connection, which is closed last, after the commit or the
      rollback; the result is the transaction's unless closing raises. */
  lemma UpdateUserEmailOneConnection(conn: Conn, outcome: Result<(), PyError>, f: Faults)
    ensures var r := UpdateUserEmail(conn, outcome, f);
      && (f.connect.Some? ==> r == Run(Err(f.connect.value), []))
      && (f.connect.None? ==>
            var tx := Transactional(conn, outcome, f.begin, f.commit, f.rollback);
            && r.result == (if f.close.Some? then Err(f.close.value) else tx.result)
            && r.trace[0] == Opened(conn) && r.trace[1] == Began(conn)
            && r.trace[|r.trace| - 1] == Closed(conn)
            && (tx.result.Ok? ==> r.trace[|r.trace| - 2] == Committed(conn))
            && (tx.result.Err? ==> r.trace[|r.trace| - 2] == RolledBack(conn)))
  {
    if f.connect.None? {
      var func := (c: Conn) => Transactional(c, outcome, f.begin, f.commit, f.rollback);
      var inner := func(conn).trace;
      var t := UpdateUserEmail(conn, outcome, f).trace;
      assert t[1..|t| - 1] == inner;
      assert t[1] == inner[0];
      assert t[|t| - 2] == inner[|inner| - 1];
    }
  }

  // ---------------------------------------------------------------------
  // retry_on_failure

  /** The attempts `wrapper` makes from attempt `attempt` on, `last` being
      the exception of the previous attempt. `outcome(k)` is what the
      `k`-th call (from 0) returns or raises. A failed attempt that is not
      the last sleeps `delay` seconds; `time.sleep` rejects a negative
      length with `ValueError`, raised from the `except` block, so that
      ends the run. */
  function RetryFrom<R>(attempt: nat, retries: int, delay: int, conn: Conn,
                        outcome: nat -> Result<R, PyError>, last: Option<PyError>): Run<R>
    decreases retries - attempt
  {
    if attempt >= retries then Run(Err(last.GetOr(RaiseNone)), [])
    else
      match outcome(attempt)
      case Ok(v) => Run(Ok(v), [Called(conn)])
      case Err(e) =>
        if attempt < retries - 1 && delay < 0 then Run(Err(SleepError), [Called(conn)])
        else
          var pause := if attempt < retries - 1 then [Slept(delay)] else [];
          var rest := RetryFrom(attempt + 1, retries, delay, conn, outcome, Some(e));
          Run(rest.result, [Called(conn)] + pause + rest.trace)
  }

  /** What `time.sleep` raises for a negative length. */
  const SleepError := ValueError("sleep length must be non-negative")

  /** `retry_on_failure(retries, delay)(func)(conn)`. */
  function RetryOnFailure<R>(retries: int, delay: int, conn: Conn, outcome: nat -> Result<R, PyError>): Run<R>
  {
    RetryFrom(0, retries, delay, conn, outcome, None)
  }

  /** The first attempt from `attempt` on that succeeds, or `retries` when
      none before `retries` does. */
  function FirstOk<R>(attempt: nat, retries: int, outcome: nat -> Result<R, PyError>): (k: int)
    requires attempt <= retries
    ensures attempt <= k <= retries
    ensures forall j :: attempt <= j < k ==> outcome(j).Err?
    ensures k < retries ==> outcome(k).Ok?
    decreases retries - attempt
  {
    if attempt == retries || outcome(attempt).Ok? then attempt
    else FirstOk(attempt + 1, retries, outcome)
  }

  /** `n` calls on `conn`, with a sleep of `delay` between each two. */
  function Attempts(n: nat, conn: Conn, delay: int): (t: seq<Event>)
  {
    seq(if n == 0 then 0 else 2 * n - 1, i => if i % 2 == 0 then Called(conn) else Slept(delay))
  }

  lemma AttemptsStep(n: nat, conn: Conn, delay: int)
    requires n >= 1
    ensures Attempts(n + 1, conn, delay) == [Called(conn), Slept(delay)] + Attempts(n, conn, delay)
  {
    var a := Attempts(n + 1, conn, delay);
    var b := [Called(conn), Slept(delay)] + Attempts(n, conn, delay);
    assert |a| == |b|;
    forall i | 2 <= i < |a|
      ensures a[i] == b[i]
    {
      assert (i - 2) % 2 == i % 2;
    }
  }

  /** A failed attempt that is not the last is a call and a sleep followed
      by the run from the next attempt, which raises or returns for it. */
  lemma RetryFromStep<R>(attempt: nat, retries: int, delay: int, conn: Conn,
                         outcome: nat -> Result<R, PyError>, last: Option<PyError>)
    requires attempt < retries - 1 && outcome(attempt).Err? && delay >= 0
    ensures var rest := RetryFrom(attempt + 1, retries, delay, conn, outcome, Some(outcome(attempt).error));
      RetryFrom(attempt, retries, delay, conn, outcome, last) == Run(rest.result, [Called(conn), Slept(delay)] + rest.trace)
  {
  }

  /** The run from `attempt` on when attempt `k` is the first to succeed:
      `k - attempt + 1` calls with a sleep between each two, and the
      result of attempt `k`. */
  lemma {:induction false} RetryFromSuccess<R>(attempt: nat, retries: int, delay: int, conn: Conn,
                                               outcome: nat -> Result<R, PyError>, last: Option<PyError>, k: nat)
    requires attempt <= k < retries && outcome(k).Ok? && (delay >= 0 || k == attempt)
    requires forall j :: attempt <= j < k ==> outcome(j).Err?
    ensures var r := RetryFrom(attempt, retries, delay, conn, outcome, last);
      r.result == outcome(k) && r.trace == Attempts(k - attempt + 1, conn, delay)
    decreases k - attempt
  {
    if attempt < k {
      RetryFromStep(attempt, retries, delay, conn, outcome, last);
      RetryFromSuccess(attempt + 1, retries, delay, conn, outcome, Some(outcome(attempt).error), k);
      AttemptsStep(k - attempt, conn, delay);
    } else {
      assert Attempts(1, conn, delay) == [Called(conn)];
    }
  }

  /** The run from `attempt` on when every remaining attempt fails: a call
      for each with a sleep between each two, and the last exception. */
  lemma {:induction false} RetryFromAllFail<R>(attempt: nat, retries: int, delay: int, conn: Conn,
                                               outcome: nat -> Result<R, PyError>, last: Option<PyError>)
    requires attempt < retries && (delay >= 0 || attempt == retries - 1)
    requires forall j :: attempt <= j < retries ==> outcome(j).Err?
    ensures var r := RetryFrom(attempt, retries, delay, conn, outcome, last);
      r.result == outcome(retries - 1) && r.trace == Attempts(retries - attempt, conn, delay)
    decreases retries - attempt
  {
    if attempt < retries - 1 {
      RetryFromStep(attempt, retries, delay, conn, outcome, last);
      RetryFromAllFail(attempt + 1, retries, delay, conn, outcome, Some(outcome(attempt).error));
      AttemptsStep(retries - attempt - 1, conn, delay);
    } else {
      assert Attempts(1, conn, delay) == [Called(conn)];
    }
  }

  /** The first successful attempt's result is returned after exactly
      `k + 1` calls and `k` sleeps, and no further call follows; with a
      negative delay, a failed first attempt ends the run instead. */
  lemma RetryReturnsFirstSuccess<R>(retries: int, delay: int, conn: Conn,
                                    outcome: nat -> Result<R, PyError>, k: nat)
    requires k < retries && outcome(k).Ok?
    requires forall j :: 0 <= j < k ==> outcome(j).Err?
    ensures delay >= 0 || k == 0 ==>
      && RetryOnFailure(retries, delay, conn, outcome).result == outcome(k)
      && RetryOnFailure(retries, delay, conn, outcome).trace == Attempts(k + 1, conn, delay)
    ensures delay < 0 && k > 0 ==> RetryOnFailure(retries, delay, conn, outcome) == Run(Err(SleepError), [Called(conn)])
  {
    if delay >= 0 || k == 0 {
      RetryFromSuccess(0, retries, delay, conn, outcome, None, k);
    }
  }

  /** When every attempt fails: `retries` calls, `retries - 1` sleeps, and
      the last attempt's exception is raised; with a negative delay and a
      second attempt to come, the first sleep raises instead. */
  lemma RetryAllFail<R>(retries: int, delay: int, conn: Conn, outcome: nat -> Result<R, PyError>)
    requires retries >= 1
    requires forall j :: 0 <= j < retries ==> outcome(j).Err?
    ensures delay >= 0 || retries == 1 ==>
      && RetryOnFailure(retries, delay, conn, outcome).result == outcome(retries - 1)
      && RetryOnFailure(retries, delay, conn, outcome).trace == Attempts(retries, conn, delay)
    ensures delay < 0 && retries >= 2 ==> RetryOnFailure(retries, delay, conn, outcome) == Run(Err(SleepError), [Called(conn)])
  {
    if delay >= 0 || retries == 1 {
      RetryFromAllFail(0, retries, delay, conn, outcome, None);
    }
  }

  /** With a negative delay, the first failed attempt that is not the last
      ends the run with the `ValueError` of `time.sleep`: one call, no
      sleep, no retry, and the function's own exception is lost. */
  lemma NegativeDelayStopsRetrying<R>(retries: int, delay: int, conn: Conn, outcome: nat -> Result<R, PyError>)
    requires delay < 0 && retries >= 2
    ensures RetryOnFailure(retries, delay, conn, outcome)
      == (if outcome(0).Ok? then Run(outcome(0), [Called(conn)]) else Run(Err(SleepError), [Called(conn)]))
  {
  }

  /** With `retries <= 0` the function is never called and `raise None`
      fails. */
  lemma RetryNonPositive<R>(retries: int, delay: int, conn: Conn, outcome: nat -> Result<R, PyError>)
    requires retries <= 0
    ensures RetryOnFailure(retries, delay, conn, outcome) == Run(Err(RaiseNone), [])
  {
  }

  /** The shape of `n` attempts: calls at even positions, sleeps at odd
      ones, and never a sleep at the end. */
  lemma AttemptsShape(n: nat, conn: Conn, delay: int)
    ensures var t := Attempts(n, conn, delay);
      && (|t| == 0 || |t| == 2 * n - 1)
      && (forall i :: 0 <= i < |t| ==> (t[i].Slept? <==> i % 2 == 1))
      && (forall i :: 0 <= i < |t| && t[i].Slept? ==> i + 1 < |t| && t[i + 1] == Called(conn))
      && (forall i :: 0 <= i < |t| ==> t[i] == Called(conn) || t[i] == Slept(delay))
  {
    var t := Attempts(n, conn, delay);
    forall i | 0 <= i < |t| && t[i].Slept?
      ensures i + 1 < |t| && t[i + 1] == Called(conn)
    {
      assert i % 2 == 1;
      assert (i + 1) % 2 == 0;
    }
  }

  /** Never more than `retries` calls; every sleep follows a failed call
      and precedes another call; every call is on the same connection. */
  lemma RetryBounded<R>(retries: int, delay: int, conn: Conn, outcome: nat -> Result<R, PyError>)
    ensures var t := RetryOnFailure(retries, delay, conn, outcome).trace;
      && (|t| == 0 || |t| < 2 * retries)
      && (forall i :: 0 <= i < |t| ==> (t[i].Slept? <==> i % 2 == 1))
      && (forall i :: 0 <= i < |t| && t[i].Slept? ==> i + 1 < |t| && t[i + 1] == Called(conn))
      && (forall i :: 0 <= i < |t| ==> t[i] == Called(conn) || t[i] == Slept(delay))
  {
    if retries >= 1 && delay < 0 && retries >= 2 && outcome(0).Err? {
      assert RetryOnFailure(retries, delay, conn, outcome).trace == [Called(conn)];
    } else if retries >= 1 {
      var k := FirstOk(0, retries, outcome);
      if k < retries {
        RetryFromSuccess(0, retries, delay, conn, outcome, None, k);
        AttemptsShape(k + 1, conn, delay);
      } else {
        RetryFromAllFail(0, retries, delay, conn, outcome, None);
        AttemptsShape(retries, conn, delay);
      }
    }
  }

  /** `fetch_users_with_retry()` as decorated: one connection, shared by
      all attempts and closed once at the end. */
  function FetchUsersWithRetry<R>(conn: Conn, outcome: nat -> Result<R, PyError>,
                                  connectError: Option<PyError>, closeError: Option<PyError>): Run<R>
  {
    WithDbConnection(conn, (c: Conn) => RetryOnFailure(3, 1, c, outcome), connectError, closeError)
  }

  /** Retrying happens inside the one connection: a failed connection is
      never retried, and otherwise every attempt and sleep lies between the
      opening and the single closing. */
  lemma FetchUsersSharesConnection<R>(conn: Conn, outcome: nat -> Result<R, PyError>,
                                      connectError: Option<PyError>, closeError: Option<PyError>)
    ensures connectError.Some? ==> FetchUsersWithRetry(conn, outcome, connectError, closeError).trace == []
    ensures var t := FetchUsersWithRetry(conn, outcome, connectError, closeError).trace;
      connectError.None? ==>
      && t[0] == Opened(conn) && t[|t| - 1] == Closed(conn)
      && (forall i :: 0 <= i < |t| ==> (t[i].Closed? <==> i == |t| - 1))
      && (forall i :: 0 < i < |t| - 1 ==> t[i] == Called(conn) || t[i] == Slept(1))
      && |t| <= 7
  {
    if connectError.None? {
      var func := (c: Conn) => RetryOnFailure(3, 1, c, outcome);
      RetryBounded(3, 1, conn, outcome);
      var inner := func(conn).trace;
      assert NoOpenClose(inner);
      ClosedOnce(conn, func, connectError, closeError);
      var t := FetchUsersWithRetry(conn, outcome, connectError, closeError).trace;
      forall i | 0 < i < |t| - 1
        ensures t[i] == Called(conn) || t[i] == Slept(1)
      {
        assert t[i] == t[1..|t| - 1][i - 1];
      }
    }
  }
}

=== FILE: github_client.dfy ===
/** `client.py`: `GithubOrgClient`, whose `org` property is memoized, whose
    repositories URL is read from the organisation payload, and whose
    `has_license` is a total predicate. HTTP is the parameter `getJson`:
    the payload (or the exception) `get_json(url)` would produce. */
module GithubClient {
  import opened Wrappers
  import opened PyValues
  import Seqs
  import Utils

  /** `ORG_URL` up to its `{org}` placeholder, which ends the template. */
  const OrgUrlPrefix: string := "https://api.github.com/orgs/"

  /** `ORG_URL.format(org=orgName)`. */
  function OrgUrl(orgName: string): (url: string)
    ensures |url| == |OrgUrlPrefix| + |orgName|
    ensures url[..|OrgUrlPrefix|] == OrgUrlPrefix
  {
    OrgUrlPrefix + orgName
  }

  /** The organisation name an organisation URL was built from. */
  function OrgNameOf(url: string): Option<string>
  {
    if |url| >= |OrgUrlPrefix| && url[..|OrgUrlPrefix|] == OrgUrlPrefix
    then Some(url[|OrgUrlPrefix|..])
    else None
  }

  /** The organisation URL determines the organisation: distinct names give
      distinct URLs. The unit test's `"google"` case is included. */
  lemma OrgUrlRoundTrip(orgName: string)
    ensures OrgNameOf(OrgUrl(orgName)) == Some(orgName)
    ensures OrgUrl("google") == "https://api.github.com/orgs/google"
  {
    assert OrgUrl(orgName)[|OrgUrlPrefix|..] == orgName;
  }

  /** A client: the organisation name and the instance attributes in which
      `memoize` keeps the `org` payload. */
  datatype Client = Client(orgName: string, attrs: map<string, Json>)

  function NewClient(orgName: string): Client
  {
    Client(orgName, map[])
  }

  /** The outcome of a client operation: its value or exception, the
      client afterwards, and the URLs passed to `get_json`, in order. */
  datatype Step<T> = Step(value: Result<T, PyError>, client: Client, requested: seq<string>)

  /** Reading the memoized `org` property. */
  function Org(c: Client, getJson: string -> Result<Json, PyError>): (r: Step<Json>)
    ensures r.client.orgName == c.orgName
    ensures Utils.AttrName("org") !in c.attrs ==>
      r.requested == [OrgUrl(c.orgName)] && r.value == getJson(OrgUrl(c.orgName))
    ensures Utils.AttrName("org") in c.attrs ==>
      r.requested == [] && r.value == Ok(c.attrs[Utils.AttrName("org")]) && r.client == c
  {
    var m := Utils.Memoize(c.attrs, "org", getJson(OrgUrl(c.orgName)));
    Step(m.value, Client(c.orgName, m.attrs), if m.calls == 1 then [OrgUrl(c.orgName)] else [])
  }

  /** The first read of `org` issues one request for the organisation URL;
      a second read issues none and returns the same payload, whatever
      `get_json` would now return. */
  lemma OrgFetchedOnce(orgName: string, getJson: string -> Result<Json, PyError>,
                       getJsonLater: string -> Result<Json, PyError>)
    requires getJson(OrgUrl(orgName)).Ok?
    ensures var first := Org(NewClient(orgName), getJson);
      var second := Org(first.client, getJsonLater);
      first.requested == [OrgUrl(orgName)]
      && second.requested == []
      && second.value == first.value == getJson(OrgUrl(orgName))
  {
  }

  /** The `_public_repos_url` property: `org["repos_url"]`. */
  function PublicReposUrl(c: Client, getJson: string -> Result<Json, PyError>): (r: Step<Json>)
    ensures Org(c, getJson).value.Ok? ==>
      r.value == Subscript(Org(c, getJson).value.value, "repos_url")
    ensures Org(c, getJson).value.Err? ==> r.value == Org(c, getJson).value
    ensures r.requested == Org(c, getJson).requested
  {
    var o := Org(c, getJson);
    match o.value
    case Err(e) => Step(Err(e), o.client, o.requested)
    case Ok(payload) => Step(Subscript(payload, "repos_url"), o.client, o.requested)
  }

  /** The licence of `repo` exists, is a dict, and its `"key"` equals
      `licenseKey`: the intended meaning of `has_license`. */
  predicate LicenseKeyIs(repo: Json, licenseKey: string)
  {
    && repo.JMap?
    && "license" in repo.fields
    && repo.fields["license"].JMap?
    && "key" in repo.fields["license"].fields
    && repo.fields["license"].fields["key"] == JStr(licenseKey)
  }

  /** A repository as the GitHub API returns it: a dict with a `"name"`,
      whose `"license"`, when present, is `null` or a dict. */
  predicate WellFormedRepo(repo: Json)
  {
    && repo.JMap?
    && "name" in repo.fields
    && ("license" in repo.fields ==>
          repo.fields["license"].JNull? || repo.fields["license"].JMap?)
  }

  /** `has_license(repo, license_key)`, evaluated with Python's `in`,
      `is None` and subscript semantics on whatever `repo` holds. */
  function HasLicense(repo: Json, licenseKey: Option<string>): (r: Result<bool, PyError>)
    ensures licenseKey.None? ==> r == Ok(false)
    ensures licenseKey.Some? && repo.JMap? && "license" !in repo.fields ==> r == Ok(false)
    ensures licenseKey.Some? && repo.JMap? && "license" in repo.fields && repo.fields["license"].JNull?
            ==> r == Ok(false)
    ensures licenseKey.Some? ==> (r == Ok(true) <==> LicenseKeyIs(repo, licenseKey.value))
  {
    match licenseKey
    case None => Ok(false)
    case Some(key) =>
      match Contains("license", repo)
      case Err(e) => Err(e)
      case Ok(hasEntry) =>
        if !hasEntry then Ok(false)
        else
          match Subscript(repo, "license")
          case Err(e) => Err(e)
          case Ok(lic) =>
            if lic.JNull? then Ok(false)
            else
              match Contains("key", lic)
              case Err(e) => Err(e)
              case Ok(hasKey) =>
                if !hasKey then Ok(false)
                else
                  match Subscript(lic, "key")
                  case Err(e) => Err(e)
                  case Ok(k) => Ok(k == JStr(key))
  }

  /** On API-shaped repositories `has_license` never raises and holds
      exactly when the licence key matches. */
  lemma HasLicenseIff(repo: Json, licenseKey: string)
    requires WellFormedRepo(repo)
    ensures HasLicense(repo, Some(licenseKey)) == Ok(LicenseKeyIs(repo, licenseKey))
  {
  }

  /** `repo["name"]` of a repository that has one. */
  function Name(repo: Json): Json
  {
    if repo.JMap? && "name" in repo.fields then repo.fields["name"] else JNull
  }

  /** The names of the repositories, in order. */
  function NamesOf(repos: seq<Json>): (names: seq<Json>)
    ensures |names| == |repos|
    ensures forall i :: 0 <= i < |repos| ==> names[i] == Name(repos[i])
  {
    seq(|repos|, i requires 0 <= i < |repos| => Name(repos[i]))
  }

  lemma NamesOfCons(x: Json, ys: seq<Json>)
    ensures NamesOf([x] + ys) == [Name(x)] + NamesOf(ys)
  {
    assert forall i :: 0 <= i < |ys| ==> ([x] + ys)[i + 1] == ys[i];
  }

  /** `[repo["name"] for repo in repos if check(repo)]`, where `check`
      may raise: for each repository in turn, the condition first and then
      the name. */
  function SelectNames(repos: seq<Json>, check: Json -> Result<bool, PyError>): (r: Result<seq<Json>, PyError>)
    ensures r.Ok? ==> |r.value| <= |repos|
  {
    if |repos| == 0 then Ok([])
    else
      match check(repos[0])
      case Err(e) => Err(e)
      case Ok(keep) =>
        if !keep then SelectNames(repos[1..], check)
        else
          match Subscript(repos[0], "name")
          case Err(e) => Err(e)
          case Ok(name) =>
            match SelectNames(repos[1..], check)
            case Err(e) => Err(e)
            case Ok(rest) => Ok([name] + rest)
  }

  /** When `check` decides the predicate `p` without raising on every
      repository, the comprehension yields the names of the repositories
      satisfying `p`, in their original order. */
  lemma {:induction false} SelectNamesIsFilter(repos: seq<Json>, check: Json -> Result<bool, PyError>,
                                               p: Json -> bool)
    requires forall i :: 0 <= i < |repos| ==> repos[i].JMap? && "name" in repos[i].fields
    requires forall i :: 0 <= i < |repos| ==> check(repos[i]) == Ok(p(repos[i]))
    ensures SelectNames(repos, check) == Ok(NamesOf(Seqs.Filter(repos, p)))
  {
    if |repos| > 0 {
      var head, rest := repos[0], repos[1..];
      assert check(head) == Ok(p(head));
      SelectNamesIsFilter(rest, check, p);
      if p(head) {
        assert Subscript(head, "name") == Ok(Name(head));
        assert Seqs.Filter(repos, p) == [head] + Seqs.Filter(rest, p);
        NamesOfCons(head, Seqs.Filter(rest, p));
      } else {
        assert Seqs.Filter(repos, p) == Seqs.Filter(rest, p);
      }
    }
  }

  /** The condition of `public_repos`' comprehension: none without a
      licence argument, `has_license(repo, license)` with one. */
  function RepoCheck(license: Option<string>): Json -> Result<bool, PyError>
  {
    match license
    case None => repo => Ok(true)
    case Some(key) => repo => HasLicense(repo, Some(key))
  }

  /** The repositories carrying licence key `key`, as a predicate. */
  function Licensed(key: string): Json -> bool
  {
    repo => LicenseKeyIs(repo, key)
  }

  /** `public_repos` with the comprehension's condition `check`: one
      request for the repositories URL (after the `org` read, which may
      itself request), then the comprehension over the payload. An error
      from reading the URL or from `get_json` comes back unchanged; a
      payload that is not a list is reported as `TypeError`. Both copies of
      the client share this definition and differ only in `check`. */
  function PublicReposWith(c: Client, getJson: string -> Result<Json, PyError>,
                           check: Json -> Result<bool, PyError>): (r: Step<seq<Json>>)
    ensures var u := PublicReposUrl(c, getJson);
      && (u.value.Err? ==> r.value == Err(u.value.error) && r.requested == u.requested)
      && (u.value.Ok? && !u.value.value.JStr? ==> r.value.Err? && r.requested == u.requested)
      && (u.value.Ok? && u.value.value.JStr? ==>
            var url := u.value.value.s;
            && r.requested == u.requested + [url]
            && (getJson(url).Err? ==> r.value == Err(getJson(url).error))
            && (getJson(url).Ok? && !getJson(url).value.JList? ==> r.value.Err? && r.value.error.TypeError?))
  {
    var u := PublicReposUrl(c, getJson);
    match u.value
    case Err(e) => Step(Err(e), u.client, u.requested)
    case Ok(urlValue) =>
      if !urlValue.JStr? then Step(Err(TypeError("url must be a string")), u.client, u.requested)
      else
        var requested := u.requested + [urlValue.s];
        match getJson(urlValue.s)
        case Err(e) => Step(Err(e), u.client, requested)
        case Ok(payload) =>
          if !payload.JList? then Step(Err(TypeError("repository payload is not a list")), u.client, requested)
          else Step(SelectNames(payload.items, check), u.client, requested)
  }

  /** `public_repos(license)` of `client.py`. */
  function PublicRepos(c: Client, getJson: string -> Result<Json, PyError>, license: Option<string>)
    : (r: Step<seq<Json>>)
  {
    PublicReposWith(c, getJson, RepoCheck(license))
  }

  /** Without a licence every repository name is returned in order; with
      one, exactly the names of the repositories carrying that licence key,
      in order. */
  lemma PublicReposNames(repos: seq<Json>, license: Option<string>)
    requires forall i :: 0 <= i < |repos| ==> WellFormedRepo(repos[i])
    ensures license.None? ==> SelectNames(repos, RepoCheck(license)) == Ok(NamesOf(repos))
    ensures license.Some? ==>
      SelectNames(repos, RepoCheck(license)) == Ok(NamesOf(Seqs.Filter(repos, Licensed(license.value))))
  {
    match license
    case None =>
      var all := (repo: Json) => true;
      SelectNamesIsFilter(repos, RepoCheck(license), all);
      Seqs.FilterAll(repos, all);
    case Some(key) =>
      forall i | 0 <= i < |repos|
        ensures RepoCheck(license)(repos[i]) == Ok(Licensed(key)(repos[i]))
      {
        HasLicenseIff(repos[i], key);
      }
      SelectNamesIsFilter(repos, RepoCheck(license), Licensed(key));
  }

  /** What `public_repos` returns when the repositories URL answers with
      a list of well-formed repositories: every name without a licence
      argument, and with one exactly the names of the repositories carrying
      that licence key, in order. */
  lemma PublicReposResult(c: Client, getJson: string -> Result<Json, PyError>,
                          license: Option<string>, repos: seq<Json>)
    requires PublicReposUrl(c, getJson).value.Ok? && PublicReposUrl(c, getJson).value.value.JStr?
    requires getJson(PublicReposUrl(c, getJson).value.value.s) == Ok(JList(repos))
    requires forall i :: 0 <= i < |repos| ==> WellFormedRepo(repos[i])
    ensures license.None? ==> PublicRepos(c, getJson, license).value == Ok(NamesOf(repos))
    ensures license.Some? ==>
      PublicRepos(c, getJson, license).value == Ok(NamesOf(Seqs.Filter(repos, Licensed(license.value))))
  {
    PublicReposNames(repos, license);
  }

  /** The organisation payload of the integration fixture (the fields the
      client reads). */
  const FixtureOrg: Json := JMap(map[
    "login" := JStr("google"),
    "repos_url" := JStr("https://api.github.com/orgs/google/repos")])

  const ApacheLicense: Json := JMap(map["key" := JStr("apache-2.0"), "name" := JStr("Apache License 2.0")])

  /** The repositories payload of the integration fixture: two without a
      licence and one under Apache-2.0. */
  const FixtureRepos: seq<Json> := [
    JMap(map["name" := JStr("episodes.dart")]),
    JMap(map["name" := JStr("kratu")]),
    JMap(map["name" := JStr("build-debian-cloud"), "license" := ApacheLicense])]

  /** `get_json` as the integration test patches it. */
  function FixtureGetJson(url: string): Result<Json, PyError>
  {
    if url == OrgUrl("google") then Ok(FixtureOrg)
    else if url == "https://api.github.com/orgs/google/repos" then Ok(JList(FixtureRepos))
    else Err(ValueError("unexpected url"))
  }

  /** Against the fixture, a fresh client requests the organisation and then
      its repositories URL, and runs the comprehension over the fixture
      repositories. */
  lemma FixtureRequests(license: Option<string>)
    ensures PublicRepos(NewClient("google"), FixtureGetJson, license).requested
      == [OrgUrl("google"), "https://api.github.com/orgs/google/repos"]
    ensures PublicRepos(NewClient("google"), FixtureGetJson, license).value
      == SelectNames(FixtureRepos, RepoCheck(license))
  {
    var c := NewClient("google");
    assert Org(c, FixtureGetJson).value == Ok(FixtureOrg);
    assert PublicReposUrl(c, FixtureGetJson).value == Ok(JStr("https://api.github.com/orgs/google/repos"));
  }

  /** Every fixture repository has the shape the API promises. */
  lemma FixtureWellFormed()
    ensures forall i :: 0 <= i < |FixtureRepos| ==> WellFormedRepo(FixtureRepos[i])
  {
    assert WellFormedRepo(FixtureRepos[0]);
    assert WellFormedRepo(FixtureRepos[1]);
    assert WellFormedRepo(FixtureRepos[2]);
  }

  /** Of the fixture repositories only the third is under `apache-2.0`. */
  lemma FixtureApacheFilter()
    ensures Seqs.Filter(FixtureRepos, Licensed("apache-2.0")) == [FixtureRepos[2]]
  {
    var apache := Licensed("apache-2.0");
    var r0, r1, r2 := FixtureRepos[0], FixtureRepos[1], FixtureRepos[2];
    assert !apache(r0) && !apache(r1) && apache(r2);
    assert FixtureRepos[1..] == [r1, r2];
    assert FixtureRepos[2..] == [r2];
    assert Seqs.Filter([r2], apache) == [r2];
    assert Seqs.Filter([r1, r2], apache) == [r2];
  }

  /** The comprehension over the fixture, without and with a licence. */
  lemma FixtureNames()
    ensures SelectNames(FixtureRepos, RepoCheck(None))
      == Ok([JStr("episodes.dart"), JStr("kratu"), JStr("build-debian-cloud")])
    ensures SelectNames(FixtureRepos, RepoCheck(Some("apache-2.0"))) == Ok([JStr("build-debian-cloud")])
  {
    FixtureWellFormed();
    PublicReposNames(FixtureRepos, None);
    PublicReposNames(FixtureRepos, Some("apache-2.0"));
    var names := NamesOf(FixtureRepos);
    assert names[0] == JStr("episodes.dart");
    assert names[1] == JStr("kratu");
    assert names[2] == JStr("build-debian-cloud");
    assert names == [JStr("episodes.dart"), JStr("kratu"), JStr("build-debian-cloud")];
    FixtureApacheFilter();
    assert NamesOf([FixtureRepos[2]]) == [Name(FixtureRepos[2])];
  }

  /** The integration fixture without a licence: all three names, in
      order. */
  lemma FixturePublicReposAll()
    ensures PublicRepos(NewClient("google"), FixtureGetJson, None).value
      == Ok([JStr("episodes.dart"), JStr("kratu"), JStr("build-debian-cloud")])
  {
    FixtureRequests(None);
    FixtureNames();
  }

  /** The integration fixture under `apache-2.0`: only
      `build-debian-cloud`. */
  lemma FixturePublicReposApache()
    ensures PublicRepos(NewClient("google"), FixtureGetJson, Some("apache-2.0")).value
      == Ok([JStr("build-debian-cloud")])
  {
    FixtureRequests(Some("apache-2.0"));
    FixtureNames();
  }
}

=== FILE: github_client_strict.dfy ===
/** `Client.py`: the second copy of `GithubOrgClient`. Its `org` and
    `_public_repos_url` are the same as in `client.py` (and are reused from
    that module); its `has_license` is partial, guarded by `assert`s, so
    licence filtering fails instead of skipping a repository without a
    licence. */
module GithubClientStrict {
  import opened Wrappers
  import opened PyValues
  import GithubClient

  /** `has_license(repo, license_key)` with its three assertions. */
  function HasLicense(repo: Json, licenseKey: Option<string>): (r: Result<bool, PyError>)
    ensures licenseKey.None? ==> r == Err(AssertionError("license_key cannot be None"))
    ensures licenseKey.Some? && repo.JMap? && "license" !in repo.fields ==>
      r == Err(AssertionError("repo must have a license key"))
    ensures licenseKey.Some? && repo.JMap? && "license" in repo.fields
            && repo.fields["license"].JMap? && "key" !in repo.fields["license"].fields
            ==> r == Err(AssertionError("license must have a key"))
    ensures licenseKey.Some? && repo.JMap? && "license" in repo.fields && repo.fields["license"].JNull?
            ==> r.Err? && r.error.TypeError?
    ensures r.Ok? ==> licenseKey.Some? && r.value == GithubClient.LicenseKeyIs(repo, licenseKey.value)
  {
    match licenseKey
    case None => Err(AssertionError("license_key cannot be None"))
    case Some(key) =>
      match Contains("license", repo)
      case Err(e) => Err(e)
      case Ok(hasEntry) =>
        if !hasEntry then Err(AssertionError("repo must have a license key"))
        else
          match Subscript(repo, "license")
          case Err(e) => Err(e)
          case Ok(lic) =>
            match Contains("key", lic)
            case Err(e) => Err(e)
            case Ok(hasKey) =>
              if !hasKey then Err(AssertionError("license must have a key"))
              else
                match Subscript(lic, "key")
                case Err(e) => Err(e)
                case Ok(k) => Ok(k == JStr(key))
  }

  /** Where the assertions hold, the strict and the total `has_license`
      agree; where a repository has no licence entry, the strict one raises
      while the total one answers `False`. */
  lemma HasLicenseAgreement(repo: Json, licenseKey: string)
    requires repo.JMap?
    ensures "license" in repo.fields && repo.fields["license"].JMap? && "key" in repo.fields["license"].fields
      ==> HasLicense(repo, Some(licenseKey)) == GithubClient.HasLicense(repo, Some(licenseKey))
    ensures "license" !in repo.fields ==>
      HasLicense(repo, Some(licenseKey)).Err? && GithubClient.HasLicense(repo, Some(licenseKey)) == Ok(false)
  {
  }

  /** The condition of the comprehension: the strict `has_license` when a
      licence is given, none otherwise (as in `client.py`). */
  function RepoCheck(license: Option<string>): Json -> Result<bool, PyError>
  {
    match license
    case None => GithubClient.RepoCheck(None)
    case Some(key) => repo => HasLicense(repo, Some(key))
  }

  /** `public_repos(license)` of `Client.py`: the same requests as in
      `client.py`, with the strict condition. */
  function PublicRepos(c: GithubClient.Client, getJson: string -> Result<Json, PyError>, license: Option<string>)
    : (r: GithubClient.Step<seq<Json>>)
    ensures license.None? ==> r == GithubClient.PublicRepos(c, getJson, None)
    ensures r.requested == GithubClient.PublicRepos(c, getJson, license).requested
  {
    GithubClient.PublicReposWith(c, getJson, RepoCheck(license))
  }

  /** A repository without a licence entry makes licence filtering raise,
      whatever the repositories after it hold. */
  lemma UnlicensedRepoFails(repos: seq<Json>, key: string)
    requires |repos| > 0 && repos[0].JMap? && "license" !in repos[0].fields
    ensures GithubClient.SelectNames(repos, RepoCheck(Some(key)))
      == Err(AssertionError("repo must have a license key"))
  {
  }

  /** A repository the strict `has_license` and the name lookup accept: a
      dict with a name and a licence dict that has a key. */
  predicate Licensable(repo: Json)
  {
    && repo.JMap? && "name" in repo.fields && "license" in repo.fields
    && repo.fields["license"].JMap? && "key" in repo.fields["license"].fields
  }

  /** A repository without a licence entry anywhere in the list makes
      licence filtering raise; when every repository before it is
      licensable, the exception is that repository's `AssertionError`. */
  lemma {:induction false} UnlicensedRepoAnywhereFails(repos: seq<Json>, key: string, j: nat)
    requires j < |repos| && repos[j].JMap? && "license" !in repos[j].fields
    ensures GithubClient.SelectNames(repos, RepoCheck(Some(key))).Err?
    ensures (forall i :: 0 <= i < j ==> Licensable(repos[i])) ==>
      GithubClient.SelectNames(repos, RepoCheck(Some(key))) == Err(AssertionError("repo must have a license key"))
  {
    if j == 0 {
      UnlicensedRepoFails(repos, key);
    } else {
      assert repos[1..][j - 1] == repos[j];
      UnlicensedRepoAnywhereFails(repos[1..], key, j - 1);
      if forall i :: 0 <= i < j ==> Licensable(repos[i]) {
        assert Licensable(repos[0]);
        forall i | 0 <= i < j - 1
          ensures Licensable(repos[1..][i])
        {
          assert repos[1..][i] == repos[i + 1];
        }
        var lic := repos[0].fields["license"];
        assert HasLicense(repos[0], Some(key)) == Ok(lic.fields["key"] == JStr(key));
        assert Subscript(repos[0], "name") == Ok(repos[0].fields["name"]);
      }
    }
  }

  /** On the integration fixture the strict client lists all names without
      a licence, but filtering by `apache-2.0` fails on `episodes.dart`,
      the first repository, which has no licence. */
  lemma FixtureStrict()
    ensures PublicRepos(GithubClient.NewClient("google"), GithubClient.FixtureGetJson, None).value
      == Ok([JStr("episodes.dart"), JStr("kratu"), JStr("build-debian-cloud")])
    ensures PublicRepos(GithubClient.NewClient("google"), GithubClient.FixtureGetJson, Some("apache-2.0")).value
      == Err(AssertionError("repo must have a license key"))
  {
    GithubClient.FixturePublicReposAll();
    var c := GithubClient.NewClient("google");
    assert GithubClient.Org(c, GithubClient.FixtureGetJson).value == Ok(GithubClient.FixtureOrg);
    UnlicensedRepoFails(GithubClient.FixtureRepos, "apache-2.0");
  }
}

=== FILE: log_queries.dfy ===
/** The two `log_queries` decorators. Each picks the SQL query out of the
    call's positional and keyword arguments, logs it when it is truthy, and
    returns what the wrapped function returns, called with the same
    arguments. They differ in precedence: `python-decorators-0x010` prefers
    a string first positional argument, `python-decorators-0x01` prefers the
    `query` keyword. Python's `None` is `JNull`. */
module LogQueries {
  import opened Wrappers
  import opened PyValues

  /** The query of `python-decorators-0x010/0-log_queries.py`. */
  function PositionalFirstQuery(args: seq<Json>, kwargs: map<string, Json>): (q: Json)
  {
    if |args| > 0 && args[0].JStr? then args[0]
    else if "query" in kwargs then kwargs["query"]
    else JNull
  }

  /** The query of `python-decorators-0x01/0-log_queries.py`:
      `kwargs.get('query')`, replaced by a string first positional argument
      (or `None`) when it is falsy and there are positional arguments. */
  function KeywordFirstQuery(args: seq<Json>, kwargs: map<string, Json>): (q: Json)
    ensures "query" in kwargs && Truthy(kwargs["query"]) ==> q == kwargs["query"]
  {
    var kw := if "query" in kwargs then kwargs["query"] else JNull;
    if !Truthy(kw) && |args| > 0 then
      if args[0].JStr? then args[0] else JNull
    else kw
  }

  /** A decorated call: the wrapped function's result or exception, and the
      query logged before the call, if any. */
  datatype Logged<R> = Logged(result: Result<R, PyError>, logged: Option<Json>)

  /** `wrapper(*args, **kwargs)`; `func` is the wrapped function's behaviour
      on the arguments it receives. */
  function LogQueries<R>(extract: (seq<Json>, map<string, Json>) -> Json,
                         func: (seq<Json>, map<string, Json>) -> Result<R, PyError>,
                         args: seq<Json>, kwargs: map<string, Json>): (r: Logged<R>)
    ensures r.result == func(args, kwargs)
    ensures r.logged.Some? <==> Truthy(extract(args, kwargs))
    ensures r.logged.Some? ==> r.logged.value == extract(args, kwargs)
  {
    var query := extract(args, kwargs);
    Logged(func(args, kwargs), if Truthy(query) then Some(query) else None)
  }

  /** The keyword-first extraction, stated as the cases it distinguishes: a
      truthy `query` keyword wins; otherwise a string first positional
      argument; otherwise whatever falsy value the keyword held, or `None`
      once a non-string positional argument was looked at. */
  lemma KeywordFirstCases(args: seq<Json>, kwargs: map<string, Json>)
    ensures var q := KeywordFirstQuery(args, kwargs);
      && (Truthy(q) <==>
            ("query" in kwargs && Truthy(kwargs["query"])) || (|args| > 0 && args[0].JStr? && |args[0].s| > 0))
      && (!("query" in kwargs && Truthy(kwargs["query"])) && |args| > 0 && args[0].JStr? ==> q == args[0])
  {
  }

  /** The positional-first extraction, stated the same way: a string first
      positional argument wins, even an empty one; the keyword is consulted
      only otherwise. */
  lemma PositionalFirstCases(args: seq<Json>, kwargs: map<string, Json>)
    ensures var q := PositionalFirstQuery(args, kwargs);
      && (Truthy(q) <==>
            (|args| > 0 && args[0].JStr? && |args[0].s| > 0)
            || (!(|args| > 0 && args[0].JStr?) && "query" in kwargs && Truthy(kwargs["query"])))
      && (|args| > 0 && args[0].JStr? ==> q == args[0])
  {
  }

  /** The two decorators agree when the query comes from one place only,
      and differ when both places hold different queries: positional `"A"`
      with keyword `query="B"` logs `"A"` under one and `"B"` under the
      other. */
  lemma PrecedenceDiffers()
    ensures PositionalFirstQuery([JStr("A")], map["query" := JStr("B")]) == JStr("A")
    ensures KeywordFirstQuery([JStr("A")], map["query" := JStr("B")]) == JStr("B")
  {
  }

  /** The queries the two decorators log (a truthy one, or none) differ
      exactly when a string comes first among the positional arguments and
      the `query` keyword holds a different truthy value. */
  lemma LoggedQueriesDiffer(args: seq<Json>, kwargs: map<string, Json>)
    ensures var p := PositionalFirstQuery(args, kwargs);
      var k := KeywordFirstQuery(args, kwargs);
      (if Truthy(p) then Some(p) else None) != (if Truthy(k) then Some(k) else None)
      <==> |args| > 0 && args[0].JStr? && "query" in kwargs && Truthy(kwargs["query"]) && kwargs["query"] != args[0]
  {
  }

  lemma SingleSourceAgrees(args: seq<Json>, kwargs: map<string, Json>)
    requires "query" !in kwargs || |args| == 0
    requires |args| > 0 ==> args[0].JStr?
    ensures PositionalFirstQuery(args, kwargs) == KeywordFirstQuery(args, kwargs)
  {
  }

  /** `fetch_all_users(query="SELECT * FROM users")` logs its query under
      both decorators. */
  lemma FetchAllUsersLogged<R>(func: (seq<Json>, map<string, Json>) -> Result<R, PyError>)
    ensures var kwargs := map["query" := JStr("SELECT * FROM users")];
      && LogQueries(PositionalFirstQuery, func, [], kwargs).logged == Some(JStr("SELECT * FROM users"))
      && LogQueries(KeywordFirstQuery, func, [], kwargs).logged == Some(JStr("SELECT * FROM users"))
  {
  }
}

=== FILE: messaging_signals.dfy ===
/** The signal handlers of `Django-signals_orm-0x04/messaging/signals.py`,
    wired into the operations that fire them: saving a message runs
    `log_message_edit` before the write and `create_message_notification`
    after it; deleting a user cascades along the foreign keys and then runs
    `cleanup_user_data`. */
module MessagingSignals {
  import opened Wrappers
  import opened MessagingStore
  import Seqs

  /** A message instance being saved: its primary key (`None` before the
      first save) and its fields. */
  datatype Instance = Instance(pk: Option<MessageKey>, msg: Msg)

  /** `if instance.pk:` — an unsaved instance and the key `0` are falsy. */
  predicate PkTruthy(pk: Option<MessageKey>)
  {
    pk.Some? && pk.value != 0
  }

  const NotificationPrefix := "You have a new message from "

  /** `create_message_notification` after message `key` was saved; `created`
      tells an insert from an update. */
  function CreateMessageNotification(store: Store, key: MessageKey, created: bool): (r: Store)
    requires key in store.messages && store.messages[key].sender in store.usernames
    ensures r.usernames == store.usernames && r.messages == store.messages && r.history == store.history
    ensures !created ==> r.notifications == store.notifications
    ensures created ==>
      && |r.notifications| == |store.notifications| + 1
      && r.notifications[..|store.notifications|] == store.notifications
      && r.notifications[|store.notifications|].user == store.messages[key].receiver
      && r.notifications[|store.notifications|].message == key
      && r.notifications[|store.notifications|].content == NotificationPrefix + store.usernames[store.messages[key].sender]
  {
    if created then
      var m := store.messages[key];
      store.(notifications := store.notifications + [Notification(m.receiver, key, NotificationPrefix + store.usernames[m.sender])])
    else store
  }

  /** The store and the instance after `pre_save`. */
  datatype PreSave = PreSave(store: Store, instance: Instance)

  /** The message being edited: a truthy key that is stored. */
  predicate IsEdit(store: Store, instance: Instance)
  {
    PkTruthy(instance.pk) && instance.pk.value in store.messages
  }

  /** `log_message_edit`: for a stored message whose content changes, the
      old content goes to the history and the instance is marked edited. A
      falsy or unknown key changes nothing. */
  function LogMessageEdit(store: Store, instance: Instance): (r: PreSave)
    ensures r.store.usernames == store.usernames && r.store.messages == store.messages
    ensures r.store.notifications == store.notifications
    ensures r.instance.pk == instance.pk
    ensures var changed := IsEdit(store, instance) && store.messages[instance.pk.value].content != instance.msg.content;
      && (changed ==>
            && r.store.history == store.history + [History(instance.pk.value, store.messages[instance.pk.value].content)]
            && r.instance.msg == instance.msg.(edited := true))
      && (!changed ==> r.store.history == store.history && r.instance == instance)
  {
    if !PkTruthy(instance.pk) then PreSave(store, instance)
    else if instance.pk.value !in store.messages then PreSave(store, instance)
    else
      var stored := store.messages[instance.pk.value];
      if stored.content != instance.msg.content then
        PreSave(store.(history := store.history + [History(instance.pk.value, stored.content)]),
                instance.(msg := instance.msg.(edited := true)))
      else PreSave(store, instance)
  }

  /** The store after `instance.save()` and the key of the saved message.
      A key that is stored is updated; otherwise the message is inserted,
      under its own key or, when it has none, under `freshKey`. */
  function SaveMessage(store: Store, instance: Instance, freshKey: MessageKey): (r: (Store, MessageKey))
    requires instance.msg.sender in store.usernames && instance.msg.receiver in store.usernames
    requires freshKey !in store.messages
    ensures r.1 in r.0.messages
  {
    var pre := LogMessageEdit(store, instance);
    var inst := pre.instance;
    var created := !(inst.pk.Some? && inst.pk.value in store.messages);
    var key := if inst.pk.Some? then inst.pk.value else freshKey;
    var written := pre.store.(messages := pre.store.messages[key := inst.msg]);
    (CreateMessageNotification(written, key, created), key)
  }

  /** Number of notifications addressed to `user`. */
  function NotificationsFor(ns: seq<Notification>, user: UserKey): nat
  {
    |Seqs.Filter(ns, (n: Notification) => n.user == user)|
  }

  /** Saving a new message adds exactly one notification, for its receiver,
      and no history; saving a stored message adds no notification, adds
      one history entry holding the old content when the content changes
      (and the key is truthy), and marks it edited. Saving keeps the store
      consistent. */
  lemma SaveMessageEffects(store: Store, instance: Instance, freshKey: MessageKey)
    requires Consistent(store)
    requires instance.msg.sender in store.usernames && instance.msg.receiver in store.usernames
    requires freshKey !in store.messages
    ensures var (s, key) := SaveMessage(store, instance, freshKey);
      && Consistent(s)
      && s.usernames == store.usernames
      && s.messages.Keys == store.messages.Keys + {key}
      && (forall k :: k in store.messages && k != key ==> s.messages[k] == store.messages[k])
      && s.messages[key].content == instance.msg.content
      && s.messages[key].sender == instance.msg.sender && s.messages[key].receiver == instance.msg.receiver
      && (key !in store.messages ==>
            && s.history == store.history
            && |s.notifications| == |store.notifications| + 1
            && s.notifications[..|store.notifications|] == store.notifications
            && s.notifications[|store.notifications|] ==
                 Notification(instance.msg.receiver, key, NotificationPrefix + store.usernames[instance.msg.sender]))
      && (key in store.messages ==>
            && s.notifications == store.notifications
            && var changed := PkTruthy(instance.pk) && store.messages[key].content != instance.msg.content;
            && (changed ==> s.history == store.history + [History(key, store.messages[key].content)] && s.messages[key].edited)
            && (!changed ==> s.history == store.history && s.messages[key] == instance.msg))
  {
    var pre := LogMessageEdit(store, instance);
    var inst := pre.instance;
    var key := if inst.pk.Some? then inst.pk.value else freshKey;
    var written := pre.store.(messages := pre.store.messages[key := inst.msg]);
    var s := SaveMessage(store, instance, freshKey).0;
    assert forall i :: 0 <= i < |pre.store.history| ==> pre.store.history[i].message in written.messages;
    assert forall i :: 0 <= i < |s.notifications| ==> s.notifications[i].message in s.messages by {
      forall i | 0 <= i < |s.notifications|
        ensures s.notifications[i].message in s.messages
      {
        if i < |store.notifications| {
          assert s.notifications[i] == store.notifications[i];
        }
      }
    }
  }

  /** `post_save` never notifies about an update, and a notification names
      the sender: saving one new message gives its receiver one more
      notification and nobody else any. */
  lemma NewMessageNotifiesReceiverOnly(store: Store, msg: Msg, freshKey: MessageKey, other: UserKey)
    requires msg.sender in store.usernames && msg.receiver in store.usernames
    requires freshKey !in store.messages
    requires other != msg.receiver
    ensures var s := SaveMessage(store, Instance(None, msg), freshKey).0;
      && NotificationsFor(s.notifications, msg.receiver) == NotificationsFor(store.notifications, msg.receiver) + 1
      && NotificationsFor(s.notifications, other) == NotificationsFor(store.notifications, other)
  {
    var s := SaveMessage(store, Instance(None, msg), freshKey).0;
    var n := Notification(msg.receiver, freshKey, NotificationPrefix + store.usernames[msg.sender]);
    assert s.notifications == store.notifications + [n];
    Seqs.FilterAppend(store.notifications, [n], (x: Notification) => x.user == msg.receiver);
    Seqs.FilterAppend(store.notifications, [n], (x: Notification) => x.user == other);
  }

  /** The messages that remain once user `u` is gone. */
  function RemainingMessages(store: Store, u: UserKey): (r: map<MessageKey, Msg>)
  {
    map k | k in store.messages && store.messages[k].sender != u && store.messages[k].receiver != u :: store.messages[k]
  }

  /** Deleting user `u`: the user's messages, sent or received, go (the
      foreign keys cascade and `cleanup_user_data` deletes them again), the
      user's notifications go, and the notifications and history of every
      deleted message go with it. */
  function DeleteUser(store: Store, u: UserKey): (r: Store)
  {
    var kept := RemainingMessages(store, u);
    Store(store.usernames - {u},
          kept,
          Seqs.Filter(store.notifications, (n: Notification) => n.user != u && n.message in kept),
          Seqs.Filter(store.history, (h: History) => h.message in kept))
  }

  /** After the deletion nothing refers to `u`, the store stays consistent,
      and everything not tied to `u` or to one of its messages is kept
      unchanged. */
  lemma DeleteUserCleansUp(store: Store, u: UserKey)
    requires Consistent(store)
    ensures var r := DeleteUser(store, u);
      && Consistent(r)
      && u !in r.usernames
      && (forall k :: k in r.messages ==> r.messages[k].sender != u && r.messages[k].receiver != u)
      && (forall i :: 0 <= i < |r.notifications| ==> r.notifications[i].user != u)
      && (forall k :: k in store.messages && store.messages[k].sender != u && store.messages[k].receiver != u ==>
            k in r.messages && r.messages[k] == store.messages[k])
      && (forall i :: (0 <= i < |store.notifications| && store.notifications[i].user != u
                        && store.notifications[i].message in r.messages) ==>
            store.notifications[i] in r.notifications)
      && (forall i :: 0 <= i < |store.history| && store.history[i].message in r.messages ==>
            store.history[i] in r.history)
  {
    var r := DeleteUser(store, u);
    forall i | 0 <= i < |r.notifications|
      ensures r.notifications[i].user in r.usernames
    {
      var n := r.notifications[i];
      assert n in store.notifications;
      var j :| 0 <= j < |store.notifications| && store.notifications[j] == n;
    }
  }

  /** Deleting a user twice is deleting once. */
  lemma DeleteUserIdempotent(store: Store, u: UserKey)
    ensures DeleteUser(DeleteUser(store, u), u) == DeleteUser(store, u)
  {
    var r := DeleteUser(store, u);
    assert RemainingMessages(r, u) == r.messages;
    Seqs.FilterAll(r.notifications, (n: Notification) => n.user != u && n.message in r.messages);
    Seqs.FilterAll(r.history, (h: History) => h.message in r.messages);
  }
}

=== FILE: messaging_store.dfy ===
/** The tables of `Django-signals_orm-0x04/messaging/models.py` as one
    store: users by key (only the username matters here), messages by
    primary key, notifications and edit history. A notification and a
    history entry refer to a message by its primary key. */
module MessagingStore {
  type UserKey = int
  type MessageKey = int

  datatype Msg = Msg(sender: UserKey, receiver: UserKey, content: string, edited: bool, read: bool)

  datatype Notification = Notification(user: UserKey, message: MessageKey, content: string)

  datatype History = History(message: MessageKey, oldContent: string)

  datatype Store = Store(
    usernames: map<UserKey, string>,
    messages: map<MessageKey, Msg>,
    notifications: seq<Notification>,
    history: seq<History>)

  /** What the foreign keys guarantee: every message's sender and receiver,
      every notification's user and message, and every history entry's
      message exist. */
  predicate Consistent(store: Store)
  {
    && (forall k :: k in store.messages ==>
          store.messages[k].sender in store.usernames && store.messages[k].receiver in store.usernames)
    && (forall i :: 0 <= i < |store.notifications| ==>
          store.notifications[i].user in store.usernames && store.notifications[i].message in store.messages)
    && (forall i :: 0 <= i < |store.history| ==> store.history[i].message in store.messages)
  }
}

=== FILE: pagination.dfy ===
/** `2-lazy_paginate.py`: `paginate_users` fetches one page with
    `LIMIT page_size OFFSET offset`; `lazy_paginate` starts at offset 0,
    yields each non-empty page and advances the offset by `page_size`,
    stopping at the first empty page. The table is the row sequence in the
    order the database returns it; rows are of any type `T`. */
module LazyPagination {
  import opened Wrappers
  import opened PyValues
  import Seqs

  function Min(a: int, b: int): int
  {
    if a <= b then a else b
  }

  /** `paginate_users(page_size, offset)`: the window of at most
      `pageSize` rows starting at row `offset`. A negative `LIMIT` or
      `OFFSET` is rejected by the database. */
  function PaginateUsers<T>(table: seq<T>, pageSize: int, offset: int): (r: Result<seq<T>, PyError>)
    ensures r.Err? <==> pageSize < 0 || offset < 0
    ensures r.Ok? ==> |r.value| <= pageSize
    ensures r.Ok? ==> forall i :: 0 <= i < |r.value| ==> offset + i < |table| && r.value[i] == table[offset + i]
    ensures r.Ok? ==> (|r.value| == 0 <==> pageSize == 0 || offset >= |table|)
    ensures r.Ok? && offset + pageSize <= |table| ==> |r.value| == pageSize
    ensures r.Ok? && offset + pageSize > |table| ==> offset + |r.value| == |table| || offset >= |table|
  {
    if pageSize < 0 || offset < 0 then Err(DatabaseError("LIMIT and OFFSET must not be negative"))
    else
      var lo := Min(offset, |table|);
      var hi := Min(offset + pageSize, |table|);
      Ok(table[lo..hi])
  }

  /** A run of the generator to exhaustion: the pages yielded, the offset
      of every fetch in order (the last fetch being the empty one that ends
      the stream), and the exception that ended it, if any. */
  datatype PageStream<T> = PageStream(pages: seq<seq<T>>, fetched: seq<int>, error: Option<PyError>)

  /** The generator resumed at `offset`. */
  function LazyPaginateFrom<T>(table: seq<T>, pageSize: int, offset: int): (r: PageStream<T>)
    requires offset >= 0
    decreases |table| - offset
    ensures |r.fetched| == |r.pages| + 1 && r.fetched[0] == offset
    ensures r.error.Some? <==> pageSize < 0
    ensures pageSize <= 0 || offset >= |table| ==> r.pages == []
  {
    match PaginateUsers(table, pageSize, offset)
    case Err(e) => PageStream([], [offset], Some(e))
    case Ok(page) =>
      if |page| == 0 then PageStream([], [offset], None)
      else
        var rest := LazyPaginateFrom(table, pageSize, offset + pageSize);
        PageStream([page] + rest.pages, [offset] + rest.fetched, rest.error)
  }

  /** `lazy_paginate(page_size)` run to exhaustion. */
  function LazyPaginateRun<T>(table: seq<T>, pageSize: int): PageStream<T>
  {
    LazyPaginateFrom(table, pageSize, 0)
  }

  /** One step of the generator: a non-empty first fetch is the first page,
      and the rest of the run resumes `pageSize` rows further on. */
  lemma Unfold<T>(table: seq<T>, pageSize: int, offset: int)
    requires offset >= 0
    requires PaginateUsers(table, pageSize, offset).Ok? && |PaginateUsers(table, pageSize, offset).value| > 0
    ensures var r := LazyPaginateFrom(table, pageSize, offset);
      var rest := LazyPaginateFrom(table, pageSize, offset + pageSize);
      && r.pages == [PaginateUsers(table, pageSize, offset).value] + rest.pages
      && r.fetched == [offset] + rest.fetched
      && r.error == rest.error
      && r.pages[1..] == rest.pages
      && r.fetched[1..] == rest.fetched
  {
    var rest := LazyPaginateFrom(table, pageSize, offset + pageSize);
    assert ([PaginateUsers(table, pageSize, offset).value] + rest.pages)[1..] == rest.pages;
    assert ([offset] + rest.fetched)[1..] == rest.fetched;
  }

  /** The step that ends the generator: a failing or empty fetch. */
  lemma Stop<T>(table: seq<T>, pageSize: int, offset: int)
    requires offset >= 0
    requires PaginateUsers(table, pageSize, offset).Err? || |PaginateUsers(table, pageSize, offset).value| == 0
    ensures LazyPaginateFrom(table, pageSize, offset) ==
      PageStream([], [offset], PaginateUsers(table, pageSize, offset).ErrorOption())
  {
  }

  /** Each offset is the previous one plus `pageSize`. */
  lemma {:induction false} OffsetsAdvance<T>(table: seq<T>, pageSize: int, offset: int)
    requires offset >= 0
    ensures var r := LazyPaginateFrom(table, pageSize, offset);
      forall i :: 0 <= i < |r.pages| ==> r.fetched[i + 1] == r.fetched[i] + pageSize
    decreases |table| - offset
  {
    var page := PaginateUsers(table, pageSize, offset);
    if page.Ok? && |page.value| > 0 {
      OffsetsAdvance(table, pageSize, offset + pageSize);
      Unfold(table, pageSize, offset);
      var r := LazyPaginateFrom(table, pageSize, offset);
      forall i | 1 <= i < |r.pages|
        ensures r.fetched[i + 1] == r.fetched[i] + pageSize
      {
        assert r.fetched[i] == r.fetched[1..][i - 1];
        assert r.fetched[i + 1] == r.fetched[1..][i];
      }
    }
  }

  /** Every page is the non-empty window fetched at its offset. */
  lemma {:induction false} PagesFetched<T>(table: seq<T>, pageSize: int, offset: int)
    requires offset >= 0
    ensures var r := LazyPaginateFrom(table, pageSize, offset);
      forall i :: 0 <= i < |r.pages| ==> PaginateUsers(table, pageSize, r.fetched[i]) == Ok(r.pages[i]) && |r.pages[i]| > 0
    decreases |table| - offset
  {
    var page := PaginateUsers(table, pageSize, offset);
    if page.Ok? && |page.value| > 0 {
      PagesFetched(table, pageSize, offset + pageSize);
      Unfold(table, pageSize, offset);
      var r := LazyPaginateFrom(table, pageSize, offset);
      forall i | 1 <= i < |r.pages|
        ensures PaginateUsers(table, pageSize, r.fetched[i]) == Ok(r.pages[i]) && |r.pages[i]| > 0
      {
        assert r.fetched[i] == r.fetched[1..][i - 1];
        assert r.pages[i] == r.pages[1..][i - 1];
      }
    }
  }

  /** The fetch that ends a run without error returns nothing. */
  lemma {:induction false} LastFetchEmpty<T>(table: seq<T>, pageSize: int, offset: int)
    requires offset >= 0 && pageSize >= 0
    ensures var r := LazyPaginateFrom(table, pageSize, offset);
      PaginateUsers(table, pageSize, r.fetched[|r.pages|]) == Ok([])
    decreases |table| - offset
  {
    var page := PaginateUsers(table, pageSize, offset);
    if |page.value| > 0 {
      LastFetchEmpty(table, pageSize, offset + pageSize);
      Unfold(table, pageSize, offset);
      var r := LazyPaginateFrom(table, pageSize, offset);
      assert r.fetched[|r.pages|] == r.fetched[1..][|r.pages| - 1];
    }
  }

  /** Every page is the window fetched at its offset, is non-empty and
      holds at most `pageSize` rows, and each offset is the previous one
      plus `pageSize`; the last fetch returns nothing. */
  lemma PagesAreWindows<T>(table: seq<T>, pageSize: int, offset: int)
    requires offset >= 0
    ensures var r := LazyPaginateFrom(table, pageSize, offset);
      && (forall i :: 0 <= i < |r.pages| ==> r.fetched[i + 1] == r.fetched[i] + pageSize)
      && (forall i :: 0 <= i < |r.pages| ==> PaginateUsers(table, pageSize, r.fetched[i]) == Ok(r.pages[i]))
      && (forall i :: 0 <= i < |r.pages| ==> 0 < |r.pages[i]| <= pageSize)
      && (pageSize >= 0 ==> PaginateUsers(table, pageSize, r.fetched[|r.pages|]) == Ok([]))
  {
    OffsetsAdvance(table, pageSize, offset);
    PagesFetched(table, pageSize, offset);
    if pageSize >= 0 {
      LastFetchEmpty(table, pageSize, offset);
    }
  }

  /** A fetch at a valid offset is the slice of the table from there. */
  lemma WindowIsSlice<T>(table: seq<T>, pageSize: int, offset: int)
    requires offset >= 0 && pageSize >= 0
    ensures PaginateUsers(table, pageSize, offset) == Ok(table[Min(offset, |table|)..Min(offset + pageSize, |table|)])
  {
  }

  /** For a positive page size the pages concatenate to the rest of the
      table from `offset`: every row once, in order, no gaps. */
  lemma {:induction false} PagesCoverTable<T>(table: seq<T>, pageSize: int, offset: int)
    requires offset >= 0 && pageSize >= 1
    ensures Seqs.Flatten(LazyPaginateFrom(table, pageSize, offset).pages) == table[Min(offset, |table|)..]
    decreases |table| - offset
  {
    WindowIsSlice(table, pageSize, offset);
    var page := PaginateUsers(table, pageSize, offset).value;
    var m := Min(offset + pageSize, |table|);
    if |page| > 0 {
      var rest := LazyPaginateFrom(table, pageSize, offset + pageSize).pages;
      PagesCoverTable(table, pageSize, offset + pageSize);
      Unfold(table, pageSize, offset);
      assert Seqs.Flatten([page] + rest) == page + Seqs.Flatten(rest) by {
        assert ([page] + rest)[1..] == rest;
      }
      Seqs.SliceSplit(table, offset, m);
    } else {
      Stop(table, pageSize, offset);
    }
  }

  /** Only the last page may be shorter than `pageSize`. */
  lemma {:induction false} OnlyLastPageShort<T>(table: seq<T>, pageSize: int, offset: int)
    requires offset >= 0
    ensures var r := LazyPaginateFrom(table, pageSize, offset);
      forall i :: 0 <= i < |r.pages| - 1 ==> |r.pages[i]| == pageSize
    decreases |table| - offset
  {
    var page := PaginateUsers(table, pageSize, offset);
    if page.Ok? && |page.value| > 0 {
      OnlyLastPageShort(table, pageSize, offset + pageSize);
      Unfold(table, pageSize, offset);
      var r := LazyPaginateFrom(table, pageSize, offset);
      if |r.pages| > 1 {
        PagesAreWindows(table, pageSize, offset + pageSize);
        assert |r.pages[1]| > 0;
        forall i | 1 <= i < |r.pages| - 1
          ensures |r.pages[i]| == pageSize
        {
          assert r.pages[i] == r.pages[1..][i - 1];
        }
      }
    }
  }

  /** The run resumed at `offset` after `pages` were yielded from the
      fetches at `fetched`. */
  function Resumed<T>(table: seq<T>, pageSize: int, offset: int, pages: seq<seq<T>>, fetched: seq<int>): PageStream<T>
    requires offset >= 0
  {
    var rest := LazyPaginateFrom(table, pageSize, offset);
    PageStream(pages + rest.pages, fetched + rest.fetched, rest.error)
  }

  /** Yielding a non-empty page and moving on does not change the run. */
  lemma ResumeAfterPage<T>(table: seq<T>, pageSize: int, offset: int, pages: seq<seq<T>>, fetched: seq<int>)
    requires offset >= 0
    requires PaginateUsers(table, pageSize, offset).Ok? && |PaginateUsers(table, pageSize, offset).value| > 0
    ensures Resumed(table, pageSize, offset, pages, fetched)
      == Resumed(table, pageSize, offset + pageSize, pages + [PaginateUsers(table, pageSize, offset).value], fetched + [offset])
  {
    Unfold(table, pageSize, offset);
    var page := PaginateUsers(table, pageSize, offset).value;
    var rest := LazyPaginateFrom(table, pageSize, offset + pageSize);
    assert pages + ([page] + rest.pages) == (pages + [page]) + rest.pages;
    assert fetched + ([offset] + rest.fetched) == (fetched + [offset]) + rest.fetched;
  }

  /** A failing or empty fetch ends the run. */
  lemma ResumeAtEnd<T>(table: seq<T>, pageSize: int, offset: int, pages: seq<seq<T>>, fetched: seq<int>)
    requires offset >= 0
    requires PaginateUsers(table, pageSize, offset).Err? || |PaginateUsers(table, pageSize, offset).value| == 0
    ensures Resumed(table, pageSize, offset, pages, fetched)
      == PageStream(pages, fetched + [offset], PaginateUsers(table, pageSize, offset).ErrorOption())
  {
    Stop(table, pageSize, offset);
    assert pages + [] == pages;
  }

  /** The generator's loop, fetch by fetch, against the recursive
      definition. For a positive page size the pages concatenate to the
      whole table, in order, and no error is raised. */
  method LazyPaginate<T>(table: seq<T>, pageSize: int)
    returns (pages: seq<seq<T>>, fetched: seq<int>, error: Option<PyError>)
    ensures PageStream(pages, fetched, error) == LazyPaginateRun(table, pageSize)
    ensures pageSize >= 1 ==> Seqs.Flatten(pages) == table && error.None?
  {
    var offset := 0;
    var done := false;
    pages, fetched, error := [], [], None;
    assert Resumed(table, pageSize, 0, [], []) == LazyPaginateRun(table, pageSize);
    while !done
      invariant offset >= 0
      invariant !done ==> Resumed(table, pageSize, offset, pages, fetched) == LazyPaginateRun(table, pageSize)
      invariant done ==> LazyPaginateRun(table, pageSize) == PageStream(pages, fetched, error)
      decreases if done then 0 else 1, |table| - offset
    {
      var page := PaginateUsers(table, pageSize, offset);
      if page.Err? || |page.value| == 0 {
        ResumeAtEnd(table, pageSize, offset, pages, fetched);
        fetched := fetched + [offset];
        error := page.ErrorOption();
        done := true;
      } else {
        ResumeAfterPage(table, pageSize, offset, pages, fetched);
        pages := pages + [page.value];
        fetched := fetched + [offset];
        offset := offset + pageSize;
      }
    }
    if pageSize >= 1 {
      PagesCoverTable(table, pageSize, 0);
    }
  }

  /** Ten rows in pages of three: pages of sizes 3, 3, 3 and 1, after
      fetches at offsets 0, 3, 6, 9 and a final empty fetch at 12. */
  lemma TenRowsInPagesOfThree()
    ensures var run := LazyPaginateRun([0, 1, 2, 3, 4, 5, 6, 7, 8, 9], 3);
      && |run.pages| == 4
      && |run.pages[0]| == 3 && |run.pages[1]| == 3 && |run.pages[2]| == 3 && |run.pages[3]| == 1
      && run.fetched == [0, 3, 6, 9, 12]
  {
    var t := [0, 1, 2, 3, 4, 5, 6, 7, 8, 9];
    assert PaginateUsers(t, 3, 12) == Ok([]);
    Stop(t, 3, 12);
    assert |PaginateUsers(t, 3, 9).value| == 1;
    Unfold(t, 3, 9);
    assert |PaginateUsers(t, 3, 6).value| == 3;
    Unfold(t, 3, 6);
    assert |PaginateUsers(t, 3, 3).value| == 3;
    Unfold(t, 3, 3);
    assert |PaginateUsers(t, 3, 0).value| == 3;
    Unfold(t, 3, 0);
  }

  /** A page size at least the table size gives one page holding the whole
      (non-empty) table, then one empty fetch. */
  lemma OnePageWhenLarge<T>(table: seq<T>, pageSize: int)
    requires |table| > 0 && pageSize >= |table|
    ensures LazyPaginateRun(table, pageSize).pages == [table]
    ensures LazyPaginateRun(table, pageSize).fetched == [0, pageSize]
  {
    assert PaginateUsers(table, pageSize, 0).value == table[0..|table|] == table;
    Unfold(table, pageSize, 0);
    Stop(table, pageSize, pageSize);
  }
}

=== FILE: py_values.dfy ===
/** Decoded JSON values (the payloads `get_json` returns, and the
    positional and keyword arguments the decorators inspect) together with
    the three Python operations the model applies to them: truthiness,
    `key in value`, and `value[key]` with a string key. */
module PyValues {
  import opened Wrappers
  import Strings

  datatype Json =
    | JNull
    | JBool(b: bool)
    | JInt(i: int)
    | JStr(s: string)
    | JList(items: seq<Json>)
    | JMap(fields: map<string, Json>)

  /** The exceptions Python raises in the modelled code paths. */
  datatype PyError =
    | KeyError(key: string)
    | TypeError(reason: string)
    | AssertionError(message: string)
    | ValueError(message: string)
    | DatabaseError(message: string)
    | AttributeError(name: string)

  /** `bool(v)`: `None`, `False`, `0`, and empty strings, lists and dicts
      are false. */
  predicate Truthy(v: Json)
  {
    match v
    case JNull => false
    case JBool(b) => b
    case JInt(i) => i != 0
    case JStr(s) => |s| > 0
    case JList(items) => |items| > 0
    case JMap(fields) => |fields| > 0
  }

  /** Lists and dicts cannot be dictionary keys. */
  predicate Hashable(v: Json)
  {
    !v.JList? && !v.JMap?
  }

  /** `v[key]` for a string `key`: a dict looks the key up and raises
      `KeyError` when it is absent; every other value raises `TypeError`
      (strings and lists need integer indices, the rest are not
      subscriptable). */
  function Subscript(v: Json, key: string): (r: Result<Json, PyError>)
    ensures r.Ok? <==> v.JMap? && key in v.fields
    ensures r.Ok? ==> r.value == v.fields[key]
    ensures v.JMap? && key !in v.fields ==> r == Err(KeyError(key))
    ensures !v.JMap? ==> r.Err? && r.error.TypeError?
  {
    match v
    case JMap(fields) => if key in fields then Ok(fields[key]) else Err(KeyError(key))
    case JStr(_) => Err(TypeError("string indices must be integers"))
    case JList(_) => Err(TypeError("list indices must be integers or slices"))
    case _ => Err(TypeError("object is not subscriptable"))
  }

  /** `key in v` for a string `key`: dict membership, substring test on a
      string, element test on a list; `None`, numbers and booleans raise
      `TypeError`. */
  function Contains(key: string, v: Json): (r: Result<bool, PyError>)
    ensures v.JMap? ==> r == Ok(key in v.fields)
    ensures v.JStr? ==> r == Ok(Strings.IsInfix(key, v.s))
    ensures v.JList? ==> r == Ok(JStr(key) in v.items)
    ensures r.Err? <==> v.JNull? || v.JInt? || v.JBool?
  {
    match v
    case JMap(fields) => Ok(key in fields)
    case JStr(s) => Ok(Strings.IsInfix(key, s))
    case JList(items) => Ok(JStr(key) in items)
    case _ => Err(TypeError("argument is not iterable"))
  }
}

=== FILE: query_cache.dfy ===
/** `python-decorators-0x01/4-cache_query.py`: `cache_query` keys the
    module-level `query_cache` dictionary by the SQL query found in the
    call's arguments, answers a hit from the cache without calling the
    function, and stores the result of a miss under a truthy key. Entries
    are never evicted or overwritten. Python's `None` is `JNull`. */
module QueryCache {
  import opened Wrappers
  import opened PyValues

  type Cache<R> = map<Json, R>

  /** The cache key: `args[1]` when there are more than one positional
      argument and it is a string, otherwise `kwargs['query']`, otherwise
      `None`. Position 1 because `with_db_connection` passes the
      connection as `args[0]`. */
  function CacheKey(args: seq<Json>, kwargs: map<string, Json>): (q: Json)
  {
    if |args| > 1 && args[1].JStr? then args[1]
    else if "query" in kwargs then kwargs["query"]
    else JNull
  }

  /** One decorated call: the result or exception, the cache afterwards,
      and how many times the wrapped function was called (0 or 1). */
  datatype Call<R> = Call(result: Result<R, PyError>, cache: Cache<R>, calls: nat)

  /** `wrapper(*args, **kwargs)` with `cache` as `query_cache`; `outcome`
      is what the wrapped function returns or raises when called. A truthy
      key that is a list or a dict cannot be looked up and raises
      `TypeError` before the function is called. */
  function CacheQuery<R>(cache: Cache<R>, args: seq<Json>, kwargs: map<string, Json>,
                         outcome: Result<R, PyError>): (r: Call<R>)
    ensures r.calls <= 1
    ensures forall k :: k in cache ==> k in r.cache && r.cache[k] == cache[k]
    ensures r.cache.Keys <= cache.Keys + {CacheKey(args, kwargs)}
    ensures forall k :: k in r.cache && k !in cache ==> Truthy(k) && Hashable(k)
  {
    var q := CacheKey(args, kwargs);
    if Truthy(q) && !Hashable(q) then Call(Err(TypeError("unhashable type")), cache, 0)
    else if Truthy(q) && q in cache then Call(Ok(cache[q]), cache, 0)
    else
      match outcome
      case Err(e) => Call(Err(e), cache, 1)
      case Ok(v) => Call(Ok(v), if Truthy(q) then cache[q := v] else cache, 1)
  }

  /** A hit returns the cached value and does not call the function. */
  lemma HitSkipsCall<R>(cache: Cache<R>, args: seq<Json>, kwargs: map<string, Json>, outcome: Result<R, PyError>)
    requires Truthy(CacheKey(args, kwargs)) && Hashable(CacheKey(args, kwargs))
    requires CacheKey(args, kwargs) in cache
    ensures var r := CacheQuery(cache, args, kwargs, outcome);
      r == Call(Ok(cache[CacheKey(args, kwargs)]), cache, 0)
  {
  }

  /** A miss under a truthy, hashable key calls the function once; its
      result is returned and, unless it raised, stored under the key. */
  lemma MissCallsAndStores<R>(cache: Cache<R>, args: seq<Json>, kwargs: map<string, Json>, outcome: Result<R, PyError>)
    requires Truthy(CacheKey(args, kwargs)) && Hashable(CacheKey(args, kwargs))
    requires CacheKey(args, kwargs) !in cache
    ensures var r := CacheQuery(cache, args, kwargs, outcome);
      && r.calls == 1 && r.result == outcome
      && (outcome.Ok? ==> r.cache == cache[CacheKey(args, kwargs) := outcome.value])
      && (outcome.Err? ==> r.cache == cache)
  {
  }

  /** Without a key, or with a falsy one such as `''`, the function is
      called and the cache is left alone. */
  lemma NoKeyNoCaching<R>(cache: Cache<R>, args: seq<Json>, kwargs: map<string, Json>, outcome: Result<R, PyError>)
    requires !Truthy(CacheKey(args, kwargs))
    ensures CacheQuery(cache, args, kwargs, outcome) == Call(outcome, cache, 1)
  {
  }

  /** Repeated calls with one query: once a call has cached its result, the
      next call with the same key returns that result, whatever the function
      would do now, and does not call it. */
  lemma SecondCallReturnsFirstResult<R>(cache: Cache<R>, args: seq<Json>, kwargs: map<string, Json>,
                                        args2: seq<Json>, kwargs2: map<string, Json>,
                                        first: R, later: Result<R, PyError>)
    requires Truthy(CacheKey(args, kwargs)) && Hashable(CacheKey(args, kwargs))
    requires CacheKey(args2, kwargs2) == CacheKey(args, kwargs)
    requires CacheKey(args, kwargs) !in cache
    ensures var r1 := CacheQuery(cache, args, kwargs, Ok(first));
      var r2 := CacheQuery(r1.cache, args2, kwargs2, later);
      r2.result == Ok(first) && r2.calls == 0 && r2.cache == r1.cache
  {
    MissCallsAndStores(cache, args, kwargs, Ok(first));
    var r1 := CacheQuery(cache, args, kwargs, Ok(first));
    HitSkipsCall(r1.cache, args2, kwargs2, later);
  }

  /** Position 0 is the connection: a query passed there alone is no key,
      the `query` keyword of the decorated `fetch_users_with_cache` is, and
      a string after the connection is preferred to the keyword. */
  lemma CacheKeyAfterConnection(conn: Json, query: string, other: Json)
    ensures CacheKey([JStr(query)], map[]) == JNull
    ensures CacheKey([conn], map["query" := JStr(query)]) == JStr(query)
    ensures CacheKey([conn, JStr(query)], map["query" := other]) == JStr(query)
  {
  }

  /** A sequence of calls, each with its arguments and the outcome the
      function would give: the results, the final cache, and the number of
      calls made. */
  datatype Request<R> = Request(args: seq<Json>, kwargs: map<string, Json>, outcome: Result<R, PyError>)

  function CallAll<R>(cache: Cache<R>, requests: seq<Request<R>>): (r: (seq<Result<R, PyError>>, Cache<R>, nat))
    ensures |r.0| == |requests|
    ensures r.2 <= |requests|
    decreases |requests|
  {
    if |requests| == 0 then ([], cache, 0)
    else
      var q := requests[0];
      var c := CacheQuery(cache, q.args, q.kwargs, q.outcome);
      var rest := CallAll(c.cache, requests[1..]);
      ([c.result] + rest.0, rest.1, c.calls + rest.2)
  }

  /** Once a key is cached, every later call with that key returns the
      cached value and the entry never changes. */
  lemma {:induction false} CachedKeyIsStable<R>(cache: Cache<R>, requests: seq<Request<R>>, key: Json)
    requires key in cache && Truthy(key) && Hashable(key)
    ensures var r := CallAll(cache, requests);
      && key in r.1 && r.1[key] == cache[key]
      && forall i :: 0 <= i < |requests| && CacheKey(requests[i].args, requests[i].kwargs) == key
           ==> r.0[i] == Ok(cache[key])
    decreases |requests|
  {
    if |requests| > 0 {
      var q := requests[0];
      var c := CacheQuery(cache, q.args, q.kwargs, q.outcome);
      CachedKeyIsStable(c.cache, requests[1..], key);
      if CacheKey(q.args, q.kwargs) == key {
        HitSkipsCall(cache, q.args, q.kwargs, q.outcome);
      }
      var r := CallAll(cache, requests);
      var rest := CallAll(c.cache, requests[1..]);
      forall i | 1 <= i < |requests| && CacheKey(requests[i].args, requests[i].kwargs) == key
        ensures r.0[i] == Ok(cache[key])
      {
        assert requests[i] == requests[1..][i - 1];
        assert r.0[i] == rest.0[i - 1];
      }
    }
  }

  /** The example run: two calls with `query="SELECT * FROM users"` call
      the database once and return the first result twice. */
  lemma FetchUsersTwice<R>(first: Result<R, PyError>, second: Result<R, PyError>)
    requires first.Ok?
    ensures var kwargs := map["query" := JStr("SELECT * FROM users")];
      var r := CallAll(map[], [Request([JInt(0)], kwargs, first), Request([JInt(0)], kwargs, second)]);
      r.0 == [first, first] && r.2 == 1
  {
    var kwargs := map["query" := JStr("SELECT * FROM users")];
    var q := JStr("SELECT * FROM users");
    assert CacheKey([JInt(0)], kwargs) == q;
    var c1 := CacheQuery(map[], [JInt(0)], kwargs, first);
    assert c1.cache == map[q := first.value];
    var c2 := CacheQuery(c1.cache, [JInt(0)], kwargs, second);
    assert c2 == Call(first, c1.cache, 0);
    var reqs := [Request([JInt(0)], kwargs, first), Request([JInt(0)], kwargs, second)];
    assert reqs[1..] == [Request([JInt(0)], kwargs, second)];
    assert reqs[1..][1..] == [];
  }
}

=== FILE: seed.dfy ===
/** `seed.py`'s `insert_data`: every CSV row whose `user_id` is not yet in
    `user_data` is inserted; a row whose id is already present (from the
    table or from an earlier CSV row) is skipped. The table is the row
    sequence in insertion order. */
module Seed {
  import opened UserTable

  /** `SELECT * FROM user_data WHERE user_id = id` returns a row. */
  predicate IdIn(id: string, table: seq<UserRow>)
  {
    exists i :: 0 <= i < |table| && table[i].userId == id
  }

  /** `user_id` is the primary key: no two rows share it. */
  predicate UniqueIds(table: seq<UserRow>)
  {
    forall i, j :: 0 <= i < j < |table| ==> table[i].userId != table[j].userId
  }

  /** One iteration of the loop over the CSV rows. */
  function InsertRow(table: seq<UserRow>, row: UserRow): (r: seq<UserRow>)
  {
    if IdIn(row.userId, table) then table else table + [row]
  }

  /** `insert_data(connection, csv_file)` on the parsed CSV rows. */
  function InsertData(table: seq<UserRow>, csvRows: seq<UserRow>): (r: seq<UserRow>)
    decreases |csvRows|
  {
    if |csvRows| == 0 then table
    else InsertData(InsertRow(table, csvRows[0]), csvRows[1..])
  }

  lemma IdInAppend(id: string, table: seq<UserRow>, row: UserRow)
    ensures IdIn(id, table + [row]) <==> IdIn(id, table) || row.userId == id
  {
    if IdIn(id, table) {
      var i :| 0 <= i < |table| && table[i].userId == id;
      assert (table + [row])[i] == table[i];
    }
    if row.userId == id {
      assert (table + [row])[|table|] == row;
    }
    if IdIn(id, table + [row]) {
      var i :| 0 <= i < |table| + 1 && (table + [row])[i].userId == id;
      if i < |table| {
        assert table[i] == (table + [row])[i];
      }
    }
  }

  /** One insertion keeps the rows already there, in place, and makes the
      row's id present; it adds the row exactly when its id was absent. */
  lemma InsertRowFacts(table: seq<UserRow>, row: UserRow)
    ensures table <= InsertRow(table, row)
    ensures IdIn(row.userId, InsertRow(table, row))
    ensures forall id :: IdIn(id, InsertRow(table, row)) <==> IdIn(id, table) || row.userId == id
    ensures |InsertRow(table, row)| == |table| + (if IdIn(row.userId, table) then 0 else 1)
  {
    forall id
      ensures IdIn(id, InsertRow(table, row)) <==> IdIn(id, table) || row.userId == id
    {
      IdInAppend(id, table, row);
    }
  }

  /** The rows already in the table are kept, in place: the old table is a
      prefix of the new one. */
  lemma {:induction false} InsertKeepsTable(table: seq<UserRow>, csvRows: seq<UserRow>)
    ensures table <= InsertData(table, csvRows)
    decreases |csvRows|
  {
    if |csvRows| > 0 {
      InsertRowFacts(table, csvRows[0]);
      InsertKeepsTable(InsertRow(table, csvRows[0]), csvRows[1..]);
    }
  }

  /** After the load, an id is present exactly when it was in the table or
      in some CSV row. */
  lemma {:induction false} InsertIds(table: seq<UserRow>, csvRows: seq<UserRow>, id: string)
    ensures IdIn(id, InsertData(table, csvRows)) <==>
      IdIn(id, table) || exists k :: 0 <= k < |csvRows| && csvRows[k].userId == id
    decreases |csvRows|
  {
    if |csvRows| > 0 {
      InsertRowFacts(table, csvRows[0]);
      InsertIds(InsertRow(table, csvRows[0]), csvRows[1..], id);
      if exists k :: 0 <= k < |csvRows[1..]| && csvRows[1..][k].userId == id {
        var k :| 0 <= k < |csvRows[1..]| && csvRows[1..][k].userId == id;
        assert csvRows[k + 1].userId == id;
      }
      if exists k :: 0 <= k < |csvRows| && csvRows[k].userId == id {
        var k :| 0 <= k < |csvRows| && csvRows[k].userId == id;
        if k > 0 {
          assert csvRows[1..][k - 1].userId == id;
        }
      }
    }
  }

  /** The primary key is respected: ids unique before the load stay unique
      after it. */
  lemma {:induction false} InsertKeepsIdsUnique(table: seq<UserRow>, csvRows: seq<UserRow>)
    requires UniqueIds(table)
    ensures UniqueIds(InsertData(table, csvRows))
    decreases |csvRows|
  {
    if |csvRows| > 0 {
      var row := csvRows[0];
      var next := InsertRow(table, row);
      if !IdIn(row.userId, table) {
        forall i, j | 0 <= i < j < |next|
          ensures next[i].userId != next[j].userId
        {
          if j == |table| {
            assert next[i] == table[i];
          }
        }
      }
      InsertKeepsIdsUnique(next, csvRows[1..]);
    }
  }

  /** A CSV whose ids are all present already changes nothing. */
  lemma {:induction false} InsertKnownIds(table: seq<UserRow>, csvRows: seq<UserRow>)
    requires forall k :: 0 <= k < |csvRows| ==> IdIn(csvRows[k].userId, table)
    ensures InsertData(table, csvRows) == table
    decreases |csvRows|
  {
    if |csvRows| > 0 {
      InsertKnownIds(table, csvRows[1..]);
    }
  }

  /** Loading the same CSV twice is the same as loading it once. */
  lemma InsertIdempotent(table: seq<UserRow>, csvRows: seq<UserRow>)
    ensures InsertData(InsertData(table, csvRows), csvRows) == InsertData(table, csvRows)
  {
    var once := InsertData(table, csvRows);
    forall k | 0 <= k < |csvRows|
      ensures IdIn(csvRows[k].userId, once)
    {
      InsertIds(table, csvRows, csvRows[k].userId);
    }
    InsertKnownIds(once, csvRows);
  }

  /** Of several CSV rows with a new id, the first is the one inserted. */
  lemma {:induction false} FirstRowWins(table: seq<UserRow>, csvRows: seq<UserRow>, k: nat)
    requires k < |csvRows|
    requires !IdIn(csvRows[k].userId, table)
    requires forall j :: 0 <= j < k ==> csvRows[j].userId != csvRows[k].userId
    ensures csvRows[k] in InsertData(table, csvRows)
    decreases |csvRows|
  {
    var row := csvRows[0];
    var next := InsertRow(table, row);
    if k == 0 {
      assert next == table + [row];
      InsertKeepsTable(next, csvRows[1..]);
      assert next[|table|] == row;
    } else {
      InsertRowFacts(table, row);
      assert csvRows[1..][k - 1] == csvRows[k];
      FirstRowWins(next, csvRows[1..], k - 1);
    }
  }
}

=== FILE: seqs.dfy ===
/** Sequence helpers used by the list comprehensions, generators and
    querysets of the model: order-preserving filtering, concatenation of
    pages, and integer sums. */
module Seqs {

  /** The order-preserving subsequence of `s` whose elements satisfy `p`
      (Python's `[x for x in s if p(x)]`). */
  function Filter<T>(s: seq<T>, p: T -> bool): (r: seq<T>)
    ensures |r| <= |s|
    ensures forall i :: 0 <= i < |r| ==> r[i] in s && p(r[i])
    ensures forall i :: 0 <= i < |s| && p(s[i]) ==> s[i] in r
  {
    if |s| == 0 then []
    else if p(s[0]) then [s[0]] + Filter(s[1..], p)
    else Filter(s[1..], p)
  }

  /** Filtering distributes over concatenation, so the relative order of
      the kept elements is the order of `a + b`. */
  lemma {:induction false} FilterAppend<T>(a: seq<T>, b: seq<T>, p: T -> bool)
    ensures Filter(a + b, p) == Filter(a, p) + Filter(b, p)
  {
    if |a| == 0 {
      assert a + b == b;
    } else {
      assert (a + b)[1..] == a[1..] + b;
      FilterAppend(a[1..], b, p);
    }
  }

  /** Filtering twice is filtering by the conjunction. */
  lemma {:induction false} FilterFilter<T>(s: seq<T>, p: T -> bool, q: T -> bool)
    ensures Filter(Filter(s, p), q) == Filter(s, x => p(x) && q(x))
  {
    if |s| > 0 {
      FilterFilter(s[1..], p, q);
    }
  }

  /** A filter whose predicate holds everywhere keeps the whole sequence. */
  lemma {:induction false} FilterAll<T>(s: seq<T>, p: T -> bool)
    requires forall i :: 0 <= i < |s| ==> p(s[i])
    ensures Filter(s, p) == s
  {
    if |s| > 0 {
      FilterAll(s[1..], p);
    }
  }

  /** A suffix splits at any later index. */
  lemma SliceSplit<T>(s: seq<T>, i: int, j: int)
    requires 0 <= i <= j <= |s|
    ensures s[i..] == s[i..j] + s[j..]
  {
  }

  /** The concatenation of a sequence of pages. */
  function Flatten<T>(pages: seq<seq<T>>): (r: seq<T>)
  {
    if |pages| == 0 then [] else pages[0] + Flatten(pages[1..])
  }

  lemma {:induction false} FlattenAppend<T>(a: seq<seq<T>>, b: seq<seq<T>>)
    ensures Flatten(a + b) == Flatten(a) + Flatten(b)
  {
    if |a| == 0 {
      assert a + b == b;
    } else {
      assert (a + b)[1..] == a[1..] + b;
      FlattenAppend(a[1..], b);
    }
  }

  /** The sum of a sequence of integers. */
  function Sum(s: seq<int>): int
  {
    if |s| == 0 then 0 else s[0] + Sum(s[1..])
  }

  /** Extending a prefix by one element adds that element to the sum; this
      is the step a running total takes. */
  lemma {:induction false} SumSnoc(s: seq<int>, i: nat)
    requires i < |s|
    ensures Sum(s[..i + 1]) == Sum(s[..i]) + s[i]
  {
    if i == 0 {
      assert s[..1] == [s[0]];
    } else {
      assert s[..i + 1][1..] == s[1..][..i];
      assert s[..i][1..] == s[1..][..i - 1];
      SumSnoc(s[1..], i - 1);
    }
  }

  /** The first `n` elements, or all of them when there are fewer
      (Python's `s[:n]`, SQL's `LIMIT n`). */
  function Take<T>(s: seq<T>, n: nat): (r: seq<T>)
    ensures |r| <= n && |r| <= |s|
    ensures |s| <= n ==> r == s
    ensures |s| > n ==> |r| == n
    ensures forall i :: 0 <= i < |r| ==> r[i] == s[i]
  {
    if |s| <= n then s else s[..n]
  }
}

=== FILE: settings.dfy ===
/** The value helpers of `messaging_app/messaging_app/settings.py`:
    `get_env_variable` and the parsing of `DEBUG`, `EMAIL_USE_TLS` and
    `ALLOWED_HOSTS`. The process environment is a map from variable name to
    value. */
module Settings {
  import opened Wrappers
  import opened PyValues
  import Strings

  type Env = map<string, string>

  /** `get_env_variable(name, default)`; `None` stands for an absent or
      `None` default. An empty string is a default like any other. */
  function GetEnvVariable(env: Env, name: string, default: Option<string>): (r: Result<string, PyError>)
    ensures name in env ==> r == Ok(env[name])
    ensures name !in env && default.Some? ==> r == Ok(default.value)
    ensures r.Err? <==> name !in env && default.None?
    ensures r.Err? ==> r.error == ValueError("Set the " + name + " environment variable")
  {
    if name in env then Ok(env[name])
    else if default.Some? then Ok(default.value)
    else Err(ValueError("Set the " + name + " environment variable"))
  }

  /** A variable read with a default never raises, and the default is used
      exactly when the variable is unset: the database settings' `''`
      defaults give `''`, not an error. */
  lemma DefaultNeverRaises(env: Env, name: string, default: string)
    ensures GetEnvVariable(env, name, Some(default)).Ok?
    ensures GetEnvVariable(env, name, Some(default)).value == (if name in env then env[name] else default)
    ensures name !in env ==> GetEnvVariable(env, name, Some("")) == Ok("")
  {
  }

  /** `value.lower() in ['true', '1', 'yes']`. Lower-casing with the ASCII
      alphabet decides the same: no other character lower-cases to one of
      the letters of `true` or `yes`. */
  predicate ParseBool(value: string)
  {
    Strings.Lower(value) in ["true", "1", "yes"]
  }

  lemma LowerIdempotent(s: string)
    ensures Strings.Lower(Strings.Lower(s)) == Strings.Lower(s)
  {
  }

  /** The parse ignores case, accepts only strings of length 1, 3 or 4, and
      accepts the usual spellings and nothing like `'on'` or `'false'`. */
  lemma ParseBoolFacts(value: string)
    ensures ParseBool(value) == ParseBool(Strings.Lower(value))
    ensures ParseBool(value) ==> |value| == 1 || |value| == 3 || |value| == 4
    ensures ParseBool("True") && ParseBool("TRUE") && ParseBool("1") && ParseBool("Yes")
    ensures !ParseBool("False") && !ParseBool("0") && !ParseBool("on") && !ParseBool("")
  {
    LowerIdempotent(value);
    assert Strings.Lower("True") == "true";
    assert Strings.Lower("TRUE") == "true";
    assert Strings.Lower("Yes") == "yes";
    assert Strings.Lower("False") == "false";
    assert Strings.Lower("on") == "on";
    assert Strings.Lower("1") == "1";
    assert Strings.Lower("0") == "0";
    assert Strings.Lower("") == "";
  }

  /** A boolean setting: the variable `name`, `'True'` when unset, parsed
      as a boolean. `DEBUG` and `EMAIL_USE_TLS` are both read this way. */
  function Flag(env: Env, name: string): (r: bool)
    ensures name !in env ==> r
    ensures name in env ==> (r <==> ParseBool(env[name]))
  {
    assert Strings.Lower("True") == "true";
    ParseBool(GetEnvVariable(env, name, Some("True")).value)
  }

  /** `DEBUG`. */
  function Debug(env: Env): (r: bool)
  {
    Flag(env, "DEBUG")
  }

  /** `EMAIL_USE_TLS`. */
  function EmailUseTls(env: Env): (r: bool)
  {
    Flag(env, "EMAIL_USE_TLS")
  }

  /** `DEBUG` is on unless set to something other than a true spelling;
      `EMAIL_USE_TLS` with the same value, or both unset, gives the same
      flag. */
  lemma FlagsAgree(env: Env)
    ensures "DEBUG" !in env ==> Debug(env)
    ensures "DEBUG" in env ==> (Debug(env) <==> ParseBool(env["DEBUG"]))
    ensures ("DEBUG" in env <==> "EMAIL_USE_TLS" in env)
            && ("DEBUG" in env ==> env["DEBUG"] == env["EMAIL_USE_TLS"])
            ==> Debug(env) == EmailUseTls(env)
  {
  }

  const DefaultAllowedHosts := "localhost,127.0.0.1"

  /** `ALLOWED_HOSTS`: the comma-separated pieces of the variable. */
  function AllowedHosts(env: Env): (r: seq<string>)
    ensures |r| >= 1
    ensures forall i :: 0 <= i < |r| ==> ',' !in r[i]
  {
    Strings.Split(GetEnvVariable(env, "ALLOWED_HOSTS", Some(DefaultAllowedHosts)).value, ',')
  }

  /** Joining the hosts with commas gives back the variable. */
  lemma AllowedHostsJoin(env: Env)
    requires "ALLOWED_HOSTS" in env
    ensures Strings.Join(AllowedHosts(env), ",") == env["ALLOWED_HOSTS"]
  {
    Strings.JoinSplit(env["ALLOWED_HOSTS"], ',');
    assert [','] == ",";
  }

  /** A list of comma-free host names written with commas is read back as
      itself. */
  lemma AllowedHostsSplit(env: Env, hosts: seq<string>)
    requires |hosts| >= 1 && forall i :: 0 <= i < |hosts| ==> ',' !in hosts[i]
    ensures AllowedHosts(env["ALLOWED_HOSTS" := Strings.Join(hosts, ",")]) == hosts
  {
    assert [','] == ",";
    Strings.SplitJoin(hosts, ',');
  }

  /** Unset, the hosts are `localhost` and `127.0.0.1`. */
  lemma AllowedHostsDefault(env: Env)
    requires "ALLOWED_HOSTS" !in env
    ensures AllowedHosts(env) == ["localhost", "127.0.0.1"]
  {
    var defaults := ["localhost", "127.0.0.1"];
    assert Strings.Join(defaults, [',']) == DefaultAllowedHosts by {
      assert Strings.Join(defaults[1..], [',']) == "127.0.0.1";
    }
    Strings.SplitJoin(defaults, ',');
  }
}

=== FILE: stream_ages.dfy ===
/** `4-stream_ages.py`: `stream_user_ages` yields `row['age']` for every
    row of `SELECT age FROM user_data`, and `calculate_average_age` keeps a
    running total and count over that generator and returns
    `total_age / user_count`, or `0` when there are no users. Ages are the
    integers of a `DECIMAL` column; the quotient is exact. A `NULL` age is
    yielded as `None`, and adding it to the running total raises
    `TypeError`. */
module StreamAges {
  import opened Wrappers
  import opened PyValues
  import opened UserTable
  import Seqs

  /** The ages of the rows, in table order. */
  function Ages(table: seq<UserRow>): (r: seq<int>)
    requires AllAged(table)
    ensures |r| == |table|
    ensures forall i :: 0 <= i < |table| ==> table[i].age == Some(r[i])
  {
    seq(|table|, i requires 0 <= i < |table| => table[i].age.value)
  }

  /** `stream_user_ages()`: `fetchone()` until it returns `None`, yielding
      `row['age']` for each row. The key is always there, so the generator
      never raises; it yields one value per row, in cursor order, `None`
      for a `NULL` age. */
  method StreamUserAges(table: seq<UserRow>) returns (yielded: seq<Option<int>>)
    ensures |yielded| == |table|
    ensures forall i :: 0 <= i < |table| ==> yielded[i] == table[i].age
    ensures AllAged(table) <==> forall i :: 0 <= i < |yielded| ==> yielded[i].Some?
  {
    yielded := [];
    var cursor := 0;
    while true
      invariant 0 <= cursor <= |table|
      invariant |yielded| == cursor
      invariant forall i :: 0 <= i < cursor ==> yielded[i] == table[i].age
      decreases |table| - cursor
    {
      var row: Option<UserRow> := if cursor < |table| then Some(table[cursor]) else None;
      if row.None? {
        break;
      }
      cursor := cursor + 1;
      yielded := yielded + [row.value.age];
    }
  }

  /** The average the function is meant to compute: the mean age, `0` for
      an empty table. */
  function Mean(ages: seq<int>): real
  {
    if |ages| == 0 then 0.0 else Seqs.Sum(ages) as real / |ages| as real
  }

  /** `calculate_average_age()`, loop by loop, over what
      `stream_user_ages()` yields. It returns the exact mean of the ages, and
      `0` for an empty table; `total_age += age` raises `TypeError` at the
      first `NULL` age. `total` and `count` are the running total and count
      when the loop ends. */
  method CalculateAverageAge(table: seq<UserRow>) returns (average: Result<real, PyError>, total: int, count: nat)
    ensures average.Ok? <==> AllAged(table)
    ensures average.Err? ==> average.error.TypeError? && count == FirstNull(table)
    ensures average.Ok? ==> count == |table| && total == Seqs.Sum(Ages(table))
    ensures average.Ok? ==> average.value == Mean(Ages(table))
    ensures average.Ok? && count > 0 ==> average.value * count as real == total as real
  {
    var ages := StreamUserAges(table);
    total, count := 0, 0;
    var i := 0;
    while i < |ages|
      invariant 0 <= i <= |ages|
      invariant count == i
      invariant forall j :: 0 <= j < i ==> table[j].age.Some?
      invariant total == Seqs.Sum(seq(i, j requires 0 <= j < i => table[j].age.value))
    {
      var age := ages[i];
      if age.None? {
        return Err(TypeError("unsupported operand type(s) for +=: 'int' and 'NoneType'")), total, count;
      }
      ghost var before := seq(i, j requires 0 <= j < i => table[j].age.value);
      ghost var after := seq(i + 1, j requires 0 <= j < i + 1 => table[j].age.value);
      assert after[..i] == before && after[..i + 1] == after;
      Seqs.SumSnoc(after, i);
      total := total + age.value;
      count := count + 1;
      i := i + 1;
    }
    assert seq(i, j requires 0 <= j < i => table[j].age.value) == Ages(table);
    if count > 0 {
      average := Ok(total as real / count as real);
    } else {
      average := Ok(0.0);
    }
  }

  /** Ages within `[lo, hi]` sum to between `n * lo` and `n * hi`. */
  lemma {:induction false} SumBounds(ages: seq<int>, lo: int, hi: int)
    requires forall i :: 0 <= i < |ages| ==> lo <= ages[i] <= hi
    ensures |ages| * lo <= Seqs.Sum(ages) <= |ages| * hi
  {
    if |ages| > 0 {
      SumBounds(ages[1..], lo, hi);
    }
  }

  /** Dividing bounds `a * n <= s <= b * n` by a positive `n`. */
  lemma QuotientBetween(s: real, n: real, a: real, b: real)
    requires n > 0.0 && a * n <= s <= b * n
    ensures a <= s / n <= b
  {
    var q := s / n;
    assert q * n == s;
    assert (q - a) * n >= 0.0 && (b - q) * n >= 0.0;
  }

  /** The mean lies between the youngest and the oldest age. */
  lemma MeanBetweenBounds(ages: seq<int>, lo: int, hi: int)
    requires |ages| > 0
    requires forall i :: 0 <= i < |ages| ==> lo <= ages[i] <= hi
    ensures lo as real <= Mean(ages) <= hi as real
  {
    SumBounds(ages, lo, hi);
    var n := |ages|;
    var s := Seqs.Sum(ages);
    assert (n * lo) as real == (lo as real) * (n as real);
    assert (n * hi) as real == (hi as real) * (n as real);
    QuotientBetween(s as real, n as real, lo as real, hi as real);
  }

  /** Ages 20, 30 and 40 average to 30. */
  lemma ThreeUsersAverageThirty()
    ensures Mean([20, 30, 40]) == 30.0
  {
    assert Seqs.Sum([20, 30, 40]) == 20 + Seqs.Sum([30, 40]);
    assert Seqs.Sum([30, 40]) == 30 + Seqs.Sum([40]);
    assert Seqs.Sum([40]) == 40 + Seqs.Sum([]);
  }
}

=== FILE: strings.dfy ===
/** String helpers with Python's meaning: `str.lower` (ASCII letters only),
    substring containment, `sep.join(parts)` and `s.split(c)` for a one
    character separator. */
module Strings {

  function LowerChar(c: char): (r: char)
    ensures 'A' <= c <= 'Z' ==> 'a' <= r <= 'z' && r as int - c as int == 32
    ensures !('A' <= c <= 'Z') ==> r == c
  {
    if 'A' <= c <= 'Z' then (c as int + 32) as char else c
  }

  /** `s.lower()`, restricted to the ASCII alphabet. */
  function Lower(s: string): (r: string)
    ensures |r| == |s|
    ensures forall i :: 0 <= i < |s| ==> r[i] == LowerChar(s[i])
  {
    seq(|s|, i requires 0 <= i < |s| => LowerChar(s[i]))
  }

  /** `needle` occurs in `hay` starting at index `i`. */
  predicate InfixAt(needle: string, hay: string, i: int)
  {
    0 <= i <= |hay| - |needle| && hay[i..i + |needle|] == needle
  }

  /** Python's `needle in hay` on two strings. */
  predicate IsInfix(needle: string, hay: string)
  {
    exists i | 0 <= i <= |hay| - |needle| :: InfixAt(needle, hay, i)
  }

  /** Django's `icontains` lookup: containment after lower-casing both sides. */
  predicate IContains(hay: string, needle: string)
  {
    IsInfix(Lower(needle), Lower(hay))
  }

  /** `sep.join(parts)`. */
  function Join(parts: seq<string>, sep: string): string
  {
    if |parts| == 0 then ""
    else if |parts| == 1 then parts[0]
    else parts[0] + sep + Join(parts[1..], sep)
  }

  /** The index of the first `c` in `s`, or `|s|` when there is none. */
  function IndexOf(s: string, c: char): (k: nat)
    ensures k <= |s|
    ensures k < |s| ==> s[k] == c
    ensures forall j :: 0 <= j < k ==> s[j] != c
  {
    if |s| == 0 then 0
    else if s[0] == c then 0
    else 1 + IndexOf(s[1..], c)
  }

  /** `s.split(c)`: the pieces between occurrences of `c`; always at least
      one piece, and `"".split(c) == [""]`. */
  function Split(s: string, c: char): (parts: seq<string>)
    ensures |parts| >= 1
    ensures forall i :: 0 <= i < |parts| ==> c !in parts[i]
    decreases |s|
  {
    var k := IndexOf(s, c);
    if k == |s| then [s] else [s[..k]] + Split(s[k + 1..], c)
  }

  /** Joining the pieces of a split with the separator gives back the
      original string. */
  lemma {:induction false} JoinSplit(s: string, c: char)
    ensures Join(Split(s, c), [c]) == s
    decreases |s|
  {
    var k := IndexOf(s, c);
    if k < |s| {
      var rest := Split(s[k + 1..], c);
      assert Split(s, c) == [s[..k]] + rest;
      JoinSplit(s[k + 1..], c);
      assert ([s[..k]] + rest)[1..] == rest;
      assert s == s[..k] + [c] + s[k + 1..];
    }
  }

  /** The index of `c` in `p + [c] + t` is `|p|` when `p` has no `c`. */
  lemma {:induction false} IndexOfAfterPiece(p: string, c: char, t: string)
    requires c !in p
    ensures IndexOf(p + [c] + t, c) == |p|
  {
    if |p| > 0 {
      assert (p + [c] + t)[1..] == p[1..] + [c] + t;
      IndexOfAfterPiece(p[1..], c, t);
    }
  }

  /** Splitting at the first separator: a separator-free piece, then the
      split of what follows. */
  lemma SplitAfterPiece(p: string, c: char, t: string)
    requires c !in p
    ensures Split(p + [c] + t, c) == [p] + Split(t, c)
  {
    var s := p + [c] + t;
    IndexOfAfterPiece(p, c, t);
    assert s[..|p|] == p;
    assert s[|p| + 1..] == t;
  }

  /** Splitting a join of separator-free pieces gives back the pieces. */
  lemma {:induction false} SplitJoin(parts: seq<string>, c: char)
    requires |parts| >= 1
    requires forall i :: 0 <= i < |parts| ==> c !in parts[i]
    ensures Split(Join(parts, [c]), c) == parts
    decreases |parts|
  {
    if |parts| == 1 {
      assert IndexOf(parts[0], c) == |parts[0]|;
    } else {
      var tail := Join(parts[1..], [c]);
      assert Join(parts, [c]) == parts[0] + [c] + tail;
      SplitAfterPiece(parts[0], c, tail);
      SplitJoin(parts[1..], c);
      assert parts == [parts[0]] + parts[1..];
    }
  }
}

=== FILE: unread_manager.dfy ===
/** `UnreadMessagesManager` of `Django-signals_orm-0x04/messaging/managers.py`:
    the unread messages of a receiver, marking them read, counting them, and
    narrowing them to one sender. A queryset is the set of primary keys it
    selects; ordering and deferred fields do not change which rows it
    holds. */
module UnreadManager {
  import opened MessagingStore

  /** `for_user(user)`: the messages received by `user` and not yet read. */
  function ForUser(store: Store, user: UserKey): (r: set<MessageKey>)
  {
    set k | k in store.messages && store.messages[k].receiver == user && !store.messages[k].read
  }

  /** `mark_as_read(user)`: the store with those messages read, and the
      number of rows `update` reports. */
  function MarkAsRead(store: Store, user: UserKey): (r: (Store, nat))
    ensures r.1 == |ForUser(store, user)|
    ensures r.0.usernames == store.usernames && r.0.notifications == store.notifications && r.0.history == store.history
    ensures r.0.messages.Keys == store.messages.Keys
    ensures forall k :: k in store.messages ==>
      r.0.messages[k] == (if k in ForUser(store, user) then store.messages[k].(read := true) else store.messages[k])
  {
    var unread := ForUser(store, user);
    var messages := map k | k in store.messages :: if k in unread then store.messages[k].(read := true) else store.messages[k];
    (store.(messages := messages), |unread|)
  }

  /** `count_unread(user)`. */
  function CountUnread(store: Store, user: UserKey): (r: nat)
  {
    |ForUser(store, user)|
  }

  /** `get_unread_by_sender(user, sender)`. */
  function UnreadBySender(store: Store, user: UserKey, sender: UserKey): (r: set<MessageKey>)
  {
    set k | k in ForUser(store, user) && store.messages[k].sender == sender
  }

  /** After marking, nothing is unread for the user, so the count is zero
      and a second call reports no rows and changes nothing; the count
      before marking is what the call reports. */
  lemma MarkAsReadEmptiesUnread(store: Store, user: UserKey)
    ensures var (s, n) := MarkAsRead(store, user);
      && ForUser(s, user) == {}
      && CountUnread(s, user) == 0
      && n == CountUnread(store, user)
      && MarkAsRead(s, user) == (s, 0)
  {
    var s := MarkAsRead(store, user).0;
    assert ForUser(s, user) == {} by {
      forall k | k in s.messages
        ensures !(s.messages[k].receiver == user && !s.messages[k].read)
      {
      }
    }
    var s2 := MarkAsRead(s, user).0;
    assert s2.messages == s.messages;
  }

  /** Marking one user's messages leaves every other user's unread
      messages, and every message read or received by someone else,
      untouched. */
  lemma MarkAsReadIsolated(store: Store, user: UserKey, other: UserKey)
    requires other != user
    ensures var s := MarkAsRead(store, user).0;
      && ForUser(s, other) == ForUser(store, other)
      && (forall k :: k in store.messages && store.messages[k].receiver != user ==> s.messages[k] == store.messages[k])
  {
    var s := MarkAsRead(store, user).0;
    assert ForUser(s, other) == ForUser(store, other) by {
      forall k | k in store.messages
        ensures (k in ForUser(s, other)) == (k in ForUser(store, other))
      {
      }
    }
  }

  /** The unread messages split by sender: each per-sender set holds only
      unread messages from that sender, every unread message is in the set
      of its own sender, so the per-sender sets partition the unread set and
      their sizes add up to at most the count. */
  lemma UnreadBySenderPartition(store: Store, user: UserKey, a: UserKey, b: UserKey)
    ensures UnreadBySender(store, user, a) <= ForUser(store, user)
    ensures forall k :: k in UnreadBySender(store, user, a) ==> store.messages[k].sender == a
    ensures forall k :: k in ForUser(store, user) ==> k in UnreadBySender(store, user, store.messages[k].sender)
    ensures a != b ==> UnreadBySender(store, user, a) * UnreadBySender(store, user, b) == {}
    ensures a != b ==>
      |UnreadBySender(store, user, a)| + |UnreadBySender(store, user, b)| <= CountUnread(store, user)
  {
    var sa := UnreadBySender(store, user, a);
    var sb := UnreadBySender(store, user, b);
    if a != b {
      assert sa * sb == {};
      assert |sa + sb| == |sa| + |sb|;
      assert sa + sb <= ForUser(store, user);
      SubsetCard(sa + sb, ForUser(store, user));
    }
  }

  lemma {:induction false} SubsetCard<T>(a: set<T>, b: set<T>)
    requires a <= b
    ensures |a| <= |b|
    decreases |b|
  {
    if a != {} {
      var x :| x in a;
      SubsetCard(a - {x}, b - {x});
    }
  }
}

=== FILE: user_table.dfy ===
/** The `user_data` table of the generator exercises, as the dictionary
    cursor returns its rows. */
module UserTable {
  import opened Wrappers

  /** One row: `user_id`, `name`, `email` and `age`. The dictionary cursor
      always returns the `age` key; its value is `None` when the column
      holds SQL `NULL`. The schema declares the column `NOT NULL`, but the
      generators do not rely on that, so the model keeps the case. The
      column is a `DECIMAL` with no scale, so an age is an integer. */
  datatype UserRow = UserRow(userId: string, name: string, email: string, age: Option<int>)

  /** Whether no row has a `NULL` age. */
  predicate AllAged(table: seq<UserRow>)
  {
    forall i :: 0 <= i < |table| ==> table[i].age.Some?
  }

  /** The index of the first row with a `NULL` age, or the number of rows
      when there is none. */
  function FirstNull(table: seq<UserRow>): (k: nat)
    ensures k <= |table|
    ensures forall i :: 0 <= i < k ==> table[i].age.Some?
    ensures k < |table| ==> table[k].age.None?
    ensures k == |table| <==> AllAged(table)
    decreases |table|
  {
    if |table| == 0 || table[0].age.None? then 0
    else
      var rest := FirstNull(table[1..]);
      assert forall i :: 1 <= i < rest + 1 ==> table[i] == table[1..][i - 1];
      rest + 1
  }
}

=== FILE: utils.dfy ===
/** `utils.py` of the GitHub client exercise: walking a key path through
    nested dicts, and the compute-once `memoize` property. `get_json` is
    an HTTP call and appears only as a function parameter of the client. */
module Utils {
  import opened Wrappers
  import opened PyValues

  /** `access_nested_map(nested_map, path)`: subscript with each key of
      `path` in turn. The first failing subscript decides the exception. */
  function AccessNestedMap(nestedMap: Json, path: seq<string>): (r: Result<Json, PyError>)
    ensures |path| == 0 ==> r == Ok(nestedMap)
    ensures |path| > 0 && nestedMap.JMap? && path[0] !in nestedMap.fields ==> r == Err(KeyError(path[0]))
    ensures |path| > 0 && !nestedMap.JMap? ==> r.Err? && r.error.TypeError?
  {
    if |path| == 0 then Ok(nestedMap)
    else
      match Subscript(nestedMap, path[0])
      case Err(e) => Err(e)
      case Ok(child) => AccessNestedMap(child, path[1..])
  }

  /** Continue a lookup that may already have failed. */
  function Then(prev: Result<Json, PyError>, path: seq<string>): Result<Json, PyError>
  {
    match prev
    case Err(e) => Err(e)
    case Ok(v) => AccessNestedMap(v, path)
  }

  /** Walking `p + q` is walking `p` and then walking `q` from where `p`
      ended; an error along `p` is the error of the whole walk. */
  lemma {:induction false} AccessAppend(m: Json, p: seq<string>, q: seq<string>)
    ensures AccessNestedMap(m, p + q) == Then(AccessNestedMap(m, p), q)
  {
    if |p| == 0 {
      assert p + q == q;
    } else {
      assert (p + q)[0] == p[0];
      assert (p + q)[1..] == p[1..] + q;
      match Subscript(m, p[0])
      case Err(_) =>
      case Ok(child) => AccessAppend(child, p[1..], q);
    }
  }

  /** Looking up path `p` followed by key `k` is looking up `k` in the value
      found at `p`; in particular a key missing at the last step raises
      `KeyError(k)`. */
  lemma AccessSnoc(m: Json, p: seq<string>, k: string)
    ensures AccessNestedMap(m, p + [k]) ==
      match AccessNestedMap(m, p)
      case Err(e) => Err(e)
      case Ok(v) => Subscript(v, k)
    ensures (AccessNestedMap(m, p).Ok? && AccessNestedMap(m, p).value.JMap?
             && k !in AccessNestedMap(m, p).value.fields)
            ==> AccessNestedMap(m, p + [k]) == Err(KeyError(k))
  {
    AccessAppend(m, p, [k]);
  }

  /** The docstring example: `{"a": {"b": 2}}` along `("a", "b")` is `2`;
      a missing key raises `KeyError`. A walk into a number raises
      `TypeError` (`1["b"]`), not the `KeyError` the docstring announces
      for every invalid path. */
  lemma AccessExamples()
    ensures AccessNestedMap(JMap(map["a" := JMap(map["b" := JInt(2)])]), ["a", "b"]) == Ok(JInt(2))
    ensures AccessNestedMap(JMap(map[]), ["a"]) == Err(KeyError("a"))
    ensures AccessNestedMap(JMap(map["a" := JInt(1)]), ["a", "b"]).Err?
    ensures AccessNestedMap(JMap(map["a" := JInt(1)]), ["a", "b"]).error.TypeError?
  {
    var inner := JMap(map["b" := JInt(2)]);
    assert AccessNestedMap(inner, ["b"]) == Ok(JInt(2));
    assert ["a", "b"][1..] == ["b"];
    assert AccessNestedMap(JMap(map["a" := JInt(1)]), ["a", "b"])
      == AccessNestedMap(JInt(1), ["b"]);
  }

  /** The attribute under which `memoize` stores the value of method `name`. */
  function AttrName(name: string): string
  {
    "_" + name
  }

  /** One read of a memoized property: the value (or the exception `fn`
      raised), the instance attributes afterwards, and how often `fn` ran. */
  datatype MemoRead<V> = MemoRead(value: Result<V, PyError>, attrs: map<string, V>, calls: nat)

  /** The memoized property `name` read on an instance with attributes
      `attrs`; `fnResult` is what `fn(self)` would produce if called now. */
  function Memoize<V>(attrs: map<string, V>, name: string, fnResult: Result<V, PyError>): (r: MemoRead<V>)
    ensures AttrName(name) in attrs ==>
      r.calls == 0 && r.attrs == attrs && r.value == Ok(attrs[AttrName(name)])
    ensures AttrName(name) !in attrs ==> r.calls == 1 && r.value == fnResult
    ensures AttrName(name) !in attrs && fnResult.Ok? ==>
      r.attrs == attrs[AttrName(name) := fnResult.value]
    ensures fnResult.Err? ==> r.attrs == attrs
    ensures forall a :: a in attrs ==> a in r.attrs && r.attrs[a] == attrs[a]
  {
    var attr := AttrName(name);
    if attr in attrs then MemoRead(Ok(attrs[attr]), attrs, 0)
    else
      match fnResult
      case Ok(v) => MemoRead(Ok(v), attrs[attr := v], 1)
      case Err(e) => MemoRead(Err(e), attrs, 1)
  }

  /** Reads the property once per element of `later`, each element being
      what `fn` would return at that read; yields the values read and the
      total number of `fn` calls. */
  function ReadMany<V>(attrs: map<string, V>, name: string, later: seq<Result<V, PyError>>)
    : (r: (seq<Result<V, PyError>>, nat))
    ensures |r.0| == |later|
    decreases |later|
  {
    if |later| == 0 then ([], 0)
    else
      var first := Memoize(attrs, name, later[0]);
      var rest := ReadMany(first.attrs, name, later[1..]);
      ([first.value] + rest.0, first.calls + rest.1)
  }

  /** Once a memoized value is stored, every later read returns it and
      `fn` is never called again, whatever `fn` would now return. */
  lemma {:induction false} MemoizeStable<V>(attrs: map<string, V>, name: string, fnResult: Result<V, PyError>,
                                            later: seq<Result<V, PyError>>)
    requires fnResult.Ok? || AttrName(name) in attrs
    ensures var first := Memoize(attrs, name, fnResult);
      var rest := ReadMany(first.attrs, name, later);
      rest.1 == 0 && forall i :: 0 <= i < |later| ==> rest.0[i] == first.value
  {
    var first := Memoize(attrs, name, fnResult);
    StoredReadsAreConstant(first.attrs, name, later);
  }

  lemma {:induction false} StoredReadsAreConstant<V>(attrs: map<string, V>, name: string,
                                                     later: seq<Result<V, PyError>>)
    requires AttrName(name) in attrs
    ensures var rest := ReadMany(attrs, name, later);
      rest.1 == 0 && forall i :: 0 <= i < |later| ==> rest.0[i] == Ok(attrs[AttrName(name)])
  {
    if |later| > 0 {
      StoredReadsAreConstant(attrs, name, later[1..]);
    }
  }
}

=== FILE: wrappers.dfy ===
/** Failure-carrying datatypes shared by every module of the model:
    `Option` stands for Python's `None`-or-value, `Result` for a value or a
    raised exception. */
module Wrappers {

  datatype Option<+T> = None | Some(value: T) {

    /** The wrapped value, or `default` when there is none. */
    function GetOr(default: T): T {
      match this
      case Some(v) => v
      case None => default
    }
  }

  datatype Result<+T, +E> = Ok(value: T) | Err(error: E) {

    /** The error, if there is one. */
    function ErrorOption(): Option<E> {
      match this
      case Ok(_) => None
      case Err(e) => Some(e)
    }
  }
}
